=== FILE: README.md ===
# Tribune secure aggregation, modelled in Dafny

Tribune is a small secure-aggregation system. A server keeps a roster of
connected clients. It announces computation events to a random selection of
them, collects each participant's result, and aggregates the results with a
registered MPC module once enough have arrived.

Each participating client does three things:
- it collects its private data through a data collection module;
- it splits the data into shards, one per participant;
- it sends each other participant its shard, signed with Ed25519.

A participant adds up the shards it receives with an MPC computation once it
holds one from every participant, and submits the result to the server.

Two applications sit on this core:
- a secure sum of small integers;
- federated training of a four-weight logistic model. In this one the
  gradients are meant to be hidden from the aggregator by pairwise masks
  that cancel in the sum. As the mask secret is written, the two ends of a
  pair derive different secrets, so the masks do not cancel (see
  "## Findings"). The model proves cancellation for a corrected secret.

A Python script drives the federated demo. It reads the logs, captures the
local and global gradients per training round, and checks that each global
gradient is the sum of the local ones.

The model is pure and functional:
- Every entity is a datatype.
- Every handler is a function from the old state and the request to the new
  state and the reply.
- Every loop over a collection is a recursive function or a fold.
- The clocks, the random number generators, `std::hash`, libsodium's signing
  and verification, double formatting and `std::stod` are parameters.
- Iteration over an `unordered_map` is a duplicate-free listing of its keys
  (`Listing.Enumerates`), also passed in as a parameter.
- Times are integers counting nanoseconds. `duration_cast` truncates toward
  zero (`Clock.TruncDiv`).
- JSON is the `Json.Value` datatype. A text that does not parse is `None`.

Modules:
- Support: `Wrappers`, `Text`, `Clock`, `Json`, `Listing`.
- Protocol: `Events`, `Parser`, `ErrorCodes`, `Signature`.
- Server side: `ClientStates`, `Pool`, `Server`.
- Client side: `Config`, `Uuid`, `BasicClient`, `Client`.
- Computations: `Sum`, `Federated`.
- Data modules: `Logout`, `ExampleData`, `RecordData`.
- Demo script: `Numbers`, `Harness`.

The header `include/events/events.hpp` and the code that uses it disagree,
and the model follows the code:
- The server and client code read and write a public key on `ClientInfo`,
  and a signature and timestamp on `Event` and `PeerDataMessage`.
- The header's structures have none of these fields.
- So the model adds the fields to the datatypes.
- The JSON mappings write and read only the keys the header lists, as the
  header's `to_json`/`from_json` do. The extra fields are therefore lost on
  the wire.

Two consequences follow and are proved:
- A peer shard received through the `/peer-data` route never passes
  signature checking (`Client.PeerRouteNeverAccepts`).
- An event received over the wire carries no participant keys
  (`Client.WireEventRefusesShards`).

The client constructor's placeholder signing key is `"dummy_private_key_"`
followed by the 43-character identifier. That is 61 characters, not the 128
hex characters `createSignature` demands, so a client built this way never
sends a shard (`Client.DummyKeyNeverShares`). This is listed under
"## Findings" with the keyed constructor (`Client.NewKeyedClient`) as the
corrected half.

## Model

| member | source | states |
|---|---|---|
| Clock.TruncDiv | src/server/client_state.cpp:5 | the quotient is truncated toward zero: it brackets the dividend from below for non-negative values and from above for negative ones |
| Clock.WholeSecondsMonotonic | include/utils/connection_pool.hpp:25-29 | whole elapsed seconds never decrease as the elapsed duration grows |
| ClientStates.UpdatePingTime | src/server/client_state.cpp:9-11 | the ping time becomes the current clock reading, nothing else of the client changes, and the client is then alive under any positive timeout |
| ClientStates.NotAliveWithoutTimeout | src/server/client_state.cpp:3-7 | with a timeout of zero or less no client is alive |
| ClientStates.StaysDead | src/server/client_state.cpp:3-7 | without a new ping, a client found dead stays dead at every later time |
| ClientStates.AliveWindow | src/server/client_state.cpp:3-7 | a client is alive exactly while less than the timeout in whole nanoseconds has passed since its ping |
| Json.At | include/events/events.hpp:53-58 | a lookup succeeds exactly when the value is an object holding the key, and yields that key's value |
| Json.GetInt32 | include/client/client_config.hpp:41-48 | an integer conversion accepts exactly the numbers and booleans and wraps the value into 32-bit two's complement, leaving in-range values unchanged |
| Json.GetInteger | include/events/events.hpp:78 | a conversion to the library's 64-bit integer type accepts exactly integers and doubles (a boolean throws) and keeps an integer as stored |
| Json.GetRealArray | apps/federated-machinelearning/src/federated_computation.cpp:110-118 | conversion to a vector of doubles succeeds exactly for arrays whose every item is an integer or a double, item by item |
| Json.BooleanItemRefused | apps/federated-machinelearning/src/federated_computation.cpp:110-118 | an array with a boolean item anywhere does not convert to a vector of doubles |
| Json.RealsRoundTrip | apps/federated-machinelearning/src/federated_computation.cpp:120-123 | a vector of doubles written as JSON converts back to itself |
| Listing.EnumerationLength | src/server/tribune_server.cpp:317-355 | a duplicate-free listing of a key set is exactly as long as the set |
| Events.ClientInfoToJson | include/events/events.hpp:103-107 | a participant serializes to an object with exactly the three keys id, host and port |
| Events.ClientInfoFromJson | include/events/events.hpp:109-113 | a participant converts exactly when id, host and port are all strings, and carries the id it was given |
| Events.ClientInfoRoundTrip | include/events/events.hpp:103-113 | a participant read back from its JSON keeps id, host and port, and loses its public key |
| Events.EventToJson | include/events/events.hpp:49-51 | an event serializes to an object with exactly the keys type, event id, computation type and participants |
| Events.EventFromJson | include/events/events.hpp:53-58 | an event converts exactly when its type is numeric, its id and computation type are strings, and its participants are an array whose every item converts; it then carries the type, id, computation type and participants it was given |
| Events.EventRoundTrip | include/events/events.hpp:49-58 | an event read back from its JSON keeps kind, id, computation type and participants, and loses the server's signature and timestamp |
| Events.EventResponseToJson | include/events/events.hpp:61-70 | a response serializes to exactly five keys, with the timestamp written in whole milliseconds |
| Events.EventResponseFromJson | include/events/events.hpp:72-81 | a response converts exactly when its type is numeric, its id, client and data keys hold strings and its timestamp is an integer or a double (not a boolean); the timestamp is read as milliseconds |
| Events.BooleanTimestampRefused | include/events/events.hpp:78-80 | a response whose timestamp is a boolean does not convert |
| Events.OnWireResponse | include/events/events.hpp:67-69 | the wire keeps every field of a response and moves its timestamp by less than one millisecond |
| Events.EventResponseRoundTrip | include/events/events.hpp:61-81 | a response read back from its JSON differs only in the sub-millisecond part of the timestamp, and a second trip changes nothing more |
| Events.ConnectResponseToJson | include/events/events.hpp:84-91 | a connect request serializes to exactly its six keys |
| Events.ConnectResponseFromJson | include/events/events.hpp:93-100 | a connect request converts exactly when its type is numeric and its five other keys are strings |
| Events.ConnectResponseRoundTrip | include/events/events.hpp:84-100 | a connect request read back from its JSON is the request itself |
| Events.PeerDataToJson | include/events/events.hpp:116-120 | a peer message serializes to exactly event id, sender and data |
| Events.PeerDataFromJson | include/events/events.hpp:122-126 | a peer message converts exactly when its three keys are strings |
| Events.PeerDataRoundTrip | include/events/events.hpp:116-126 | a peer message read back from its JSON keeps event, sender and data, and loses its signature and timestamp |
| Parser.WithDefaultType | src/protocol/parser.cpp:23-25 | the body gains a `type` key only when it lacks one; every other key keeps its value |
| Parser.ParseSubmitResponse | src/protocol/parser.cpp:10-34 | non-JSON text and a body missing a required key are refused; an accepted body names the returned response's event and client, has a numeric timestamp and defaults its type to a data part |
| Parser.SubmitBooleanTimestampRefused | src/protocol/parser.cpp:10-34 | a submit body whose timestamp is a boolean is refused even with every required key present |
| Parser.ParseConnectResponse | src/protocol/parser.cpp:35-59 | non-JSON text, a missing required key, and a missing `x25519_pub` are all refused; an accepted body names the returned client |
| Parser.SubmitAcceptsSerialized | src/protocol/parser.cpp:10-34 | a serialized response parses back, up to millisecond truncation of its timestamp |
| Parser.ConnectAcceptsSerialized | src/protocol/parser.cpp:35-59 | a serialized connect request parses back unchanged |
| ErrorCodes.CategoryOf | include/utils/error_codes.hpp:108-117 | zero and values outside 1000-5999 have no category; every other value falls in the category of its thousand |
| ErrorCodes.CodesInDeclaredRange | include/utils/error_codes.hpp:19-56 | every named code lies in the numeric range of the category its name declares |
| ErrorCodes.Named | include/utils/error_codes.hpp:120-159 | a value recognised as a named code is that code's value |
| ErrorCodes.NamedInvertsValue | include/utils/error_codes.hpp:120-159 | every named code's value is recognised as that code |
| ErrorCodes.ErrorToString | include/utils/error_codes.hpp:120-159 | an unnamed value gets the unknown-error message; a named one gets its own message |
| ErrorCodes.MessageCodeInverts | include/utils/error_codes.hpp:120-159 | a code's message reads back as that code and is never the unknown-error message |
| ErrorCodes.MessagesDistinct | include/utils/error_codes.hpp:120-159 | distinct named codes get distinct messages, none of them the unknown one |
| ErrorCodes.OfValue | include/utils/error_codes.hpp:62 | a result built from a value is a success with that value and no message |
| ErrorCodes.OfCode | include/utils/error_codes.hpp:63-65 | a result built from a code carries the code and message, holds no value, and is an error exactly when the code is non-zero |
| ErrorCodes.VoidSuccess | include/utils/error_codes.hpp:89 | the default void result is a success with no message |
| ErrorCodes.VoidOfCode | include/utils/error_codes.hpp:90-92 | a void result built from a code tests true exactly when the code is zero |
| Signature.CreateMessage | src/crypto/signature.cpp:8-10 | the signed text is the event id, a bar, the sender, a bar and the data, each readable at its own offset |
| Signature.EncodeByte | src/crypto/signature.cpp:41-47 | a byte is written as two lowercase hex digits |
| Signature.Encode | src/crypto/signature.cpp:119-134 | bytes are written as twice as many lowercase hex digits |
| Signature.StoiHexPair | src/crypto/signature.cpp:25-26 | two hex digits read as the byte they spell; whatever is read stays within what a two-character base-16 `stoi` can give |
| Signature.Decode | src/crypto/signature.cpp:72-84 | a decoded key or signature has half as many bytes as its text has characters |
| Signature.DecodeEncode | src/crypto/signature.cpp:23-47 | hex encoding followed by decoding gives back the original bytes |
| Signature.CreateSignature | src/crypto/signature.cpp:12-51 | signing fails exactly when the key is not 128 characters or does not decode; on success the signature is the hex form of what the signer produces for the decoded key |
| Signature.VerifySignature | src/crypto/signature.cpp:53-104 | a key or signature of the wrong length is rejected; otherwise the answer is the verifier's on the decoded bytes, and undecodable text is rejected |
| Signature.GenerateKeyPair | src/crypto/signature.cpp:106-139 | the generated keys are 64 and 128 hex characters and decode back to the raw key bytes |
| Signature.SignThenVerify | src/crypto/signature.cpp:12-104 | with a generated key pair, creating a signature succeeds, and verification accepts it whenever the verifier accepts the raw signature |
| Pool.MakeKey | include/utils/connection_pool.hpp:41-43 | the key starts with the host followed by a colon |
| Pool.MakeKeyInjective | include/utils/connection_pool.hpp:41-43 | distinct host and port pairs get distinct keys |
| Pool.GetConnection | include/utils/connection_pool.hpp:46-66 | a live pooled connection for the target is reused with its creation time and marked used now; a missing or expired one is replaced by a fresh one; the connection handed out is never expired and the other connections are untouched |
| Pool.Remove | include/utils/connection_pool.hpp:68-72 | the target's connection is gone and every other connection is kept unchanged |
| Pool.Cleanup | include/utils/connection_pool.hpp:74-92 | exactly the unexpired connections remain, unchanged |
| Pool.Active | include/utils/connection_pool.hpp:94-103 | the active keys are exactly those of unexpired connections |
| Pool.CleanupKeepsActive | include/utils/connection_pool.hpp:74-103 | after a cleanup every remaining connection is active, the active set is unchanged, and a second cleanup does nothing |
| Pool.FreshConnectionSurvives | include/utils/connection_pool.hpp:25-92 | a connection just handed out survives any cleanup within the 60-second timeout |
| Config.Convert | include/client/client_config.hpp:41-48 | a string field accepts exactly a JSON string, taking its text; a numeric field accepts exactly a number or a boolean, a boolean reading as 0 or 1 |
| Config.Set | include/client/client_config.hpp:41-48 | writing one field leaves every other field as it was |
| Config.Reached | include/client/client_config.hpp:41-51 | the fields processed before the first failing conversion all convert, and the one stopped at does not |
| Config.OverrideFields | include/client/client_config.hpp:41-51 | a field takes the file's value exactly when it is reached and present; otherwise it keeps its earlier value |
| Config.Load | include/client/client_config.hpp:23-53 | a missing or unparseable file leaves every field at its default |
| Config.LoadField | include/client/client_config.hpp:23-53 | after construction a field holds the file's value exactly when its key is present and reached before a failing conversion, and the default otherwise |
| Config.OrderDistinct | include/client/client_config.hpp:41-48 | the constructor assigns every field exactly once |
| Config.LoadWellTyped | include/client/client_config.hpp:23-53 | when every key has the right kind, each present key overrides exactly its own field |
| Uuid.Digits | src/client/tribune_client.cpp:42-59 | the digits read out of an identifier are 32 values below 16 |
| Uuid.GenerateUuid | src/client/tribune_client.cpp:42-59 | the identifier is `client-` and the 32 digits in lowercase hex with dashes at the UUID positions, and its digits read back as those given |
| Uuid.PrefixedDigits | src/client/client.cpp:23-40 | the prefixed digit and dash layout is a well-formed identifier whose digits read back |
| BasicClient.NewBasicClient | src/client/client.cpp:8-17 | a new client has a well-formed fresh identifier, the given endpoints, and is neither running nor serving |
| BasicClient.StartListening | src/client/client.cpp:106-110 | starting raises the running flag and the listener and keeps identity and endpoints |
| BasicClient.Stop | src/client/client.cpp:127-138 | stopping a running client stops the listener; stopping a stopped client changes nothing |
| BasicClient.StopSettles | src/client/client.cpp:106-138 | stopping twice is stopping once, and a started client stops fully |
| BasicClient.OnEventAnnouncement | src/client/client.cpp:117-125 | an announcement leaves the basic client unchanged |
| BasicClient.EventRoute | src/client/client.cpp:83-103 | the route answers 200 exactly when the body converts to an event, otherwise 400, and never changes the client |
| Client.NewClient | src/client/tribune_client.cpp:14-15 | a new client has the given identifier, the placeholder key derived from it, and no events, shards or orphans |
| Client.PutShard | src/client/tribune_client.cpp:192-196 | the shard is filed under its event and sender; every other event's shards and every other sender's shard stay as they were |
| Client.OnEventAnnouncement | src/client/tribune_client.cpp:163-199 | the event is always recorded; the collected data (or the no-module placeholder) becomes the client's own shard, while a collector that throws leaves the shards as they were; nothing else changes |
| Client.OthersOf | src/client/tribune_client.cpp:293-297 | the peers are exactly the participants other than the client itself |
| Client.WithPorts | src/client/tribune_client.cpp:304-305 | exactly the peers whose port the converter (`std::stoi`, Sum.Stoi) reads are kept, in order, each with the port read |
| Client.AddressCovers | src/client/tribune_client.cpp:293-320 | every addressed peer gets a message, and every message goes to an addressed peer |
| Client.ShareDataWithPeers | src/client/tribune_client.cpp:288-335 | messages go only to participants other than the client whose port converts, on that port; none are sent when signing fails; otherwise every such peer gets a message carrying the data and the signature |
| Client.DummyKeyNeverShares | src/client/tribune_client.cpp:15 | a client built by the constructor with a generated identifier sends no shards at all |
| Client.NewKeyedClient | src/client/tribune_client.cpp:15 | a client built with a generated Ed25519 key pair holds the 128-hex-character private half, which decodes to the secret key |
| Client.KeyedClientShares | src/client/tribune_client.cpp:15 | a client built with a generated key pair sends its data to every other participant whose port reads as a number |
| Client.SenderKey | src/client/tribune_client.cpp:219-225 | an unlisted sender's key is empty; a listed sender's key is the key of the first participant with its id |
| Client.AllPresent | src/client/tribune_client.cpp:353-357 | true exactly when every participant has a shard |
| Client.HasAllShards | src/client/tribune_client.cpp:337-360 | an event is complete exactly when it is known, has shards, and every participant has sent one |
| Client.EvictOldest | src/client/tribune_client.cpp:266-271 | a store below the limit is left alone; otherwise the oldest orphan events are dropped until exactly one fewer than the limit remain; the survivors are the newest, unchanged |
| Client.FileOrphan | src/client/tribune_client.cpp:273-277 | the shard is filed among the orphans, the queue still lists each orphan event once, and at most one event is added |
| Client.AddOrphan | src/client/tribune_client.cpp:262-280 | the new shard is filed in the store left by eviction, so every other kept orphan and every other sender's shard for the event survive; the store never exceeds its limit and nothing else changes |
| Client.OnPeerData | src/client/tribune_client.cpp:201-281 | a shard for an unknown event is filed as an orphan exactly as AddOrphan files it; a shard is accepted exactly when its event is known, the sender is listed and the signature verifies; a bad signature changes nothing |
| Client.CollectShards | src/client/tribune_client.cpp:386-391 | every collected shard is the shard of some participant |
| Client.CollectShardsAppend | src/client/tribune_client.cpp:386-391 | collecting over two runs of participants gives the first run's shards followed by the second's |
| Client.CollectShardsOne | src/client/tribune_client.cpp:386-391 | one participant contributes its shard when it has one, and nothing otherwise |
| Client.CollectComplete | src/client/tribune_client.cpp:386-391 | with every shard present, collection yields exactly one shard per participant, in participant order |
| Client.ComputeResult | src/client/tribune_client.cpp:362-406 | a result exists exactly when the event is complete and its computation is registered, and is that computation over the collected shards |
| Client.CompleteEventComputesOverAll | src/client/tribune_client.cpp:362-406 | for a complete event the computation receives every participant's shard, in participant order |
| Client.EventEndpoint | src/client/tribune_client.cpp:102-124 | a body that does not convert to an event gets 400 and changes nothing; otherwise the announcement is handled, and the route answers 200 exactly when collecting succeeded, sending what sharing the collected data sends; a failed collection gets 400 and sends nothing |
| Client.PeerDataEndpoint | src/client/tribune_client.cpp:127-149 | the route answers 200 exactly when the body converts to a peer message, and the new state and outcome are then those of handling that message; a refused body changes nothing |
| Client.PeerRouteNeverAccepts | src/client/tribune_client.cpp:127-149 | no shard arriving through the route is accepted, so the client's shards never change |
| Client.WireEventRefusesShards | src/client/tribune_client.cpp:219-237 | for an event that came over the wire, no peer shard is accepted |
| Server.JoinCommaContains | src/server/tribune_server.cpp:106-124 | every joined item occurs in the joined text |
| Server.Entries | src/server/tribune_server.cpp:113-119 | one `host:port` entry per roster client, in iteration order |
| Server.Peers | src/server/tribune_server.cpp:106-124 | the reply is the peers head, the roster's entries joined by commas in iteration order, and `]}`; an empty roster gives an empty list, and every client's `host:port` occurs in the reply |
| Server.SplitJoinComma | src/server/tribune_server.cpp:113-119 | splitting at the commas gives back the joined items when none of them holds a comma |
| Server.PeersListsRoster | src/server/tribune_server.cpp:106-124 | when no host or port holds a comma, the list in the reply splits into exactly one entry per roster client, in iteration order |
| Server.Connect | src/server/tribune_server.cpp:126-155 | an unparseable request is refused with 400 and no change; a parseable one files a fresh state under the client's id and answers 200 |
| Server.CheckComplete | src/server/tribune_server.cpp:411-486 | exactly the complete events leave the active set and the response store; a result is stored exactly for events whose module exists and whose announcer wants one; nothing else changes |
| Server.CheckCompleteLeavesNoneComplete | src/server/tribune_server.cpp:411-486 | after a check no remaining event is complete |
| Server.CheckCompleteSettles | src/server/tribune_server.cpp:411-486 | a second check right after the first changes nothing |
| Server.Store | src/server/tribune_server.cpp:208-209 | the response is filed under its event and client, replacing that client's earlier one, and other events are untouched |
| Server.Submit | src/server/tribune_server.cpp:156-232 | a response is accepted with 200 exactly when it parses and comes from a roster client, and is then stored and completion is checked; anything else gets 400 and no change |
| Server.SubmitKeepsIncomplete | src/server/tribune_server.cpp:156-232 | an accepted response to an event that stays incomplete is still on file afterwards |
| Server.AnnounceEvent | src/server/tribune_server.cpp:259-271 | a new event becomes active under its own id, expecting one response per participant, with its creation time and the caller's result wish; an event already active is left alone |
| Server.SelectParticipants | src/server/tribune_server.cpp:317-355 | too small a roster selects nobody; otherwise the first min(roster size, maximum) shuffled clients are selected, each with its roster details |
| Server.SelectionDistinct | src/server/tribune_server.cpp:317-355 | the selected participants are distinct roster members |
| Server.CreateEvent | src/server/tribune_server.cpp:357-382 | no participants means no event; otherwise the event carries the selection and the server's signature over id, type and participant count, and a key the signer refuses makes creation fail |
| Server.CreateEventWithServerKeys | src/server/tribune_server.cpp:11-23 | with the key pair made at start-up, creation never fails, makes an event exactly when the roster reaches the minimum and someone may be chosen, and the event's signature verifies whenever Ed25519 accepts the raw signature |
| Server.Ping | src/server/tribune_server.cpp:391-409 | a ping from a roster client restarts its liveness clock and answers 200; an unparseable one gets 400 and an unknown client 404, both without change |
| Server.TimeoutSweep | src/server/tribune_server.cpp:506-538 | exactly the timed-out events are dropped, with their responses; the roster and results are untouched |
| Server.EventCheckerTick | src/server/tribune_server.cpp:488-554 | after one round no remaining event is timed out or complete, and the roster is untouched |
| Server.PingSweep | src/server/tribune_server.cpp:577-611 | a client leaves the roster exactly when it is no longer alive and takes part in no active event; those that stay are unchanged |
| Server.PingedClientSurvives | src/server/tribune_server.cpp:391-611 | a client that has just pinged survives the next eviction pass under any positive timeout |
| Sum.SkipSpace | src/mpc/sum_computation.cpp:48 | what remains is a suffix not starting with white space, and text not starting with white space is kept whole |
| Sum.DigitPrefix | src/mpc/sum_computation.cpp:48 | the prefix is the longest run of decimal digits at the start |
| Sum.Stoi | src/mpc/sum_computation.cpp:48 | every value read lies in the range of a C++ int |
| Sum.StoiReadsRendered | src/mpc/sum_computation.cpp:48 | a rendered int reads back as itself |
| Sum.RoundHalfAway | src/mpc/sum_computation.cpp:26 | the result is the nearest integer, with halves rounded away from zero |
| Sum.ParsedTotalAppend | src/mpc/sum_computation.cpp:8-32 | the total of two runs of shards is the sum of their totals |
| Sum.Compute | src/mpc/sum_computation.cpp:8-32 | no shards give `"0"`; what the total means is stated by its partners Sum.ParsedTotalAppend and Sum.ComputeSkipsUnreadable |
| Sum.ComputeSkipsUnreadable | src/mpc/sum_computation.cpp:15-23 | an unreadable shard changes nothing, wherever it stands |
| Sum.Aggregate | src/mpc/sum_computation.cpp:34-60 | no results give `"0"`; what the total means is stated by its partners Sum.AggregateOrderFree and Sum.AggregateOfRendered |
| Sum.ReadTotalAppend | src/mpc/sum_computation.cpp:34-60 | the total of two runs of results is the sum of their totals |
| Sum.ReadTotalPermutation | src/mpc/sum_computation.cpp:34-60 | reordering the results leaves the total unchanged |
| Sum.AggregateOrderFree | src/mpc/sum_computation.cpp:34-60 | the aggregate does not depend on the order the results arrive in |
| Sum.AggregateOfRendered | src/mpc/sum_computation.cpp:34-60 | aggregating the rendered client values gives the rendering of their sum |
| Federated.NewFederated | apps/federated-machinelearning/src/federated_computation.cpp:6-11 | a new computation has four zero weights and the given learning rate |
| Federated.AddGradients | apps/federated-machinelearning/src/federated_computation.cpp:125-140 | an empty operand yields the other; two non-empty operands of different sizes fail; otherwise the sum is taken entry by entry |
| Federated.AddGradientsCommute | apps/federated-machinelearning/src/federated_computation.cpp:125-140 | adding gradients does not depend on operand order, including its failures |
| Federated.DeserializeGradient | apps/federated-machinelearning/src/federated_computation.cpp:110-118 | an array of integers and doubles reads as its values; anything else, an array with a boolean item included, reads as the empty gradient |
| Federated.BooleanGradientEmpty | apps/federated-machinelearning/src/federated_computation.cpp:110-118 | an array with a boolean item reads as the empty gradient |
| Federated.SerializeGradient | apps/federated-machinelearning/src/federated_computation.cpp:120-123 | a serialized gradient reads back as itself |
| Federated.Step | apps/federated-machinelearning/src/federated_computation.cpp:27-49 | once the sum has started, a step keeps its length |
| Federated.Accumulate | apps/federated-machinelearning/src/federated_computation.cpp:27-49 | once the sum has started, its length never changes |
| Federated.Compute | apps/federated-machinelearning/src/federated_computation.cpp:13-59 | no shards give the empty array; otherwise the result reads back as the accumulated sum |
| Federated.AccumulateAddsTotal | apps/federated-machinelearning/src/federated_computation.cpp:27-49 | once started, the loop adds exactly the shards whose gradient has the running length; the rest count as zero |
| Federated.ComputeSumsMatching | apps/federated-machinelearning/src/federated_computation.cpp:13-59 | the sum starts at the first readable gradient and then adds every later gradient of the same length |
| Federated.SkipLeading | apps/federated-machinelearning/src/federated_computation.cpp:27-49 | unreadable shards before the first gradient contribute nothing |
| Federated.ComputeOfNothing | apps/federated-machinelearning/src/federated_computation.cpp:27-49 | when no shard yields a gradient, the sum is empty |
| Federated.ApplyGradient | apps/federated-machinelearning/src/federated_computation.cpp:171-195 | non-empty weights of a different size fail; otherwise each weight moves against the gradient by the learning rate, starting from zeros when there are no weights |
| Federated.ApplyGradientUndo | apps/federated-machinelearning/src/federated_computation.cpp:171-195 | applying the negated gradient undoes a step |
| Federated.SetModelWeights | apps/federated-machinelearning/src/federated_computation.cpp:142-149 | the weights read afterwards are the ones set, and the learning rate is kept |
| Federated.SerializeModelWeights | apps/federated-machinelearning/src/federated_computation.cpp:151-156 | the JSON holds the weights beside the learning rate |
| Federated.DeserializeModelWeights | apps/federated-machinelearning/src/federated_computation.cpp:158-169 | non-JSON text and an object without weights read as empty; otherwise the weights are read item by item, and read as empty when they are not an array of integers and doubles (a boolean item included) |
| Federated.WeightsRoundTrip | apps/federated-machinelearning/src/federated_computation.cpp:151-169 | serialized weights read back as themselves |
| Federated.AggregateResults | apps/federated-machinelearning/src/federated_computation.cpp:61-108 | no results give the empty weights and no update; otherwise the summed gradient is applied to the weights, and a size mismatch fails |
| Federated.AggregateOfUnreadableThrows | apps/federated-machinelearning/src/federated_computation.cpp:61-108 | with weights in place, a batch with no readable gradient fails |
| Logout.ShardDataWithoutEvent | apps/federated-machinelearning/src/federated_logout_module.cpp:51-55 | sharding without the event context always fails |
| Logout.MaskWith | apps/federated-machinelearning/src/federated_logout_module.cpp:257-265 | each entry gains the peer's mask term: added toward a larger id, subtracted toward a smaller one, nothing for itself |
| Logout.ApplyMasks | apps/federated-machinelearning/src/federated_logout_module.cpp:247-269 | each entry gains the masks for every participant |
| Logout.TermsCancel | apps/federated-machinelearning/src/federated_logout_module.cpp:257-265 | when both ends of a pair derive the same mask, their two terms for each other cancel |
| Logout.MasksVanish | apps/federated-machinelearning/src/federated_logout_module.cpp:247-269 | when both ends of every pair derive the same mask, all the masks together add up to zero |
| Logout.MaskedColumns | apps/federated-machinelearning/src/federated_logout_module.cpp:247-269 | the column sum of the masked gradients is the sum of the gradients plus the masks |
| Logout.MasksCancel | apps/federated-machinelearning/src/federated_logout_module.cpp:247-269 | when both ends of every pair derive the same mask, the masked gradients sum to the unmasked ones, entry by entry |
| Logout.WrittenSecret | apps/federated-machinelearning/src/federated_logout_module.cpp:208-232 | the secret is decimal digits that read back as the hash of the pair text |
| Logout.WrittenTextsDiffer | apps/federated-machinelearning/src/federated_logout_module.cpp:208-232 | as written, two clients with different private keys hash different texts for their pair |
| Logout.GeneratedKeysDisagree | apps/federated-machinelearning/src/federated_logout_module.cpp:208-232 | with key pairs from the key generator, two clients with different private keys hash different texts for their pair |
| Logout.WrittenMasksDoNotCancel | apps/federated-machinelearning/src/federated_logout_module.cpp:208-269 | as written, two participants' masked zero gradients can add up to -9 instead of 0 |
| Logout.PairTextSymmetric | apps/federated-machinelearning/src/federated_logout_module.cpp:208-232 | the corrected pair text is the same at both ends of the pair |
| Logout.PairMasksAgree | apps/federated-machinelearning/src/federated_logout_module.cpp:208-245 | under the corrected secret both ends of every pair derive the same mask |
| Logout.PairMasksCancel | apps/federated-machinelearning/src/federated_logout_module.cpp:208-269 | under the corrected secret the masked gradients sum to the unmasked ones, entry by entry |
| Logout.ShareVectors | apps/federated-machinelearning/src/federated_logout_module.cpp:95-107 | there are n shares of the gradient's length, and all but the last are the random draws |
| Logout.SharesSum | apps/federated-machinelearning/src/federated_logout_module.cpp:95-107 | the shares add up to the masked value, parameter by parameter |
| Logout.ShardData | apps/federated-machinelearning/src/federated_logout_module.cpp:57-118 | data that is not a gradient is passed on alone; for one shard the masked gradient is sent whole; otherwise there are as many shares as asked, each of the gradient's length, summing to the masked gradient entry by entry, whatever the mask derivation |
| Logout.HoursOnline | apps/federated-machinelearning/src/federated_logout_module.cpp:120-129 | the hours online are those since nine o'clock, never negative |
| Logout.Features | apps/federated-machinelearning/src/federated_logout_module.cpp:24-25 | the features are bias 1, the hour, the day of week and the hours online |
| Logout.EstimateLogoutProbability | apps/federated-machinelearning/src/federated_logout_module.cpp:145-166 | the estimate is the mock probability clamped to between 0.05 and 0.9 |
| Logout.ProbabilityShape | apps/federated-machinelearning/src/federated_logout_module.cpp:145-166 | the estimate is at least 0.1, and at least 0.8 from eight in the evening on |
| Logout.ComputeLogisticGradient | apps/federated-machinelearning/src/federated_logout_module.cpp:168-191 | each entry of the gradient is the prediction error times the matching feature |
| Logout.GradientAlongFeatures | apps/federated-machinelearning/src/federated_logout_module.cpp:168-191 | the gradient is a multiple of the features, and a perfect prediction gives the zero gradient |
| Logout.CollectData | apps/federated-machinelearning/src/federated_logout_module.cpp:15-49 | weights in the metadata that are not an array of integers and doubles fail; otherwise the result is the gradient for the current features, under the given weights or zero weights |
| Logout.BooleanWeightsFail | apps/federated-machinelearning/src/federated_logout_module.cpp:28-31 | weights holding a boolean item make the collection fail |
| ExampleData.PredictableValue | apps/example/src/data_collection_module.cpp:14 | the value lies between 10 and 50 |
| ExampleData.CollectData | apps/example/src/data_collection_module.cpp:7-20 | the data is a decimal number from 10 to 50 that reads back as the client's value |
| ExampleData.Range | apps/example/src/data_collection_module.cpp:45-46 | the share range is at least 100 |
| ExampleData.ShareValues | apps/example/src/data_collection_module.cpp:49-58 | there are n shares that add up to the value, all but the last within the range |
| ExampleData.SpreadWithin | apps/example/src/data_collection_module.cpp:47 | a unit draw lands inside the range |
| ExampleData.ShardData | apps/example/src/data_collection_module.cpp:22-71 | unreadable data is passed on alone; one shard is the formatted value; more shards are the formatted share values |
| RecordData.RecordShape | src/client/data_collection_module.cpp:17-24 | the record is a JSON object that begins with the client id field |
| RecordData.CollectData | src/client/data_collection_module.cpp:7-32 | a non-submission event gets the unknown-type object; a submission gets the client's record with a value from 10 to 50 |
| RecordData.ValueDependsOnlyOnId | src/client/data_collection_module.cpp:7-32 | two records of one client carry the same value; only the time differs |
| Numbers.DigitRun | apps/federated-machinelearning/scripts/run_demo.py:290 | the run is the longest all-digit prefix |
| Numbers.MatchLength | apps/federated-machinelearning/scripts/run_demo.py:290 | a match never reaches past the text |
| Numbers.FindNumbers | apps/federated-machinelearning/scripts/run_demo.py:290 | every found token is non-empty |
| Numbers.Values | apps/federated-machinelearning/scripts/run_demo.py:291 | one value per token, each the float of its token |
| Numbers.FirstBracket | apps/federated-machinelearning/scripts/run_demo.py:283 | a found group is non-empty and holds no closing bracket |
| Numbers.ParseGradient | apps/federated-machinelearning/scripts/run_demo.py:278-291 | a line without a bracket group gives no numbers; otherwise the values of the numbers found in the first group |
| Numbers.SkipPlainText | apps/federated-machinelearning/scripts/run_demo.py:283 | bracket-free text in front of a line does not change the group found |
| Numbers.MatchRendered | apps/federated-machinelearning/scripts/run_demo.py:290 | a printed decimal followed by nothing or a comma is matched whole |
| Numbers.TokenOfRendered | apps/federated-machinelearning/scripts/run_demo.py:291 | a printed decimal reads back as its value |
| Numbers.FindJoined | apps/federated-machinelearning/scripts/run_demo.py:290 | the numbers of a printed vector are found one by one, in order |
| Numbers.ParsePrinted | apps/federated-machinelearning/scripts/run_demo.py:278-291 | a vector printed in brackets after bracket-free text parses back to its values |
| Numbers.JoinShape | apps/federated-machinelearning/scripts/run_demo.py:283 | a printed vector is non-empty and holds no closing bracket |
| Harness.FirstMarker | apps/federated-machinelearning/scripts/run_demo.py:190 | the leftmost position where the marker and a digit occur, or none exactly when there is none |
| Harness.SearchNumber | apps/federated-machinelearning/scripts/run_demo.py:190-194 | none exactly when the marker never precedes a digit; otherwise the number after its first such occurrence |
| Harness.MarkerLineReadsNumber | apps/federated-machinelearning/scripts/run_demo.py:190-194 | a line starting with the marker and a number reads that number |
| Harness.ClientRound | apps/federated-machinelearning/scripts/run_demo.py:188-196 | the round changes only to the number after a marker, and a marker always sets it |
| Harness.ServerRound | apps/federated-machinelearning/scripts/run_demo.py:251-259 | an unmarked server line keeps the round; a marked one sets it to its number |
| Harness.ClientStep | apps/federated-machinelearning/scripts/run_demo.py:188-210 | a local-gradient line is filed for the current round unless the client already has an entry there; other lines change only the round |
| Harness.ServerStep | apps/federated-machinelearning/scripts/run_demo.py:251-264 | a global-gradient line becomes the current round's global line; other rounds and the local entries are untouched |
| Harness.UnmarkedKeepsRound | apps/federated-machinelearning/scripts/run_demo.py:188-196 | a client line without a marker keeps the round |
| Harness.ClientMarkerSetsRound | apps/federated-machinelearning/scripts/run_demo.py:188-196 | a client line starting with the round marker moves the round to its number |
| Harness.SecondLineDiscarded | apps/federated-machinelearning/scripts/run_demo.py:199-210 | a second local line from the same client in the same round is discarded |
| Harness.TenBlocksOne | apps/federated-machinelearning/scripts/run_demo.py:199-210 | an entry of client 10 blocks client 1's line in the same round, because the duplicate test is a substring test |
| Harness.GlobalLastWriteWins | apps/federated-machinelearning/scripts/run_demo.py:262-264 | the later of two global lines for a round wins |
| Harness.ClientStepKeeps | apps/federated-machinelearning/scripts/run_demo.py:199-210 | a client line keeps the capture invariant: every listed round has entries, without duplicates |
| Harness.RunKeeps | apps/federated-machinelearning/scripts/run_demo.py:176-264 | any interleaving of lines keeps the capture invariant |
| Harness.CaptureInvariant | apps/federated-machinelearning/scripts/run_demo.py:39-41 | from the initial globals, capture keeps its invariant over any trace |
| Harness.LocalSum | apps/federated-machinelearning/scripts/run_demo.py:328-335 | the expected global gradient has four entries |
| Harness.LocalSumAppend | apps/federated-machinelearning/scripts/run_demo.py:328-335 | an entry with fewer than four numbers adds nothing; one with more adds its first four |
| Harness.EntryParsesAsLine | apps/federated-machinelearning/scripts/run_demo.py:206 | a stored entry parses like the line it stores |
| Harness.Least | apps/federated-machinelearning/scripts/run_demo.py:315-316 | the least round of a non-empty set |
| Harness.Ascending | apps/federated-machinelearning/scripts/run_demo.py:315-316 | the rounds listed in strictly ascending order, each exactly once |
| Harness.CountTrue | apps/federated-machinelearning/scripts/run_demo.py:370-375 | the count is at most the number of verdicts, and equals it exactly when every verdict passed |
| Harness.Validate | apps/federated-machinelearning/scripts/run_demo.py:293-377 | no local gradients or no global gradients end validation early; otherwise every round is judged in ascending order and the successes counted |
| Harness.Tally | apps/federated-machinelearning/scripts/run_demo.py:345-360 | one verdict per round, each whether the round passes, and the count of those that passed |
| Harness.AllPassedMeansEveryRound | apps/federated-machinelearning/scripts/run_demo.py:370-375 | "all rounds passed" is reported exactly when there was a round and every round passed |

## Left out

- Threads, mutexes, the HTTP server and client, and sleeping loops. Each
  handler is modelled as one atomic step on the state. The periodic checker
  and pinger are modelled as a single pass each, and the demo's reader
  threads as an arbitrary interleaving of their lines.
- Ed25519, X25519 and `sodium_init`. Signing and verification are
  parameters, and a failing `sodium_init` is not modelled.
- The raw key bytes libsodium generates are parameters.
- `std::random_device`, `mt19937`, `normal_distribution`, `std::shuffle`
  and `std::hash` are parameters: a shuffled listing, unit draws, random
  values, the draws of a seeded engine, and hash values. A real key
  agreement (X25519), which would keep the corrected mask secret from
  outsiders, is not modelled: the corrected secret only restores agreement.
- Doubles are exact reals. Rounding in arithmetic, `std::to_string` of a
  double and `std::stod` are parameters, and `exp` in the sigmoid is a
  parameter too.
- Logout.CollectData: `getCurrentHour` and `getCurrentDayOfWeek` are
  parameters, and the event metadata arrives as a parameter.
- Sum.Aggregate: `total += value` on a C++ int is unbounded here. The
  32-bit overflow of a large total is not modelled, and neither is the
  `static_cast<int>` of an out-of-range rounded sum in Sum.Compute.
- Server.CheckComplete: `json::parse` of stored results throwing is not
  modelled. A registered module's aggregation is a parameter.
- Server.SelectParticipants: a negative `max_participants` makes the
  source build a vector from an iterator before `begin()`, which is
  undefined behaviour; the model requires the maximum to be at least zero.
- Server.PingSweep: `std::stoi` of a port throwing is not modelled, and
  neither is the connection-pool removal the sweep also does. Announcing to
  participants and pinging them over HTTP are I/O and left out.
- Module, computation and data-module registration are maps passed in as
  parameters rather than operations.
- Connecting to the seed node and the peers list request are HTTP calls
  and left out.
- The order of the `unordered_map` that `getActiveConnections` walks is
  not modelled: the active connections are a set.
- Logging and the demo script's printed report are left out. Validation
  returns the verdicts instead.
- Numbers.FindNumbers: `\d` matches ASCII digits only. Python's Unicode
  digits are not modelled.
- Harness.Validate: the tolerance 1e-6 is the exact decimal, not the
  nearest double. Lines are taken as already stripped of surrounding white
  space.
- The demo's process management, the build and launch steps, and the
  timeouts are left out. So are the example programs and app `main`
  functions, which only wire the parts together.

## Findings

| source | as written | input that shows it | evidently intended | confidence | as-written member | corrected member |
|---|---|---|---|---|---|---|
| src/client/tribune_client.cpp:15 | the constructor's signing key is the placeholder `"dummy_private_key_"` plus the identifier, 61 characters for a generated identifier, where signing demands 128 hex characters | any generated identifier: signing fails, so the client sends its data to no peer | a real Ed25519 key pair, as the line's own comment says, so the client's shards reach its peers | high (not executed) | Client.DummyKeyNeverShares | Client.KeyedClientShares |
| apps/federated-machinelearning/src/federated_logout_module.cpp:208-232 | the pair secret hashes the client's own private key with the peer's public key, so the two ends of a pair hash different texts and their masks (lines 234-269) do not cancel | client `a` with private key 128 `a`s and public key 64 `c`s, client `b` with 128 `b`s and 64 `d`s, a hash reading the last character, a generator returning its seed, zero gradients: the masked sum is -9 | both ends derive the same secret for their pair, so the masks cancel in the sum | high (not executed) | Logout.WrittenMasksDoNotCancel | Logout.PairMasksCancel |

The as-written derivation is Logout.WrittenMask. Logout.WrittenTextsDiffer
shows the disagreement for all keys of the generated lengths, and also for
the empty public keys of an event read from the wire. The corrected
derivation, Logout.PairMask, joins the pair's two public keys in string
order. It uses string order rather than hash order because equal hashes of
different keys would again give each end a different text.
Logout.ShardData takes the derivation as a parameter, and the cancellation
of the model (Logout.PairMasksCancel) uses the corrected one.

=== FILE: basic_client.dfy ===
/** The minimal client: it announces itself to a seed node, listens for
    event announcements and only acknowledges them. */
module BasicClient {
  import opened Wrappers
  import opened Json
  import Events
  import Uuid

  /** `running` is the listener flag; `serving` says whether the HTTP
      listener has been started and not yet stopped. */
  datatype BasicClient = BasicClient(id: string, seedHost: string, seedPort: int, listenPort: int,
                                     running: bool, serving: bool)

  /** The constructor: a fresh identifier from the caller's 32 digits, not
      yet listening. */
  method NewBasicClient(ns: seq<int>, seedHost: string, seedPort: int, listenPort: int) returns (c: BasicClient)
    requires Uuid.ValidNibbles(ns)
    ensures Uuid.WellFormed(c.id) && c.id[..|Uuid.Prefix|] == Uuid.Prefix
    ensures Uuid.Digits(c.id) == Some(ns)
    ensures c.seedHost == seedHost && c.seedPort == seedPort && c.listenPort == listenPort
    ensures !c.running && !c.serving
  {
    var id := Uuid.GenerateUuid(ns);
    c := BasicClient(id, seedHost, seedPort, listenPort, false, false);
  }

  /** startListening: the flag is raised and the listener started. */
  function StartListening(c: BasicClient): (r: BasicClient)
    ensures r.running && r.serving
    ensures r.id == c.id && r.seedHost == c.seedHost && r.seedPort == c.seedPort && r.listenPort == c.listenPort
  {
    c.(running := true, serving := true)
  }

  /** stop: acts only on a running client, which is left stopped with its
      listener shut down; a stopped client is left exactly as it was. */
  function Stop(c: BasicClient): (r: BasicClient)
    ensures !r.running
    ensures c.running ==> !r.serving
    ensures !c.running ==> r == c
    ensures r.id == c.id && r.seedHost == c.seedHost && r.seedPort == c.seedPort && r.listenPort == c.listenPort
  {
    if c.running then c.(running := false, serving := false) else c
  }

  /** Stopping twice is stopping once, and a started client stops fully. */
  lemma StopSettles(c: BasicClient)
    ensures Stop(Stop(c)) == Stop(c)
    ensures var r := Stop(StartListening(c)); !r.running && !r.serving
  {
  }

  /** onEventAnnouncement only acknowledges: no state changes. */
  function OnEventAnnouncement(c: BasicClient, e: Events.Event): (r: BasicClient)
    ensures r == c
  {
    c
  }

  /** The /event route: 200 exactly when the body converts to an Event,
      400 otherwise; the client is unchanged either way. */
  function EventRoute(c: BasicClient, body: Wire): (r: (BasicClient, int))
    ensures r.0 == c
    ensures r.1 == 200 <==> body.Some? && Events.EventFromJson(body.value).Some?
    ensures r.1 == 200 || r.1 == 400
  {
    match body
    case None => (c, 400)
    case Some(j) =>
      match Events.EventFromJson(j)
      case None => (c, 400)
      case Some(e) => (OnEventAnnouncement(c, e), 200)
  }
}

=== FILE: client.dfy ===
/** The participating client's shard bookkeeping: the events it has been
    told about, the shards it holds per event (its own and those peers
    sent), and a bounded store of shards for events it has not heard of
    yet, evicted oldest event first. */
module Client {
  import opened Wrappers
  import opened Json
  import opened Events
  import opened Listing
  import Signature
  import Uuid
  import Sum

  /** event id -> sender id -> shard data */
  type Shards = map<string, map<string, string>>

  datatype Client = Client(id: string, privateKey: string, events: map<string, Event>,
                           shards: Shards, orphans: Shards, orphanOrder: seq<string>)

  /** The placeholder signing key the constructor derives from the id. */
  const DummyKeyPrefix: string := "dummy_private_key_"

  /** The queue of orphan events lists each orphan event exactly once. */
  predicate OrphansListed(c: Client) {
    Enumerates(c.orphanOrder, c.orphans.Keys)
  }

  /** The constructor, given the identifier generateUUID produced. */
  function NewClient(id: string): (c: Client)
    ensures c.id == id && c.privateKey == DummyKeyPrefix + id
    ensures c.events == map[] && c.shards == map[] && c.orphans == map[]
    ensures OrphansListed(c)
  {
    Client(id, DummyKeyPrefix + id, map[], map[], map[], [])
  }

  /** `shards[eventId][from] = data`, creating the event's map if needed. */
  function PutShard(shards: Shards, eventId: string, from: string, data: string): (r: Shards)
    ensures r.Keys == shards.Keys + {eventId}
    ensures forall e | e in shards && e != eventId :: r[e] == shards[e]
    ensures r[eventId].Keys == (if eventId in shards then shards[eventId].Keys else {}) + {from}
    ensures r[eventId][from] == data
    ensures forall k | k in r[eventId] && k != from :: r[eventId][k] == shards[eventId][k]
  {
    var forEvent := if eventId in shards then shards[eventId] else map[];
    shards[eventId := forEvent[from := data]]
  }

  // ------------------------------------------------------ event announcement

  const NoDataModule: string := "no_data_module_configured"

  /** A data collection module's collectData; a failure is an exception
      thrown out of it. */
  type CollectFn = Event -> Result<string>

  /** onEventAnnouncement's state changes: the event is recorded first
      (replacing one with the same id); then the client's own data becomes
      its shard for the event, unless collecting it threw, which leaves the
      shards as they were. The orphan store is untouched. */
  function OnEventAnnouncement(c: Client, e: Event, collector: Option<CollectFn>): (r: (Client, Result<string>))
    ensures r.1 == (if collector.Some? then collector.value(e) else Success(NoDataModule))
    ensures r.0.events.Keys == c.events.Keys + {e.eventId} && r.0.events[e.eventId] == e
    ensures forall k | k in c.events && k != e.eventId :: r.0.events[k] == c.events[k]
    ensures r.1.Failure? ==> r.0.shards == c.shards
    ensures r.1.Success? ==>
              && r.0.shards.Keys == c.shards.Keys + {e.eventId}
              && r.0.shards[e.eventId].Keys == (if e.eventId in c.shards then c.shards[e.eventId].Keys else {}) + {c.id}
              && r.0.shards[e.eventId][c.id] == r.1.value
              && (forall k | k in r.0.shards[e.eventId] && k != c.id :: r.0.shards[e.eventId][k] == c.shards[e.eventId][k])
              && forall k | k in c.shards && k != e.eventId :: r.0.shards[k] == c.shards[k]
    ensures r.0.id == c.id && r.0.privateKey == c.privateKey
    ensures r.0.orphans == c.orphans && r.0.orphanOrder == c.orphanOrder
  {
    var recorded := c.(events := c.events[e.eventId := e]);
    var data := match collector case Some(collect) => collect(e) case None => Success(NoDataModule);
    match data
    case Failure(_) => (recorded, data)
    case Success(d) => (recorded.(shards := PutShard(c.shards, e.eventId, c.id, d)), data)
  }

  /** The participants other than the client itself, in event order. */
  function OthersOf(ps: seq<ClientInfo>, self: string): (r: seq<ClientInfo>)
    ensures |r| <= |ps|
    ensures forall p | p in r :: p in ps && p.clientId != self
    ensures forall p | p in ps && p.clientId != self :: p in r
  {
    if ps == [] then []
    else if ps[0].clientId == self then OthersOf(ps[1..], self)
    else [ps[0]] + OthersOf(ps[1..], self)
  }

  /** The peers whose port `convert` (std::stoi) reads, each with that
      port, in order; a port that does not convert throws before anything
      is sent to that peer. */
  function WithPorts(peers: seq<ClientInfo>, convert: string -> Option<int>): (r: seq<(ClientInfo, int)>)
    ensures |r| <= |peers|
    ensures forall q | q in r :: q.0 in peers && convert(q.0.clientPort) == Some(q.1)
    ensures forall p | p in peers && convert(p.clientPort).Some? :: (p, convert(p.clientPort).value) in r
  {
    if peers == [] then []
    else
      var rest := WithPorts(peers[1..], convert);
      var head := convert(peers[0].clientPort);
      assert forall p | p in peers :: p == peers[0] || p in peers[1..];
      if head.Some? then [(peers[0], head.value)] + rest else rest
  }

  /** A peer, the port it is reached on, and the message addressed to it. */
  datatype Outgoing = Outgoing(to: ClientInfo, port: int, message: PeerDataMessage)

  /** shareDataWithPeers: every participant but the client itself whose
      port converts gets the client's data signed over `event|client|data`.
      Both failures are caught per peer: a port that does not convert
      skips that peer, and a refused key (the same for every peer) means
      nobody gets anything. */
  function ShareDataWithPeers(c: Client, e: Event, data: string, sign: Signature.SignFn, now: int): (out: seq<Outgoing>)
    ensures forall o | o in out :: o.to in e.participants && o.to.clientId != c.id
                                   && Sum.Stoi(o.to.clientPort) == Some(o.port)
    ensures var sig := Signature.CreateSignature(Signature.CreateMessage(e.eventId, c.id, data), c.privateKey, sign);
            && (sig.Failure? ==> out == [])
            && (sig.Success? ==>
                  && (forall p | p in e.participants && p.clientId != c.id && Sum.Stoi(p.clientPort).Some? ::
                        exists o | o in out :: o.to == p)
                  && forall o | o in out :: o.message == PeerDataMessage(e.eventId, c.id, data, sig.value, now))
  {
    var sig := Signature.CreateSignature(Signature.CreateMessage(e.eventId, c.id, data), c.privateKey, sign);
    match sig
    case Failure(_) => []
    case Success(s) =>
      var others := OthersOf(e.participants, c.id);
      var peers := WithPorts(others, Sum.Stoi);
      var out := Address(peers, PeerDataMessage(e.eventId, c.id, data, s, now));
      AddressCovers(peers, PeerDataMessage(e.eventId, c.id, data, s, now));
      out
  }

  /** One message per addressed peer, in order. */
  function Address(peers: seq<(ClientInfo, int)>, m: PeerDataMessage): (out: seq<Outgoing>)
    ensures |out| == |peers| && forall i | 0 <= i < |peers| :: out[i] == Outgoing(peers[i].0, peers[i].1, m)
  {
    seq(|peers|, i requires 0 <= i < |peers| => Outgoing(peers[i].0, peers[i].1, m))
  }

  /** Every addressed peer gets a message and every message goes to an
      addressed peer. */
  lemma AddressCovers(peers: seq<(ClientInfo, int)>, m: PeerDataMessage)
    ensures forall o | o in Address(peers, m) :: (o.to, o.port) in peers && o.message == m
    ensures forall q | q in peers :: exists o | o in Address(peers, m) :: o.to == q.0
  {
    var out := Address(peers, m);
    forall o | o in out ensures (o.to, o.port) in peers && o.message == m {
      var i :| 0 <= i < |out| && out[i] == o;
      assert peers[i] == (o.to, o.port);
    }
    forall q | q in peers ensures exists o | o in out :: o.to == q.0 {
      var i :| 0 <= i < |peers| && peers[i] == q;
      assert out[i] in out;
    }
  }

  /** The constructor's placeholder key is 61 characters for a generated
      identifier, which createSignature refuses: a freshly built client
      sends its data to nobody. */
  lemma DummyKeyNeverShares(ns: seq<int>, id: string, e: Event, data: string, sign: Signature.SignFn, now: int)
    requires Uuid.ValidNibbles(ns) && Uuid.Digits(id) == Some(ns)
    ensures ShareDataWithPeers(NewClient(id), e, data, sign, now) == []
  {
    assert |NewClient(id).privateKey| == 61;
  }

  /** The constructor as its own comment intends it: the signing key is the
      hex private half of a freshly generated Ed25519 key pair. */
  function NewKeyedClient(id: string, pk: seq<Signature.Byte>, sk: seq<Signature.Byte>): (c: Client)
    requires |pk| == Signature.PublicKeyBytes && |sk| == Signature.SecretKeyBytes
    ensures c.id == id && |c.privateKey| == 2 * Signature.SecretKeyBytes
    ensures Signature.Decode(c.privateKey) == Some(sk)
    ensures c.events == map[] && c.shards == map[] && c.orphans == map[]
  {
    Client(id, Signature.GenerateKeyPair(pk, sk).1, map[], map[], map[], [])
  }

  /** With a generated key the client signs its data and sends it to every
      other participant whose port reads as a number. */
  lemma KeyedClientShares(id: string, pk: seq<Signature.Byte>, sk: seq<Signature.Byte>, e: Event, data: string,
                          sign: Signature.SignFn, now: int, p: ClientInfo)
    requires |pk| == Signature.PublicKeyBytes && |sk| == Signature.SecretKeyBytes
    requires p in e.participants && p.clientId != id && Sum.Stoi(p.clientPort).Some?
    ensures exists o | o in ShareDataWithPeers(NewKeyedClient(id, pk, sk), e, data, sign, now) :: o.to == p
  {
    var c := NewKeyedClient(id, pk, sk);
    var sig := Signature.CreateSignature(Signature.CreateMessage(e.eventId, c.id, data), c.privateKey, sign);
    assert sig.Success?;
    var out := ShareDataWithPeers(c, e, data, sign, now);
    assert forall q | q in e.participants && q.clientId != c.id && Sum.Stoi(q.clientPort).Some? ::
             exists o | o in out :: o.to == q;
  }

  // ---------------------------------------------------------- peer shards

  /** The participant list names the sender. */
  predicate Listed(ps: seq<ClientInfo>, id: string) {
    exists i | 0 <= i < |ps| :: ps[i].clientId == id
  }

  /** The public key of the first participant with the id; empty when none. */
  function SenderKey(ps: seq<ClientInfo>, id: string): (k: string)
    ensures !Listed(ps, id) ==> k == ""
    ensures Listed(ps, id) ==> exists i | 0 <= i < |ps| :: && ps[i].clientId == id && ps[i].ed25519Pub == k
                                                         && forall j | 0 <= j < i :: ps[j].clientId != id
  {
    if ps == [] then ""
    else if ps[0].clientId == id then ps[0].ed25519Pub
    else
      var k := SenderKey(ps[1..], id);
      assert Listed(ps, id) ==> Listed(ps[1..], id) by {
        if Listed(ps, id) {
          var i :| 0 <= i < |ps| && ps[i].clientId == id;
          assert ps[1..][i - 1].clientId == id;
        }
      }
      assert Listed(ps[1..], id) ==> exists i | 0 <= i < |ps| :: && ps[i].clientId == id && ps[i].ed25519Pub == k
                                                               && forall j | 0 <= j < i :: ps[j].clientId != id by {
        if Listed(ps[1..], id) {
          var i :| 0 <= i < |ps[1..]| && ps[1..][i].clientId == id && ps[1..][i].ed25519Pub == k
                   && forall j | 0 <= j < i :: ps[1..][j].clientId != id;
          assert forall j | 1 <= j < i + 1 :: ps[j] == ps[1..][j - 1];
          assert ps[i + 1] == ps[1..][i];
        }
      }
      k
  }

  /** The participants all have a shard in `received`. */
  function AllPresent(ps: seq<ClientInfo>, received: map<string, string>): (b: bool)
    ensures b <==> forall i | 0 <= i < |ps| :: ps[i].clientId in received
  {
    if ps == [] then true
    else if ps[0].clientId !in received then false
    else
      var b := AllPresent(ps[1..], received);
      assert b <==> forall i | 1 <= i < |ps| :: ps[i].clientId in received by {
        assert forall i | 1 <= i < |ps| :: ps[1..][i - 1] == ps[i];
      }
      b
  }

  /** hasAllShards: the event is known, shards exist for it, and every
      participant (the client included) has one. */
  function HasAllShards(c: Client, eventId: string): (b: bool)
    ensures b <==> eventId in c.events && eventId in c.shards
                   && forall i | 0 <= i < |c.events[eventId].participants| ::
                        c.events[eventId].participants[i].clientId in c.shards[eventId]
  {
    eventId in c.events && eventId in c.shards && AllPresent(c.events[eventId].participants, c.shards[eventId])
  }

  /** The oldest orphan events are dropped until there is room below the
      bound (or nothing is left to drop). */
  function EvictOldest(orphans: Shards, order: seq<string>, maxOrphans: nat): (r: (Shards, seq<string>))
    requires Enumerates(order, orphans.Keys)
    ensures Enumerates(r.1, r.0.Keys)
    ensures |r.0| < maxOrphans || r.0 == map[]
    ensures |orphans| < maxOrphans ==> r == (orphans, order)
    ensures maxOrphans >= 1 && |orphans| >= maxOrphans ==> |r.0| == maxOrphans - 1
    ensures |r.1| <= |order| && r.1 == order[|order| - |r.1|..]
    ensures forall e | e in r.0 :: e in orphans && r.0[e] == orphans[e]
    decreases |order|
  {
    EnumerationLength(order, orphans.Keys);
    if |orphans| >= maxOrphans && order != [] then
      DropFirst(order, orphans.Keys);
      assert (orphans - {order[0]}).Keys == orphans.Keys - {order[0]};
      EvictOldest(orphans - {order[0]}, order[1..], maxOrphans)
    else
      assert order == [] ==> orphans == map[] by {
        if order == [] {
          assert forall e :: e !in orphans.Keys;
        }
      }
      (orphans, order)
  }

  /** Files a shard in the (already evicted) store, queueing its event
      only when the store does not hold it yet. */
  function FileOrphan(kept: Shards, queue: seq<string>, m: PeerDataMessage): (r: (Shards, seq<string>))
    requires Enumerates(queue, kept.Keys)
    ensures Enumerates(r.1, r.0.Keys)
    ensures r.0 == PutShard(kept, m.eventId, m.fromClient, m.data)
    ensures |r.0| <= |kept| + 1
  {
    var stored := PutShard(kept, m.eventId, m.fromClient, m.data);
    if m.eventId in kept then
      assert stored.Keys == kept.Keys;
      (stored, queue)
    else
      AppendNew(queue, kept.Keys, m.eventId);
      assert stored.Keys == kept.Keys + {m.eventId};
      (stored, queue + [m.eventId])
  }

  /** The orphan branch of onPeerDataReceived: evict, then file the shard,
      so the store never grows past its bound. */
  function AddOrphan(c: Client, m: PeerDataMessage, maxOrphans: nat): (r: Client)
    requires OrphansListed(c)
    ensures OrphansListed(r)
    ensures maxOrphans >= 1 ==> |r.orphans| <= maxOrphans
    ensures m.eventId in r.orphans && m.fromClient in r.orphans[m.eventId]
    ensures r.orphans[m.eventId][m.fromClient] == m.data
    ensures r.orphans == PutShard(EvictOldest(c.orphans, c.orphanOrder, maxOrphans).0, m.eventId, m.fromClient, m.data)
    ensures forall e | e in r.orphans && e != m.eventId :: e in c.orphans && r.orphans[e] == c.orphans[e]
    ensures r == c.(orphans := r.orphans, orphanOrder := r.orphanOrder)
  {
    var evicted := EvictOldest(c.orphans, c.orphanOrder, maxOrphans);
    var filed := FileOrphan(evicted.0, evicted.1, m);
    c.(orphans := filed.0, orphanOrder := filed.1)
  }

  /** What became of a peer's shard; `complete` says whether the accepted
      shard completed the event, which is when computation is started. */
  datatype PeerOutcome = Accepted(complete: bool) | Unauthorized | BadSignature | Orphaned

  /** onPeerDataReceived: for a known event, a shard from a listed
      participant whose signature verifies against that participant's key
      is stored; anything else changes nothing. A shard for an unknown
      event goes to the orphan store. */
  function OnPeerData(c: Client, m: PeerDataMessage, maxOrphans: nat, verify: Signature.VerifyFn): (r: (Client, PeerOutcome))
    requires OrphansListed(c)
    ensures OrphansListed(r.0)
    ensures r.0.events == c.events && r.0.id == c.id
    ensures m.eventId !in c.events ==> r.1 == Orphaned && r.0.shards == c.shards
    ensures m.eventId !in c.events ==> r.0 == AddOrphan(c, m, maxOrphans)
    ensures m.eventId in c.events ==> r.0.orphans == c.orphans && r.0.orphanOrder == c.orphanOrder
    ensures m.eventId in c.events && !Listed(c.events[m.eventId].participants, m.fromClient) ==>
              r == (c, Unauthorized)
    ensures r.1.Accepted? <==>
              && m.eventId in c.events && Listed(c.events[m.eventId].participants, m.fromClient)
              && Signature.VerifySignature(Signature.CreateMessage(m.eventId, m.fromClient, m.data), m.signature,
                                           SenderKey(c.events[m.eventId].participants, m.fromClient), verify)
    ensures r.1 == BadSignature ==> r.0 == c
    ensures r.1.Accepted? ==>
              && r.0 == c.(shards := PutShard(c.shards, m.eventId, m.fromClient, m.data))
              && r.1.complete == HasAllShards(r.0, m.eventId)
    ensures maxOrphans >= 1 && |c.orphans| <= maxOrphans ==> |r.0.orphans| <= maxOrphans
  {
    if m.eventId in c.events then
      var ps := c.events[m.eventId].participants;
      if !Listed(ps, m.fromClient) then (c, Unauthorized)
      else
        var message := Signature.CreateMessage(m.eventId, m.fromClient, m.data);
        if !Signature.VerifySignature(message, m.signature, SenderKey(ps, m.fromClient), verify) then (c, BadSignature)
        else
          var stored := c.(shards := PutShard(c.shards, m.eventId, m.fromClient, m.data));
          (stored, Accepted(HasAllShards(stored, m.eventId)))
    else
      (AddOrphan(c, m, maxOrphans), Orphaned)
  }

  // ---------------------------------------------------------- computation

  /** The shards of the participants that have one, in participant order. */
  function CollectShards(ps: seq<ClientInfo>, received: map<string, string>): (r: seq<string>)
    ensures |r| <= |ps|
    ensures forall x | x in r :: exists i | 0 <= i < |ps| :: ps[i].clientId in received && received[ps[i].clientId] == x
  {
    if ps == [] then []
    else
      var rest := CollectShards(ps[1..], received);
      assert forall x | x in rest :: exists i | 0 <= i < |ps| :: ps[i].clientId in received && received[ps[i].clientId] == x by {
        forall x | x in rest ensures exists i | 0 <= i < |ps| :: ps[i].clientId in received && received[ps[i].clientId] == x {
          var i :| 0 <= i < |ps[1..]| && ps[1..][i].clientId in received && received[ps[1..][i].clientId] == x;
          assert ps[i + 1] == ps[1..][i];
        }
      }
      if ps[0].clientId in received then [received[ps[0].clientId]] + rest else rest
  }

  /** Collecting over consecutive runs of participants concatenates the
      runs' collections. */
  lemma {:induction false} CollectShardsAppend(a: seq<ClientInfo>, b: seq<ClientInfo>, received: map<string, string>)
    ensures CollectShards(a + b, received) == CollectShards(a, received) + CollectShards(b, received)
  {
    if a == [] {
      assert a + b == b;
    } else {
      assert (a + b)[0] == a[0] && (a + b)[1..] == a[1..] + b;
      CollectShardsAppend(a[1..], b, received);
    }
  }

  /** One participant contributes its shard when it has one, and nothing
      otherwise; with CollectShardsAppend this fixes the collection. */
  lemma CollectShardsOne(p: ClientInfo, received: map<string, string>)
    ensures CollectShards([p], received) == if p.clientId in received then [received[p.clientId]] else []
  {
    assert [p][1..] == [];
  }

  /** With every participant's shard present, collection yields exactly
      one shard per participant, in participant order. */
  lemma {:induction false} CollectComplete(ps: seq<ClientInfo>, received: map<string, string>)
    requires forall i | 0 <= i < |ps| :: ps[i].clientId in received
    ensures |CollectShards(ps, received)| == |ps|
    ensures forall i | 0 <= i < |ps| :: CollectShards(ps, received)[i] == received[ps[i].clientId]
  {
    if ps != [] {
      assert forall i | 0 <= i < |ps[1..]| :: ps[1..][i] == ps[i + 1];
      CollectComplete(ps[1..], received);
    }
  }

  /** An MPC computation's compute. */
  type ComputeFn = seq<string> -> string

  /** computeAndSubmitResult up to the computed value: nothing without the
      event, its shards or a computation for its type. */
  function ComputeResult(c: Client, eventId: string, computations: map<string, ComputeFn>): (r: Option<string>)
    ensures r.Some? <==> eventId in c.events && eventId in c.shards
                         && c.events[eventId].computationType in computations
    ensures r.Some? ==> r.value == computations[c.events[eventId].computationType](
                                     CollectShards(c.events[eventId].participants, c.shards[eventId]))
  {
    if eventId !in c.events || eventId !in c.shards then None
    else
      var e := c.events[eventId];
      if e.computationType !in computations then None
      else Some(computations[e.computationType](CollectShards(e.participants, c.shards[eventId])))
  }

  /** When the event is complete the computation sees every participant's
      shard, in participant order. */
  lemma CompleteEventComputesOverAll(c: Client, eventId: string, computations: map<string, ComputeFn>)
    requires HasAllShards(c, eventId)
    requires c.events[eventId].computationType in computations
    ensures var ps := c.events[eventId].participants;
            var shards := CollectShards(ps, c.shards[eventId]);
            && ComputeResult(c, eventId, computations) == Some(computations[c.events[eventId].computationType](shards))
            && |shards| == |ps|
            && forall i | 0 <= i < |ps| :: shards[i] == c.shards[eventId][ps[i].clientId]
  {
    CollectComplete(c.events[eventId].participants, c.shards[eventId]);
  }

  // -------------------------------------------------------------- endpoints

  /** The /event route: the body must convert to an Event (400, nothing
      changed, otherwise); the client then records it and shares its data.
      A collector that throws is reported as 400 too, but by then the
      event is recorded. */
  function EventEndpoint(c: Client, body: Wire, collector: Option<CollectFn>, sign: Signature.SignFn, now: int)
    : (r: (Client, int, seq<Outgoing>))
    ensures r.1 == 200 || r.1 == 400
    ensures r.1 == 400 ==> r.2 == []
    ensures body.None? || EventFromJson(body.value).None? ==> r == (c, 400, [])
    ensures body.Some? && EventFromJson(body.value).Some? ==>
              var e := EventFromJson(body.value).value;
              var handled := OnEventAnnouncement(c, e, collector);
              && r.0 == handled.0
              && (r.1 == 200 <==> handled.1.Success?)
              && (r.1 == 200 ==> r.2 == ShareDataWithPeers(r.0, e, handled.1.value, sign, now))
  {
    match body
    case None => (c, 400, [])
    case Some(j) =>
      match EventFromJson(j)
      case None => (c, 400, [])
      case Some(e) =>
        var (c', data) := OnEventAnnouncement(c, e, collector);
        match data
        case Failure(_) => (c', 400, [])
        case Success(d) => (c', 200, ShareDataWithPeers(c', e, d, sign, now))
  }

  /** The /peer-data route: the body must convert to a PeerDataMessage
      (400 otherwise) before onPeerDataReceived sees it. */
  function PeerDataEndpoint(c: Client, body: Wire, maxOrphans: nat, verify: Signature.VerifyFn)
    : (r: (Client, int, Option<PeerOutcome>))
    requires OrphansListed(c)
    ensures OrphansListed(r.0)
    ensures r.1 == 400 <==> r.2.None?
    ensures r.1 == 400 ==> r.0 == c
    ensures r.1 == 200 <==> body.Some? && PeerDataFromJson(body.value).Some?
    ensures r.1 == 200 ==> (r.0, r.2.value) == OnPeerData(c, PeerDataFromJson(body.value).value, maxOrphans, verify)
  {
    match body
    case None => (c, 400, None)
    case Some(j) =>
      match PeerDataFromJson(j)
      case None => (c, 400, None)
      case Some(m) =>
        var (c', outcome) := OnPeerData(c, m, maxOrphans, verify);
        (c', 200, Some(outcome))
  }

  /** The wire form of a peer message has no signature, so a shard that
      arrives over HTTP never passes verification: no peer shard is ever
      accepted through the route. */
  lemma PeerRouteNeverAccepts(c: Client, body: Wire, maxOrphans: nat, verify: Signature.VerifyFn)
    requires OrphansListed(c)
    ensures var r := PeerDataEndpoint(c, body, maxOrphans, verify);
            r.2.Some? ==> !r.2.value.Accepted?
    ensures PeerDataEndpoint(c, body, maxOrphans, verify).0.shards == c.shards
  {
  }

  /** An event that came over the wire carries no participant keys, so
      even a correctly signed shard for it is refused. */
  lemma WireEventRefusesShards(c: Client, e: Event, m: PeerDataMessage, maxOrphans: nat, verify: Signature.VerifyFn)
    requires OrphansListed(c)
    requires m.eventId in c.events && c.events[m.eventId] == OnWireEvent(e)
    ensures !OnPeerData(c, m, maxOrphans, verify).1.Accepted?
  {
    var ps := c.events[m.eventId].participants;
    assert forall i | 0 <= i < |ps| :: ps[i].ed25519Pub == "";
  }
}

=== FILE: client_state.dfy ===
/** The server's record of a connected client and its liveness test: a
    client is alive while fewer whole seconds than the timeout have passed
    since its last ping. */
module ClientStates {
  import Clock

  /** `lastPing` is a steady-clock reading in nanoseconds. */
  datatype ClientState = ClientState(host: string, port: string, id: string, ed25519Pub: string,
                                     lastPing: int)

  /** ClientState::isAlive */
  predicate IsAlive(c: ClientState, now: int, timeoutSeconds: int) {
    Clock.WholeSeconds(now - c.lastPing) < timeoutSeconds
  }

  /** ClientState::updatePingTime: restarts the liveness clock and touches
      nothing else. */
  function UpdatePingTime(c: ClientState, now: int): (r: ClientState)
    ensures r.lastPing == now
    ensures r.(lastPing := c.lastPing) == c
    ensures forall t :: t >= 1 ==> IsAlive(r, now, t)
  {
    c.(lastPing := now)
  }

  /** A timeout of zero or less makes every client dead, since the steady
      clock never runs backwards. */
  lemma NotAliveWithoutTimeout(c: ClientState, now: int, timeoutSeconds: int)
    requires now >= c.lastPing && timeoutSeconds <= 0
    ensures !IsAlive(c, now, timeoutSeconds)
  {
  }

  /** Without a new ping a dead client stays dead. */
  lemma StaysDead(c: ClientState, now: int, later: int, timeoutSeconds: int)
    requires now <= later && !IsAlive(c, now, timeoutSeconds)
    ensures !IsAlive(c, later, timeoutSeconds)
  {
    Clock.WholeSecondsMonotonic(now - c.lastPing, later - c.lastPing);
  }

  /** A client is alive exactly while the time since its ping is short of
      the timeout, counted in nanoseconds. */
  lemma AliveWindow(c: ClientState, now: int, timeoutSeconds: int)
    requires now >= c.lastPing && timeoutSeconds >= 1
    ensures IsAlive(c, now, timeoutSeconds) <==> now - c.lastPing < timeoutSeconds * Clock.NanosPerSecond
  {
  }
}

=== FILE: clock.dfy ===
/** Clock arithmetic. Time points are integers counting nanoseconds (the
    tick of std::chrono's steady and system clocks on the targets the
    program runs on); readings of the clock are passed in as parameters. */
module Clock {

  const NanosPerSecond: int := 1_000_000_000
  const NanosPerMilli: int := 1_000_000

  /** C++ integer division: the quotient is truncated toward zero. */
  function TruncDiv(a: int, b: int): (q: int)
    requires b > 0
    ensures a >= 0 ==> q * b <= a < q * b + b
    ensures a < 0 ==> q * b - b < a <= q * b
  {
    if a >= 0 then a / b else -((-a) / b)
  }

  /** std::chrono::duration_cast<std::chrono::seconds>(d).count() */
  function WholeSeconds(d: int): int {
    TruncDiv(d, NanosPerSecond)
  }

  /** std::chrono::duration_cast<std::chrono::milliseconds>(d).count() */
  function WholeMillis(d: int): int {
    TruncDiv(d, NanosPerMilli)
  }

  /** Whole seconds never decrease as the duration grows. */
  lemma WholeSecondsMonotonic(d: int, e: int)
    requires d <= e
    ensures WholeSeconds(d) <= WholeSeconds(e)
  {
  }
}

=== FILE: config.dfy ===
/** The client's configuration: fixed defaults, overridden key by key from
    a JSON file when the file opens and parses. A conversion failure ends
    the overriding; what was assigned before it stays. */
module Config {
  import opened Wrappers
  import opened Json

  datatype ClientConfig = ClientConfig(
    serverHost: string,
    serverPort: int,
    listenHost: string,
    listenPort: int,
    healthCheckIntervalSeconds: int,
    serverTimeoutSeconds: int,
    connectionTimeoutSeconds: int,
    readTimeoutSeconds: int)

  const Defaults: ClientConfig := ClientConfig("localhost", 8080, "localhost", 0, 10, 30, 2, 5)

  datatype Field =
    | ServerHost | ServerPort | ListenHost | ListenPort
    | HealthCheckInterval | ServerTimeout | ConnectionTimeout | ReadTimeout

  /** The fields in the order the constructor assigns them. */
  const Order: seq<Field> := [ServerHost, ServerPort, ListenHost, ListenPort,
                              HealthCheckInterval, ServerTimeout, ConnectionTimeout, ReadTimeout]

  function Key(f: Field): string {
    match f
    case ServerHost => "server_host"
    case ServerPort => "server_port"
    case ListenHost => "listen_host"
    case ListenPort => "listen_port"
    case HealthCheckInterval => "health_check_interval_seconds"
    case ServerTimeout => "server_timeout_seconds"
    case ConnectionTimeout => "connection_timeout_seconds"
    case ReadTimeout => "read_timeout_seconds"
  }

  datatype FieldValue = Text(s: string) | Number(n: int)

  function Get(c: ClientConfig, f: Field): FieldValue {
    match f
    case ServerHost => Text(c.serverHost)
    case ServerPort => Number(c.serverPort)
    case ListenHost => Text(c.listenHost)
    case ListenPort => Number(c.listenPort)
    case HealthCheckInterval => Number(c.healthCheckIntervalSeconds)
    case ServerTimeout => Number(c.serverTimeoutSeconds)
    case ConnectionTimeout => Number(c.connectionTimeoutSeconds)
    case ReadTimeout => Number(c.readTimeoutSeconds)
  }

  predicate IsTextField(f: Field) {
    f == ServerHost || f == ListenHost
  }

  /** The assignment `field = config[key]`: a std::string target takes only
      a JSON string, an int target takes what `get<int>` takes. */
  function Convert(f: Field, v: Value): (r: Option<FieldValue>)
    ensures r.Some? ==> (r.value.Text? <==> IsTextField(f))
    ensures IsTextField(f) ==> (r.Some? <==> v.JString?) && (r.Some? ==> r.value == Text(v.s))
    ensures !IsTextField(f) ==> (r.Some? <==> (v.JInt? || v.JReal? || v.JBool?))
    ensures !IsTextField(f) && v.JBool? ==> r == Some(Number(if v.b then 1 else 0))
  {
    if IsTextField(f) then
      match GetString(v) case Some(s) => Some(Text(s)) case None => None
    else
      match GetInt32(v) case Some(n) => Some(Number(n)) case None => None
  }

  /** Writing one field leaves every other field as it was. */
  function Set(c: ClientConfig, f: Field, v: FieldValue): (r: ClientConfig)
    requires v.Text? <==> IsTextField(f)
    ensures Get(r, f) == v
    ensures forall g :: g != f ==> Get(r, g) == Get(c, g)
  {
    match f
    case ServerHost => c.(serverHost := v.s)
    case ServerPort => c.(serverPort := v.n)
    case ListenHost => c.(listenHost := v.s)
    case ListenPort => c.(listenPort := v.n)
    case HealthCheckInterval => c.(healthCheckIntervalSeconds := v.n)
    case ServerTimeout => c.(serverTimeoutSeconds := v.n)
    case ConnectionTimeout => c.(connectionTimeoutSeconds := v.n)
    case ReadTimeout => c.(readTimeoutSeconds := v.n)
  }

  /** A key that is absent, or present with a value of the right kind. */
  predicate Converts(j: Value, f: Field) {
    !Has(j, Key(f)) || Convert(f, j.fields[Key(f)]).Some?
  }

  /** How many of `fs` are processed before a conversion throws. */
  function Reached(j: Value, fs: seq<Field>): (n: nat)
    ensures n <= |fs|
    ensures forall i :: 0 <= i < n ==> Converts(j, fs[i])
    ensures n < |fs| ==> !Converts(j, fs[n])
  {
    if fs == [] || !Converts(j, fs[0]) then 0
    else
      var n := Reached(j, fs[1..]);
      assert forall i :: 0 < i <= n ==> fs[i] == fs[1..][i - 1];
      1 + n
  }

  /** The `if (config.contains(key)) field = config[key];` statements, in
      order, abandoned at the first one that throws. */
  function Override(c: ClientConfig, j: Value, fs: seq<Field>): ClientConfig
    decreases |fs|
  {
    if fs == [] then c
    else
      var f := fs[0];
      if !Has(j, Key(f)) then Override(c, j, fs[1..])
      else
        match Convert(f, j.fields[Key(f)])
        case None => c
        case Some(v) => Override(Set(c, f, v), j, fs[1..])
  }

  predicate Distinct(fs: seq<Field>) {
    forall i, k :: 0 <= i < k < |fs| ==> fs[i] != fs[k]
  }

  /** Each field reached and present in the file takes the file's value;
      every other field keeps its value. */
  lemma {:induction false} OverrideFields(c: ClientConfig, j: Value, fs: seq<Field>, f: Field)
    requires Distinct(fs)
    ensures if f in fs[..Reached(j, fs)] && Has(j, Key(f))
            then Convert(f, j.fields[Key(f)]) == Some(Get(Override(c, j, fs), f))
            else Get(Override(c, j, fs), f) == Get(c, f)
    decreases |fs|
  {
    if fs != [] {
      var g := fs[0];
      DistinctTail(fs);
      if !Converts(j, g) {
        assert Reached(j, fs) == 0;
      } else {
        ReachedFront(j, fs);
        if !Has(j, Key(g)) {
          OverrideFields(c, j, fs[1..], f);
        } else {
          var v := Convert(g, j.fields[Key(g)]).value;
          OverrideFields(Set(c, g, v), j, fs[1..], f);
        }
      }
    }
  }

  /** Without its head, a duplicate-free list stays duplicate-free and no
      longer holds the head. */
  lemma DistinctTail(fs: seq<Field>)
    requires fs != [] && Distinct(fs)
    ensures Distinct(fs[1..]) && fs[0] !in fs[1..]
  {
    forall i, k | 0 <= i < k < |fs[1..]| ensures fs[1..][i] != fs[1..][k] {
      assert fs[1..][i] == fs[i + 1] && fs[1..][k] == fs[k + 1];
    }
    forall i | 0 <= i < |fs[1..]| ensures fs[1..][i] != fs[0] {
      assert fs[1..][i] == fs[i + 1];
    }
  }

  lemma ReachedFront(j: Value, fs: seq<Field>)
    requires fs != [] && Converts(j, fs[0])
    ensures fs[..Reached(j, fs)] == [fs[0]] + fs[1..][..Reached(j, fs[1..])]
  {
  }

  /** What the constructor finds where the file should be. */
  datatype ConfigFile = Unopenable | Opened(contents: Wire)

  /** The ClientConfig constructor. */
  function Load(file: ConfigFile): (c: ClientConfig)
    ensures file.Unopenable? || file.contents.None? ==> c == Defaults
  {
    match file
    case Unopenable => Defaults
    case Opened(None) => Defaults
    case Opened(Some(j)) => Override(Defaults, j, Order)
  }

  /** A field takes the file's value exactly when its key is present and
      no earlier key failed to convert; otherwise it keeps its default. */
  lemma LoadField(j: Value, f: Field)
    ensures if f in Order[..Reached(j, Order)] && Has(j, Key(f))
            then Convert(f, j.fields[Key(f)]) == Some(Get(Load(Opened(Some(j))), f))
            else Get(Load(Opened(Some(j))), f) == Get(Defaults, f)
  {
    assert Load(Opened(Some(j))) == Override(Defaults, j, Order);
    OrderDistinct();
    OverrideFields(Defaults, j, Order, f);
  }

  lemma OrderDistinct()
    ensures Distinct(Order)
    ensures forall f :: f in Order
  {
    forall f: Field ensures f in Order {
      match f
      case ServerHost => assert Order[0] == f;
      case ServerPort => assert Order[1] == f;
      case ListenHost => assert Order[2] == f;
      case ListenPort => assert Order[3] == f;
      case HealthCheckInterval => assert Order[4] == f;
      case ServerTimeout => assert Order[5] == f;
      case ConnectionTimeout => assert Order[6] == f;
      case ReadTimeout => assert Order[7] == f;
    }
  }

  /** When every key converts, each key present overrides exactly its
      field and every absent key leaves its default. */
  lemma LoadWellTyped(j: Value, f: Field)
    requires forall g :: Converts(j, g)
    ensures if Has(j, Key(f))
            then Convert(f, j.fields[Key(f)]) == Some(Get(Load(Opened(Some(j))), f))
            else Get(Load(Opened(Some(j))), f) == Get(Defaults, f)
  {
    LoadField(j, f);
    OrderDistinct();
    assert Reached(j, Order) == |Order|;
    assert Order[..Reached(j, Order)] == Order;
  }
}

=== FILE: data_collection.dfy ===
/** The example app's data module: a predictable number per client,
    split into additive shares. The hash of the client id, std::stod,
    double formatting and the random draws are parameters. */
module ExampleData {
  import opened Wrappers
  import opened Text
  import Sum

  /** 10 plus the client hash modulo 41. */
  function PredictableValue(hash: nat): (v: int)
    ensures 10 <= v <= 50
  {
    10 + hash % 41
  }

  /** collectData: the client's predictable value as decimal text; the
      same client always reports the same number. */
  function CollectData(clientId: string, hash: string -> nat): (r: string)
    ensures AllDigits(r) && 10 <= DigitsValue(r) <= 50
    ensures Sum.Stoi(r) == Some(PredictableValue(hash(clientId)))
  {
    var v := PredictableValue(hash(clientId));
    NatToStringRoundTrip(v);
    Sum.StoiReadsRendered(v);
    IntToString(v)
  }

  function Abs(x: real): real {
    if x < 0.0 then -x else x
  }

  /** The half-width of the share distribution: twice the value, plus 100. */
  function Range(v: real): (r: real)
    ensures r >= 100.0
  {
    Abs(v) * 2.0 + 100.0
  }

  /** uniform_real_distribution(-range, range) applied to a unit draw. */
  function Spread(range: real, u: real): real {
    -range + u * (2.0 * range)
  }

  /** The generator's unit draws lie in [0, 1). */
  ghost predicate UnitDraws(u: nat -> real) {
    forall i :: 0.0 <= u(i) < 1.0
  }

  function RealSum(xs: seq<real>): real {
    if xs == [] then 0.0 else RealSum(xs[..|xs| - 1]) + xs[|xs| - 1]
  }

  /** The share values: `n - 1` random values and the remainder, which in
      exact arithmetic add up to the original; the random ones lie in
      [-Range(v), Range(v)). */
  function ShareValues(v: real, n: nat, u: nat -> real): (vs: seq<real>)
    requires n >= 2
    ensures |vs| == n
    ensures RealSum(vs) == v
    ensures UnitDraws(u) ==> forall i :: 0 <= i < n - 1 ==> -Range(v) <= vs[i] < Range(v)
  {
    var r := Range(v);
    var rs := seq(n - 1, i requires 0 <= i < n - 1 => Spread(r, u(i)));
    var vs := rs + [v - RealSum(rs)];
    assert vs[..|vs| - 1] == rs;
    assert UnitDraws(u) ==> forall i :: 0 <= i < n - 1 ==> -r <= rs[i] < r by {
      if UnitDraws(u) {
        forall i | 0 <= i < n - 1 ensures -r <= rs[i] < r {
          SpreadWithin(r, u(i));
        }
      }
    }
    vs
  }

  /** A unit draw lands in [-range, range). */
  lemma SpreadWithin(range: real, u: real)
    requires range > 0.0 && 0.0 <= u < 1.0
    ensures -range <= Spread(range, u) < range
  {
    assert u * (2.0 * range) < 1.0 * (2.0 * range);
  }

  /** shardData: unreadable data is passed on alone; one shard is the
      reformatted value; otherwise each share value is formatted. */
  function ShardData(data: string, numShards: int, stod: Sum.Stod, format: real -> string, u: nat -> real)
    : (r: seq<string>)
    ensures stod(data).None? ==> r == [data]
    ensures stod(data).Some? && numShards <= 1 ==> r == [format(stod(data).value)]
    ensures stod(data).Some? && numShards >= 2 ==>
              var vs := ShareValues(stod(data).value, numShards, u);
              |r| == numShards && forall i :: 0 <= i < numShards ==> r[i] == format(vs[i])
  {
    match stod(data)
    case None => [data]
    case Some(v) =>
      if numShards <= 1 then [format(v)]
      else
        var vs := ShareValues(v, numShards, u);
        seq(numShards, i requires 0 <= i < numShards => format(vs[i]))
  }
}

/** The client library's mock data module: a JSON record holding the
    client's predictable value for data-submission events. */
module RecordData {
  import opened Text
  import Events
  import Clock
  import ExampleData

  const UnknownEventType: string := "{\"error\":\"Unknown event type\"}"

  /** The record's opening up to and including the client id field. */
  function Head(clientId: string): string {
    "{\"client_id\":\"" + clientId + "\","
  }

  /** The record's fields after the client id, closing the object. */
  function Tail(kind: int, value: int, millis: int): string {
    "\"event_type\":\"" + IntToString(kind) + "\","
    + "\"value\":" + IntToString(value) + "," + "\"timestamp\":" + IntToString(millis) + "}"
  }

  /** The record text, fields in the order they are written. */
  function Record(clientId: string, kind: int, value: int, millis: int): string {
    Head(clientId) + Tail(kind, value, millis)
  }

  lemma RecordShape(clientId: string, kind: int, value: int, millis: int)
    ensures var r := Record(clientId, kind, value, millis);
            && |r| > 1 && r[0] == '{' && r[|r| - 1] == '}'
            && StartsWith(r, Head(clientId)) && Contains(r, clientId)
  {
    var r := Record(clientId, kind, value, millis);
    var h := Head(clientId);
    var tail := Tail(kind, value, millis);
    assert tail[|tail| - 1] == '}';
    assert r[|r| - 1] == tail[|tail| - 1];
    assert r[..|h|] == h;
    var open := "{\"client_id\":\"";
    assert h[|open|..|open| + |clientId|] == clientId;
    assert r[|open|..|open| + |clientId|] == clientId;
    assert OccursAt(r, clientId, |open|);
  }

  /** collectData: for a data-submission event the record of the
      client's value and the current time in milliseconds; for any other
      event the error object. Either way a single object. */
  function CollectData(clientId: string, e: Events.Event, hash: string -> nat, now: int): (r: string)
    ensures |r| > 1 && r[0] == '{' && r[|r| - 1] == '}'
    ensures e.kind != Events.DataSubmission ==> r == UnknownEventType
    ensures e.kind == Events.DataSubmission ==>
              && StartsWith(r, Head(clientId))
              && Contains(r, clientId)
              && exists v | 10 <= v <= 50 :: r == Record(clientId, e.kind, v, Clock.WholeMillis(now))
  {
    if e.kind == Events.DataSubmission then
      var v := ExampleData.PredictableValue(hash(clientId));
      RecordShape(clientId, e.kind, v, Clock.WholeMillis(now));
      Record(clientId, e.kind, v, Clock.WholeMillis(now))
    else UnknownEventType
  }

  /** Two records of one client carry the same value; only the time
      differs. */
  lemma ValueDependsOnlyOnId(clientId: string, e1: Events.Event, e2: Events.Event, hash: string -> nat,
                             now1: int, now2: int)
    requires e1.kind == Events.DataSubmission && e2.kind == Events.DataSubmission
    ensures exists v | 10 <= v <= 50 ::
              && CollectData(clientId, e1, hash, now1) == Record(clientId, 0, v, Clock.WholeMillis(now1))
              && CollectData(clientId, e2, hash, now2) == Record(clientId, 0, v, Clock.WholeMillis(now2))
  {
    var v := ExampleData.PredictableValue(hash(clientId));
    assert CollectData(clientId, e1, hash, now1) == Record(clientId, 0, v, Clock.WholeMillis(now1));
  }
}

=== FILE: errors.dfy ===
/** Structured error codes: the numeric ranges that give each code its
    category, the human-readable messages, and the two flavours of the
    operation-result wrapper. */
module ErrorCodes {
  import Wrappers

  /** An `ErrorCode` is an enumeration over uint32, so any 32-bit value can
      be stored in one, not only the named codes. */
  type Uint32 = x: int | 0 <= x < 0x1_0000_0000

  datatype Category = None | Network | Crypto | Protocol | MPC | System

  /** The numeric value each category carries. */
  function CategoryValue(c: Category): int {
    match c
    case None => 0
    case Network => 1000
    case Crypto => 2000
    case Protocol => 3000
    case MPC => 4000
    case System => 5000
  }

  datatype Code =
    | Success
    | NetworkConnectionFailed | NetworkTimeout | NetworkInvalidResponse
    | NetworkPeerUnreachable | NetworkBindFailed
    | CryptoInvalidSignature | CryptoInvalidPublicKey | CryptoInvalidPrivateKey
    | CryptoSignatureFailed | CryptoKeyGenerationFailed | CryptoInitializationFailed
    | ProtocolInvalidMessage | ProtocolInvalidEvent | ProtocolClientNotConnected
    | ProtocolEventTimeout | ProtocolDuplicateEvent | ProtocolMissingShards
    | MPCComputationNotFound | MPCInvalidData | MPCInsufficientParticipants
    | MPCComputationFailed
    | SystemResourceExhausted | SystemInvalidConfiguration | SystemThreadCreationFailed

  /** The value each named code is declared with. */
  function Value(c: Code): Uint32 {
    match c
    case Success => 0
    case NetworkConnectionFailed => 1001
    case NetworkTimeout => 1002
    case NetworkInvalidResponse => 1003
    case NetworkPeerUnreachable => 1004
    case NetworkBindFailed => 1005
    case CryptoInvalidSignature => 2001
    case CryptoInvalidPublicKey => 2002
    case CryptoInvalidPrivateKey => 2003
    case CryptoSignatureFailed => 2004
    case CryptoKeyGenerationFailed => 2005
    case CryptoInitializationFailed => 2006
    case ProtocolInvalidMessage => 3001
    case ProtocolInvalidEvent => 3002
    case ProtocolClientNotConnected => 3003
    case ProtocolEventTimeout => 3004
    case ProtocolDuplicateEvent => 3005
    case ProtocolMissingShards => 3006
    case MPCComputationNotFound => 4001
    case MPCInvalidData => 4002
    case MPCInsufficientParticipants => 4003
    case MPCComputationFailed => 4004
    case SystemResourceExhausted => 5001
    case SystemInvalidConfiguration => 5002
    case SystemThreadCreationFailed => 5003
  }

  /** The category a code's name and comment place it in (independent of
      its numeric value). */
  function DeclaredCategory(c: Code): Category {
    match c
    case Success => Category.None
    case NetworkConnectionFailed | NetworkTimeout | NetworkInvalidResponse
      | NetworkPeerUnreachable | NetworkBindFailed => Network
    case CryptoInvalidSignature | CryptoInvalidPublicKey | CryptoInvalidPrivateKey
      | CryptoSignatureFailed | CryptoKeyGenerationFailed
      | CryptoInitializationFailed => Crypto
    case ProtocolInvalidMessage | ProtocolInvalidEvent | ProtocolClientNotConnected
      | ProtocolEventTimeout | ProtocolDuplicateEvent | ProtocolMissingShards => Protocol
    case MPCComputationNotFound | MPCInvalidData | MPCInsufficientParticipants
      | MPCComputationFailed => MPC
    case SystemResourceExhausted | SystemInvalidConfiguration
      | SystemThreadCreationFailed => System
  }

  /** getErrorCategory: the thousand-wide range a value falls in; zero and
      values of 6000 and above have no category. */
  function CategoryOf(value: Uint32): (c: Category)
    ensures value == 0 ==> c == Category.None
    ensures 1000 <= value < 6000 ==> CategoryValue(c) == (value / 1000) * 1000
    ensures (0 < value < 1000 || 6000 <= value) ==> c == Category.None
  {
    if value == 0 then Category.None
    else if 1000 <= value < 2000 then Network
    else if 2000 <= value < 3000 then Crypto
    else if 3000 <= value < 4000 then Protocol
    else if 4000 <= value < 5000 then MPC
    else if 5000 <= value < 6000 then System
    else Category.None
  }

  /** Every named code lies in the range of the category it is declared
      under. */
  lemma CodesInDeclaredRange(c: Code)
    ensures CategoryOf(Value(c)) == DeclaredCategory(c)
  {
  }

  /** The switch of errorToString: which named code, if any, a value is. */
  function Named(value: Uint32): (r: Wrappers.Option<Code>)
    ensures r.Some? ==> Value(r.value) == value
  {
    if value == 0 then Wrappers.Some(Success)
    else if value == 1001 then Wrappers.Some(NetworkConnectionFailed)
    else if value == 1002 then Wrappers.Some(NetworkTimeout)
    else if value == 1003 then Wrappers.Some(NetworkInvalidResponse)
    else if value == 1004 then Wrappers.Some(NetworkPeerUnreachable)
    else if value == 1005 then Wrappers.Some(NetworkBindFailed)
    else if value == 2001 then Wrappers.Some(CryptoInvalidSignature)
    else if value == 2002 then Wrappers.Some(CryptoInvalidPublicKey)
    else if value == 2003 then Wrappers.Some(CryptoInvalidPrivateKey)
    else if value == 2004 then Wrappers.Some(CryptoSignatureFailed)
    else if value == 2005 then Wrappers.Some(CryptoKeyGenerationFailed)
    else if value == 2006 then Wrappers.Some(CryptoInitializationFailed)
    else if value == 3001 then Wrappers.Some(ProtocolInvalidMessage)
    else if value == 3002 then Wrappers.Some(ProtocolInvalidEvent)
    else if value == 3003 then Wrappers.Some(ProtocolClientNotConnected)
    else if value == 3004 then Wrappers.Some(ProtocolEventTimeout)
    else if value == 3005 then Wrappers.Some(ProtocolDuplicateEvent)
    else if value == 3006 then Wrappers.Some(ProtocolMissingShards)
    else if value == 4001 then Wrappers.Some(MPCComputationNotFound)
    else if value == 4002 then Wrappers.Some(MPCInvalidData)
    else if value == 4003 then Wrappers.Some(MPCInsufficientParticipants)
    else if value == 4004 then Wrappers.Some(MPCComputationFailed)
    else if value == 5001 then Wrappers.Some(SystemResourceExhausted)
    else if value == 5002 then Wrappers.Some(SystemInvalidConfiguration)
    else if value == 5003 then Wrappers.Some(SystemThreadCreationFailed)
    else Wrappers.None
  }

  /** Each named code is recognised by the switch, and nothing else is. */
  lemma NamedInvertsValue(c: Code)
    ensures Named(Value(c)) == Wrappers.Some(c)
  {
  }

  function Message(c: Code): string {
    match c
    case Success => "Success"
    case NetworkConnectionFailed => "Network connection failed"
    case NetworkTimeout => "Network timeout"
    case NetworkInvalidResponse => "Invalid network response"
    case NetworkPeerUnreachable => "Peer unreachable"
    case NetworkBindFailed => "Failed to bind to address"
    case CryptoInvalidSignature => "Invalid signature"
    case CryptoInvalidPublicKey => "Invalid public key"
    case CryptoInvalidPrivateKey => "Invalid private key"
    case CryptoSignatureFailed => "Signature creation failed"
    case CryptoKeyGenerationFailed => "Key generation failed"
    case CryptoInitializationFailed => "Crypto initialization failed"
    case ProtocolInvalidMessage => "Invalid protocol message"
    case ProtocolInvalidEvent => "Invalid event"
    case ProtocolClientNotConnected => "Client not connected"
    case ProtocolEventTimeout => "Event timed out"
    case ProtocolDuplicateEvent => "Duplicate event"
    case ProtocolMissingShards => "Missing data shards"
    case MPCComputationNotFound => "Computation type not found"
    case MPCInvalidData => "Invalid MPC data"
    case MPCInsufficientParticipants => "Insufficient participants"
    case MPCComputationFailed => "Computation failed"
    case SystemResourceExhausted => "System resources exhausted"
    case SystemInvalidConfiguration => "Invalid configuration"
    case SystemThreadCreationFailed => "Thread creation failed"
  }

  const UnknownMessage: string := "Unknown error"

  /** errorToString */
  function ErrorToString(value: Uint32): (s: string)
    ensures Named(value).None? ==> s == UnknownMessage
    ensures Named(value).Some? ==> s == Message(Named(value).value)
  {
    match Named(value)
    case Some(c) => Message(c)
    case None => UnknownMessage
  }

  /** Reading a message back: the partner of `Message`. The lookup goes by
      length first. */
  function MessageCode(s: string): Wrappers.Option<Code> {
    match |s|
    case 7 =>
      if s == "Success" then Wrappers.Some(Success)
      else Wrappers.None
    case 13 =>
      if s == "Invalid event" then Wrappers.Some(ProtocolInvalidEvent)
      else Wrappers.None
    case 15 =>
      if s == "Network timeout" then Wrappers.Some(NetworkTimeout)
      else if s == "Event timed out" then Wrappers.Some(ProtocolEventTimeout)
      else if s == "Duplicate event" then Wrappers.Some(ProtocolDuplicateEvent)
      else Wrappers.None
    case 16 =>
      if s == "Peer unreachable" then Wrappers.Some(NetworkPeerUnreachable)
      else if s == "Invalid MPC data" then Wrappers.Some(MPCInvalidData)
      else Wrappers.None
    case 17 =>
      if s == "Invalid signature" then Wrappers.Some(CryptoInvalidSignature)
      else Wrappers.None
    case 18 =>
      if s == "Invalid public key" then Wrappers.Some(CryptoInvalidPublicKey)
      else if s == "Computation failed" then Wrappers.Some(MPCComputationFailed)
      else Wrappers.None
    case 19 =>
      if s == "Invalid private key" then Wrappers.Some(CryptoInvalidPrivateKey)
      else if s == "Missing data shards" then Wrappers.Some(ProtocolMissingShards)
      else Wrappers.None
    case 20 =>
      if s == "Client not connected" then Wrappers.Some(ProtocolClientNotConnected)
      else Wrappers.None
    case 21 =>
      if s == "Key generation failed" then Wrappers.Some(CryptoKeyGenerationFailed)
      else if s == "Invalid configuration" then Wrappers.Some(SystemInvalidConfiguration)
      else Wrappers.None
    case 22 =>
      if s == "Thread creation failed" then Wrappers.Some(SystemThreadCreationFailed)
      else Wrappers.None
    case 24 =>
      if s == "Invalid network response" then Wrappers.Some(NetworkInvalidResponse)
      else if s == "Invalid protocol message" then Wrappers.Some(ProtocolInvalidMessage)
      else Wrappers.None
    case 25 =>
      if s == "Network connection failed" then Wrappers.Some(NetworkConnectionFailed)
      else if s == "Failed to bind to address" then Wrappers.Some(NetworkBindFailed)
      else if s == "Signature creation failed" then Wrappers.Some(CryptoSignatureFailed)
      else if s == "Insufficient participants" then Wrappers.Some(MPCInsufficientParticipants)
      else Wrappers.None
    case 26 =>
      if s == "Computation type not found" then Wrappers.Some(MPCComputationNotFound)
      else if s == "System resources exhausted" then Wrappers.Some(SystemResourceExhausted)
      else Wrappers.None
    case 28 =>
      if s == "Crypto initialization failed" then Wrappers.Some(CryptoInitializationFailed)
      else Wrappers.None
    case _ => Wrappers.None
  }

  /** Reading a code's message back gives the code. */
  lemma MessageCodeInverts(c: Code)
    ensures MessageCode(Message(c)) == Wrappers.Some(c)
    ensures Message(c) != UnknownMessage
  {
    if Value(c) < 2000 {
      NetworkMessagesInvert(c);
    } else if Value(c) < 3000 {
      CryptoMessagesInvert(c);
    } else if Value(c) < 4000 {
      ProtocolMessagesInvert(c);
    } else if Value(c) < 5000 {
      ComputationMessagesInvert(c);
    } else {
      SystemMessagesInvert(c);
    }
  }

  /** Success and the network codes. */
  lemma NetworkMessagesInvert(c: Code)
    requires 0 <= Value(c) < 2000
    ensures MessageCode(Message(c)) == Wrappers.Some(c)
    ensures Message(c) != UnknownMessage
  {
    match c
    case Success =>
    case NetworkConnectionFailed =>
    case NetworkTimeout =>
    case NetworkInvalidResponse =>
    case NetworkPeerUnreachable =>
    case NetworkBindFailed =>
    case CryptoInvalidSignature =>
    case CryptoInvalidPublicKey =>
    case CryptoInvalidPrivateKey =>
    case CryptoSignatureFailed =>
    case CryptoKeyGenerationFailed =>
    case CryptoInitializationFailed =>
    case ProtocolInvalidMessage =>
    case ProtocolInvalidEvent =>
    case ProtocolClientNotConnected =>
    case ProtocolEventTimeout =>
    case ProtocolDuplicateEvent =>
    case ProtocolMissingShards =>
    case MPCComputationNotFound =>
    case MPCInvalidData =>
    case MPCInsufficientParticipants =>
    case MPCComputationFailed =>
    case SystemResourceExhausted =>
    case SystemInvalidConfiguration =>
    case SystemThreadCreationFailed =>
  }

  /** The crypto codes. */
  lemma CryptoMessagesInvert(c: Code)
    requires 2000 <= Value(c) < 3000
    ensures MessageCode(Message(c)) == Wrappers.Some(c)
    ensures Message(c) != UnknownMessage
  {
    match c
    case Success =>
    case NetworkConnectionFailed =>
    case NetworkTimeout =>
    case NetworkInvalidResponse =>
    case NetworkPeerUnreachable =>
    case NetworkBindFailed =>
    case CryptoInvalidSignature =>
    case CryptoInvalidPublicKey =>
    case CryptoInvalidPrivateKey =>
    case CryptoSignatureFailed =>
    case CryptoKeyGenerationFailed =>
    case CryptoInitializationFailed =>
    case ProtocolInvalidMessage =>
    case ProtocolInvalidEvent =>
    case ProtocolClientNotConnected =>
    case ProtocolEventTimeout =>
    case ProtocolDuplicateEvent =>
    case ProtocolMissingShards =>
    case MPCComputationNotFound =>
    case MPCInvalidData =>
    case MPCInsufficientParticipants =>
    case MPCComputationFailed =>
    case SystemResourceExhausted =>
    case SystemInvalidConfiguration =>
    case SystemThreadCreationFailed =>
  }

  /** The protocol codes. */
  lemma ProtocolMessagesInvert(c: Code)
    requires 3000 <= Value(c) < 4000
    ensures MessageCode(Message(c)) == Wrappers.Some(c)
    ensures Message(c) != UnknownMessage
  {
    match c
    case Success =>
    case NetworkConnectionFailed =>
    case NetworkTimeout =>
    case NetworkInvalidResponse =>
    case NetworkPeerUnreachable =>
    case NetworkBindFailed =>
    case CryptoInvalidSignature =>
    case CryptoInvalidPublicKey =>
    case CryptoInvalidPrivateKey =>
    case CryptoSignatureFailed =>
    case CryptoKeyGenerationFailed =>
    case CryptoInitializationFailed =>
    case ProtocolInvalidMessage =>
    case ProtocolInvalidEvent =>
    case ProtocolClientNotConnected =>
    case ProtocolEventTimeout =>
    case ProtocolDuplicateEvent =>
    case ProtocolMissingShards =>
    case MPCComputationNotFound =>
    case MPCInvalidData =>
    case MPCInsufficientParticipants =>
    case MPCComputationFailed =>
    case SystemResourceExhausted =>
    case SystemInvalidConfiguration =>
    case SystemThreadCreationFailed =>
  }

  /** The computation codes. */
  lemma ComputationMessagesInvert(c: Code)
    requires 4000 <= Value(c) < 5000
    ensures MessageCode(Message(c)) == Wrappers.Some(c)
    ensures Message(c) != UnknownMessage
  {
    match c
    case Success =>
    case NetworkConnectionFailed =>
    case NetworkTimeout =>
    case NetworkInvalidResponse =>
    case NetworkPeerUnreachable =>
    case NetworkBindFailed =>
    case CryptoInvalidSignature =>
    case CryptoInvalidPublicKey =>
    case CryptoInvalidPrivateKey =>
    case CryptoSignatureFailed =>
    case CryptoKeyGenerationFailed =>
    case CryptoInitializationFailed =>
    case ProtocolInvalidMessage =>
    case ProtocolInvalidEvent =>
    case ProtocolClientNotConnected =>
    case ProtocolEventTimeout =>
    case ProtocolDuplicateEvent =>
    case ProtocolMissingShards =>
    case MPCComputationNotFound =>
    case MPCInvalidData =>
    case MPCInsufficientParticipants =>
    case MPCComputationFailed =>
    case SystemResourceExhausted =>
    case SystemInvalidConfiguration =>
    case SystemThreadCreationFailed =>
  }

  /** The system codes. */
  lemma SystemMessagesInvert(c: Code)
    requires 5000 <= Value(c)
    ensures MessageCode(Message(c)) == Wrappers.Some(c)
    ensures Message(c) != UnknownMessage
  {
    match c
    case Success =>
    case NetworkConnectionFailed =>
    case NetworkTimeout =>
    case NetworkInvalidResponse =>
    case NetworkPeerUnreachable =>
    case NetworkBindFailed =>
    case CryptoInvalidSignature =>
    case CryptoInvalidPublicKey =>
    case CryptoInvalidPrivateKey =>
    case CryptoSignatureFailed =>
    case CryptoKeyGenerationFailed =>
    case CryptoInitializationFailed =>
    case ProtocolInvalidMessage =>
    case ProtocolInvalidEvent =>
    case ProtocolClientNotConnected =>
    case ProtocolEventTimeout =>
    case ProtocolDuplicateEvent =>
    case ProtocolMissingShards =>
    case MPCComputationNotFound =>
    case MPCInvalidData =>
    case MPCInsufficientParticipants =>
    case MPCComputationFailed =>
    case SystemResourceExhausted =>
    case SystemInvalidConfiguration =>
    case SystemThreadCreationFailed =>
  }

  /** errorToString gives every named code its own message, none of them
      "Unknown error". */
  lemma MessagesDistinct(a: Code, b: Code)
    ensures ErrorToString(Value(a)) != UnknownMessage
    ensures a != b ==> ErrorToString(Value(a)) != ErrorToString(Value(b))
  {
    NamedInvertsValue(a);
    NamedInvertsValue(b);
    MessageCodeInverts(a);
    MessageCodeInverts(b);
  }

  /** Result<T>: a value (None stands for the default-constructed value the
      code-only constructors leave), a code and a message. */
  datatype Outcome<T> = Outcome(value: Wrappers.Option<T>, code: Uint32, message: string) {
    predicate IsSuccess() {
      code == 0
    }

    function IsError(): (b: bool)
      ensures b <==> !IsSuccess()
    {
      code != 0
    }

    /** operator bool */
    function AsBool(): (b: bool)
      ensures b <==> IsSuccess()
    {
      code == 0
    }
  }

  /** Result(T value): the value constructor always means success. */
  function OfValue<T>(v: T): (r: Outcome<T>)
    ensures r.IsSuccess() && r.value == Wrappers.Some(v) && r.message == ""
  {
    Outcome(Wrappers.Some(v), 0, "")
  }

  /** Result(ErrorCode) and Result(ErrorCode, message). */
  function OfCode<T>(code: Uint32, message: string := ""): (r: Outcome<T>)
    ensures r.code == code && r.message == message && r.value.None?
    ensures r.IsError() <==> code != 0
  {
    Outcome(Wrappers.None, code, message)
  }

  /** Result<void>. */
  datatype VoidOutcome = VoidOutcome(code: Uint32, message: string) {
    predicate IsSuccess() {
      code == 0
    }

    function IsError(): (b: bool)
      ensures b <==> !IsSuccess()
    {
      code != 0
    }

    function AsBool(): (b: bool)
      ensures b <==> IsSuccess()
    {
      code == 0
    }
  }

  /** Result<void>(): success with an empty message. */
  function VoidSuccess(): (r: VoidOutcome)
    ensures r.IsSuccess() && r.message == ""
  {
    VoidOutcome(0, "")
  }

  function VoidOfCode(code: Uint32, message: string := ""): (r: VoidOutcome)
    ensures r.code == code && r.message == message
    ensures r.AsBool() <==> code == 0
  {
    VoidOutcome(code, message)
  }
}

=== FILE: events.dfy ===
/** The protocol's messages and their JSON field mappings (`to_json` and
    `from_json`). The structures carry every field the server and client
    use; the JSON mappings write and read only the keys listed for them,
    so a field outside that list is lost on the wire. */
module Events {
  import opened Wrappers
  import opened Json
  import Clock

  /** EventType and ResponseType enumerators. */
  const DataSubmission: int := 0
  const DataPart: int := 0
  const ConnectionRequest: int := 1

  datatype ClientInfo = ClientInfo(clientId: string, clientHost: string, clientPort: string,
                                   ed25519Pub: string)

  /** `timestamp` counts nanoseconds of the system clock since the epoch. */
  datatype Event = Event(kind: int, eventId: string, computationType: string,
                         participants: seq<ClientInfo>, serverSignature: string, timestamp: int)

  /** A submitted shard result; `timestamp` counts nanoseconds of the
      system clock since the epoch. */
  datatype EventResponse = EventResponse(kind: int, eventId: string, clientId: string,
                                         data: string, timestamp: int)

  datatype ConnectResponse = ConnectResponse(kind: int, clientHost: string, clientPort: string,
                                             clientId: string, x25519Pub: string, ed25519Pub: string)

  datatype PeerDataMessage = PeerDataMessage(eventId: string, fromClient: string, data: string,
                                             signature: string, timestamp: int)

  /** `j.at(key).get_to(std::string&)` */
  function StringAt(j: Value, key: string): (r: Option<string>)
    ensures r.Some? <==> Has(j, key) && j.fields[key].JString?
    ensures r.Some? ==> j.fields[key] == JString(r.value)
  {
    var v :- At(j, key);
    GetString(v)
  }

  /** `j.at(key).get_to(Enum&)` */
  function EnumAt(j: Value, key: string): (r: Option<int>)
    ensures r.Some? <==> Has(j, key) && (j.fields[key].JInt? || j.fields[key].JReal?)
    ensures r.Some? && j.fields[key].JInt? ==> r.value == j.fields[key].i
  {
    var v :- At(j, key);
    GetEnum(v)
  }

  // ------------------------------------------------------------ ClientInfo

  function ClientInfoToJson(c: ClientInfo): (j: Value)
    ensures j.JObject? && j.fields.Keys == {"client_id", "client_host", "client_port"}
  {
    JObject(map["client_id" := JString(c.clientId), "client_host" := JString(c.clientHost),
                "client_port" := JString(c.clientPort)])
  }

  function ClientInfoFromJson(j: Value): (r: Option<ClientInfo>)
    ensures r.Some? <==> StringAt(j, "client_id").Some? && StringAt(j, "client_host").Some?
                         && StringAt(j, "client_port").Some?
    ensures r.Some? ==> Has(j, "client_id") && j.fields["client_id"] == JString(r.value.clientId)
                        && j.fields["client_host"] == JString(r.value.clientHost)
                        && j.fields["client_port"] == JString(r.value.clientPort)
                        && r.value.ed25519Pub == ""
  {
    var id :- StringAt(j, "client_id");
    var host :- StringAt(j, "client_host");
    var port :- StringAt(j, "client_port");
    Some(ClientInfo(id, host, port, ""))
  }

  /** What survives a trip through JSON: the three listed fields. */
  function OnWireInfo(c: ClientInfo): ClientInfo {
    c.(ed25519Pub := "")
  }

  lemma ClientInfoRoundTrip(c: ClientInfo)
    ensures ClientInfoFromJson(ClientInfoToJson(c)) == Some(OnWireInfo(c))
  {
  }

  // ----------------------------------------------------------------- Event

  function InfosToJson(ps: seq<ClientInfo>): (items: seq<Value>)
    ensures |items| == |ps|
    ensures forall i :: 0 <= i < |ps| ==> items[i] == ClientInfoToJson(ps[i])
  {
    seq(|ps|, i requires 0 <= i < |ps| => ClientInfoToJson(ps[i]))
  }

  /** `get_to(std::vector<ClientInfo>&)` over the items of an array. */
  function InfosFromJson(items: seq<Value>): (r: Option<seq<ClientInfo>>)
    ensures r.Some? <==> forall i :: 0 <= i < |items| ==> ClientInfoFromJson(items[i]).Some?
    ensures r.Some? ==> |r.value| == |items|
                        && forall i :: 0 <= i < |items| ==> ClientInfoFromJson(items[i]) == Some(r.value[i])
  {
    if items == [] then Some([])
    else
      match (ClientInfoFromJson(items[0]), InfosFromJson(items[1..]))
      case (Some(c), Some(rest)) =>
        assert forall i :: 1 <= i < |items| ==> items[1..][i - 1] == items[i];
        Some([c] + rest)
      case (None, _) => None
      case (_, None) =>
        assert forall i :: 0 <= i < |items| - 1 ==> items[1..][i] == items[i + 1];
        None
  }

  function EventToJson(e: Event): (j: Value)
    ensures j.JObject? && j.fields.Keys == {"type", "event_id", "computation_type", "participants"}
  {
    JObject(map["type" := JInt(e.kind), "event_id" := JString(e.eventId),
                "computation_type" := JString(e.computationType),
                "participants" := JArray(InfosToJson(e.participants))])
  }

  function EventFromJson(j: Value): (r: Option<Event>)
    ensures r.Some? ==> Has(j, "type") && Has(j, "event_id") && Has(j, "computation_type")
                        && Has(j, "participants") && j.fields["participants"].JArray?
    ensures r.Some? ==> j.fields["event_id"] == JString(r.value.eventId)
                        && j.fields["computation_type"] == JString(r.value.computationType)
                        && |r.value.participants| == |j.fields["participants"].items|
                        && r.value.serverSignature == "" && r.value.timestamp == 0
    ensures r.Some? <==> && EnumAt(j, "type").Some? && StringAt(j, "event_id").Some?
                         && StringAt(j, "computation_type").Some?
                         && Has(j, "participants") && j.fields["participants"].JArray?
                         && InfosFromJson(j.fields["participants"].items).Some?
    ensures r.Some? ==> && r.value.kind == EnumAt(j, "type").value
                        && r.value.participants == InfosFromJson(j.fields["participants"].items).value
  {
    var kind :- EnumAt(j, "type");
    var id :- StringAt(j, "event_id");
    var ctype :- StringAt(j, "computation_type");
    var ps :- At(j, "participants");
    if !ps.JArray? then None
    else
      var infos :- InfosFromJson(ps.items);
      Some(Event(kind, id, ctype, infos, "", 0))
  }

  /** What survives a trip through JSON: kind, identifier, computation type
      and the participants' listed fields; the server signature and the
      timestamp do not. */
  function OnWireEvent(e: Event): Event {
    e.(participants := seq(|e.participants|, i requires 0 <= i < |e.participants| => OnWireInfo(e.participants[i])),
       serverSignature := "", timestamp := 0)
  }

  lemma EventRoundTrip(e: Event)
    ensures EventFromJson(EventToJson(e)) == Some(OnWireEvent(e))
  {
    var items := InfosToJson(e.participants);
    forall i | 0 <= i < |items|
      ensures ClientInfoFromJson(items[i]) == Some(OnWireInfo(e.participants[i]))
    {
      ClientInfoRoundTrip(e.participants[i]);
    }
    var back := InfosFromJson(items);
    assert back.Some?;
    assert back.value == OnWireEvent(e).participants;
  }

  // --------------------------------------------------------- EventResponse

  function EventResponseToJson(r: EventResponse): (j: Value)
    ensures j.JObject? && j.fields.Keys == {"type", "event_id", "client_id", "data", "timestamp"}
    ensures j.fields["timestamp"] == JInt(Clock.WholeMillis(r.timestamp))
  {
    JObject(map["type" := JInt(r.kind), "event_id" := JString(r.eventId),
                "client_id" := JString(r.clientId), "data" := JString(r.data),
                "timestamp" := JInt(Clock.WholeMillis(r.timestamp))])
  }

  function EventResponseFromJson(j: Value): (r: Option<EventResponse>)
    ensures r.Some? <==> EnumAt(j, "type").Some? && StringAt(j, "event_id").Some?
                         && StringAt(j, "client_id").Some? && StringAt(j, "data").Some?
                         && Has(j, "timestamp") && GetInteger(j.fields["timestamp"]).Some?
    ensures r.Some? ==> r.value.kind == EnumAt(j, "type").value
                        && j.fields["event_id"] == JString(r.value.eventId)
                        && j.fields["client_id"] == JString(r.value.clientId)
                        && j.fields["data"] == JString(r.value.data)
                        && r.value.timestamp == GetInteger(j.fields["timestamp"]).value * Clock.NanosPerMilli
  {
    var kind :- EnumAt(j, "type");
    var id :- StringAt(j, "event_id");
    var client :- StringAt(j, "client_id");
    var data :- StringAt(j, "data");
    var ts :- At(j, "timestamp");
    var ms :- GetInteger(ts);
    Some(EventResponse(kind, id, client, data, ms * Clock.NanosPerMilli))
  }

  /** A boolean timestamp is refused: the millisecond count is read as the
      library's own 64-bit integer type, which does not take booleans. */
  lemma BooleanTimestampRefused(j: Value)
    requires Has(j, "timestamp") && j.fields["timestamp"].JBool?
    ensures EventResponseFromJson(j).None?
  {
  }

  /** The timestamp truncated to whole milliseconds, as the wire keeps it. */
  function OnWireResponse(r: EventResponse): (w: EventResponse)
    ensures w.(timestamp := r.timestamp) == r
    ensures -Clock.NanosPerMilli < w.timestamp - r.timestamp < Clock.NanosPerMilli
  {
    r.(timestamp := Clock.WholeMillis(r.timestamp) * Clock.NanosPerMilli)
  }

  /** Every field survives except the sub-millisecond part of the
      timestamp, and what does survive survives a second trip unchanged. */
  lemma EventResponseRoundTrip(r: EventResponse)
    ensures EventResponseFromJson(EventResponseToJson(r)) == Some(OnWireResponse(r))
    ensures EventResponseFromJson(EventResponseToJson(OnWireResponse(r))) == Some(OnWireResponse(r))
  {
    var w := OnWireResponse(r);
    var ms := Clock.WholeMillis(r.timestamp);
    assert Clock.WholeMillis(ms * Clock.NanosPerMilli) == ms;
  }

  // ------------------------------------------------------- ConnectResponse

  function ConnectResponseToJson(c: ConnectResponse): (j: Value)
    ensures j.JObject? && j.fields.Keys == {"type", "client_host", "client_port", "client_id",
                                            "x25519_pub", "ed25519_pub"}
  {
    JObject(map["type" := JInt(c.kind), "client_host" := JString(c.clientHost),
                "client_port" := JString(c.clientPort), "client_id" := JString(c.clientId),
                "x25519_pub" := JString(c.x25519Pub), "ed25519_pub" := JString(c.ed25519Pub)])
  }

  function ConnectResponseFromJson(j: Value): (r: Option<ConnectResponse>)
    ensures r.Some? <==> EnumAt(j, "type").Some? && StringAt(j, "client_host").Some?
                         && StringAt(j, "client_port").Some? && StringAt(j, "client_id").Some?
                         && StringAt(j, "x25519_pub").Some? && StringAt(j, "ed25519_pub").Some?
    ensures r.Some? ==> r.value.kind == EnumAt(j, "type").value
                        && j.fields["client_host"] == JString(r.value.clientHost)
                        && j.fields["client_port"] == JString(r.value.clientPort)
                        && j.fields["client_id"] == JString(r.value.clientId)
                        && j.fields["x25519_pub"] == JString(r.value.x25519Pub)
                        && j.fields["ed25519_pub"] == JString(r.value.ed25519Pub)
  {
    var kind :- EnumAt(j, "type");
    var host :- StringAt(j, "client_host");
    var port :- StringAt(j, "client_port");
    var id :- StringAt(j, "client_id");
    var x :- StringAt(j, "x25519_pub");
    var ed :- StringAt(j, "ed25519_pub");
    Some(ConnectResponse(kind, host, port, id, x, ed))
  }

  lemma ConnectResponseRoundTrip(c: ConnectResponse)
    ensures ConnectResponseFromJson(ConnectResponseToJson(c)) == Some(c)
  {
  }

  // ------------------------------------------------------- PeerDataMessage

  function PeerDataToJson(p: PeerDataMessage): (j: Value)
    ensures j.JObject? && j.fields.Keys == {"event_id", "from_client", "data"}
  {
    JObject(map["event_id" := JString(p.eventId), "from_client" := JString(p.fromClient),
                "data" := JString(p.data)])
  }

  function PeerDataFromJson(j: Value): (r: Option<PeerDataMessage>)
    ensures r.Some? <==> StringAt(j, "event_id").Some? && StringAt(j, "from_client").Some?
                         && StringAt(j, "data").Some?
    ensures r.Some? ==> j.fields["event_id"] == JString(r.value.eventId)
                        && j.fields["from_client"] == JString(r.value.fromClient)
                        && j.fields["data"] == JString(r.value.data)
                        && r.value.signature == "" && r.value.timestamp == 0
  {
    var id :- StringAt(j, "event_id");
    var from :- StringAt(j, "from_client");
    var data :- StringAt(j, "data");
    Some(PeerDataMessage(id, from, data, "", 0))
  }

  /** Only the event, the sender and the data travel; the signature and
      the timestamp come back empty and at the epoch. */
  lemma PeerDataRoundTrip(p: PeerDataMessage)
    ensures PeerDataFromJson(PeerDataToJson(p)) == Some(p.(signature := "", timestamp := 0))
  {
  }
}

=== FILE: federated.dfy ===
/** The federated-averaging computation: clients add up the masked
    gradient shards they hold, and the server adds up the clients'
    contributions and takes one gradient-descent step on the model
    weights it keeps. Gradient and weight payloads are JSON texts,
    represented here by their parse. */
module Federated {
  import opened Wrappers
  import opened Json

  type Vector = seq<real>

  const ComputationType: string := "federated_aggregation"
  const DefaultLearningRate: real := 0.01
  const SizeMismatch: string := "Cannot add gradients of different sizes"
  const WeightMismatch: string := "Cannot apply gradient: size mismatch with weights"

  /** The computation's state: the current model weights and the rate. */
  datatype Federated = Federated(weights: Vector, learningRate: real)

  function Zeros(n: nat): (z: Vector)
    ensures |z| == n && forall i :: 0 <= i < n ==> z[i] == 0.0
  {
    seq(n, _ => 0.0)
  }

  /** Element-wise sum of two vectors of one length. */
  function Plus(a: Vector, b: Vector): (r: Vector)
    requires |a| == |b|
    ensures |r| == |a| && forall i :: 0 <= i < |a| ==> r[i] == a[i] + b[i]
  {
    seq(|a|, i requires 0 <= i < |a| => a[i] + b[i])
  }

  /** The constructor: four zero weights for bias, hour, day of week and
      hours online. */
  function NewFederated(learningRate: real): (f: Federated)
    ensures f.weights == Zeros(4) && f.learningRate == learningRate
  {
    Federated([0.0, 0.0, 0.0, 0.0], learningRate)
  }

  /** addGradients: an empty operand yields the other one; two non-empty
      vectors of one length add element-wise; otherwise it throws. */
  function AddGradients(a: Vector, b: Vector): (r: Result<Vector>)
    ensures a == [] ==> r == Success(b)
    ensures a != [] && b == [] ==> r == Success(a)
    ensures r.Failure? <==> a != [] && b != [] && |a| != |b|
    ensures r.Failure? ==> r.error == SizeMismatch
    ensures a != [] && b != [] && |a| == |b| ==> r == Success(Plus(a, b))
  {
    if a == [] then Success(b)
    else if b == [] then Success(a)
    else if |a| != |b| then Failure(SizeMismatch)
    else Success(Plus(a, b))
  }

  /** Adding gradients does not depend on the operands' order. */
  lemma AddGradientsCommute(a: Vector, b: Vector)
    ensures AddGradients(a, b) == AddGradients(b, a)
  {
    if a != [] && b != [] && |a| == |b| {
      assert Plus(a, b) == Plus(b, a);
    }
  }

  /** deserializeGradient: the array of numbers, or empty for anything
      that does not parse or convert. */
  function DeserializeGradient(data: Wire): (r: Vector)
    ensures data.Some? && GetRealArray(data.value).Some? ==> r == GetRealArray(data.value).value
    ensures data.None? || GetRealArray(data.value).None? ==> r == []
  {
    match data
    case None => []
    case Some(j) => GetRealArray(j).GetOr([])
  }

  /** An array holding a boolean reads as the empty gradient. */
  lemma BooleanGradientEmpty(items: seq<Value>, k: nat)
    requires k < |items| && items[k].JBool?
    ensures DeserializeGradient(Some(JArray(items))) == []
  {
    BooleanItemRefused(items, k);
  }

  /** serializeGradient: the vector as a JSON array. */
  function SerializeGradient(g: Vector): (j: Value)
    ensures GetRealArray(j) == Some(g)
  {
    RealsRoundTrip(g);
    FromReals(g)
  }

  /** One shard of compute's loop: empty or unparseable shards are
      skipped, the first non-empty one starts the sum, and a shard whose
      size disagrees is skipped (the exception is caught per shard). */
  function Step(acc: Vector, shard: Wire): (r: Vector)
    ensures acc != [] ==> |r| == |acc|
  {
    var g := DeserializeGradient(shard);
    if g == [] then acc
    else match AddGradients(acc, g)
      case Success(v) => v
      case Failure(_) => acc
  }

  function Accumulate(acc: Vector, shards: seq<Wire>): (r: Vector)
    ensures acc != [] ==> |r| == |acc|
    decreases |shards|
  {
    if shards == [] then acc else Accumulate(Step(acc, shards[0]), shards[1..])
  }

  /** compute: the serialized sum of the shards; no shards (or none that
      yields a gradient) gives the empty array. */
  function Compute(shards: seq<Wire>): (r: Value)
    ensures shards == [] ==> r == FromReals([])
    ensures GetRealArray(r) == Some(Accumulate([], shards))
  {
    if shards == [] then SerializeGradient([]) else SerializeGradient(Accumulate([], shards))
  }

  // The reference sum: every gradient of the given length, added up.

  function Gradients(shards: seq<Wire>): (gs: seq<Vector>)
    ensures |gs| == |shards| && forall k :: 0 <= k < |gs| ==> gs[k] == DeserializeGradient(shards[k])
  {
    seq(|shards|, k requires 0 <= k < |shards| => DeserializeGradient(shards[k]))
  }

  /** A gradient of length `n` as it is, anything else as zero. */
  function Contribution(g: Vector, n: nat): (c: Vector)
    ensures |c| == n
  {
    if |g| == n then g else Zeros(n)
  }

  /** The sum of those gradients that have length `n`; the others count
      as zero. */
  function Total(gs: seq<Vector>, n: nat): (t: Vector)
    ensures |t| == n
  {
    if gs == [] then Zeros(n)
    else Plus(Contribution(gs[0], n), Total(gs[1..], n))
  }

  /** Once the sum has started, one step adds the shard's contribution. */
  lemma StepAdds(acc: Vector, shard: Wire)
    requires acc != []
    ensures Step(acc, shard) == Plus(acc, Contribution(DeserializeGradient(shard), |acc|))
  {
    var g := DeserializeGradient(shard);
    if |g| != |acc| {
      assert Plus(acc, Zeros(|acc|)) == acc;
    }
  }

  lemma PlusAssociates(a: Vector, b: Vector, c: Vector)
    requires |a| == |b| == |c|
    ensures Plus(Plus(a, b), c) == Plus(a, Plus(b, c))
  {
  }

  lemma TotalFirst(shards: seq<Wire>, n: nat)
    requires shards != []
    ensures Total(Gradients(shards), n)
            == Plus(Contribution(DeserializeGradient(shards[0]), n), Total(Gradients(shards[1..]), n))
  {
    assert Gradients(shards)[1..] == Gradients(shards[1..]);
  }

  /** Once the running sum has length `n`, the loop adds exactly the
      remaining shards of that length. */
  lemma {:induction false} AccumulateAddsTotal(acc: Vector, shards: seq<Wire>)
    requires acc != []
    ensures Accumulate(acc, shards) == Plus(acc, Total(Gradients(shards), |acc|))
    decreases |shards|
  {
    var n := |acc|;
    if shards == [] {
      assert Plus(acc, Zeros(n)) == acc;
    } else {
      var c := Contribution(DeserializeGradient(shards[0]), n);
      var rest := Total(Gradients(shards[1..]), n);
      StepAdds(acc, shards[0]);
      AccumulateAddsTotal(Step(acc, shards[0]), shards[1..]);
      PlusAssociates(acc, c, rest);
      TotalFirst(shards, n);
    }
  }

  /** Shards before the first gradient contribute nothing; from it on the
      loop sums exactly the gradients of its length. */
  lemma {:induction false} ComputeSumsMatching(shards: seq<Wire>, k: nat)
    requires k < |shards| && DeserializeGradient(shards[k]) != []
    requires forall j :: 0 <= j < k ==> DeserializeGradient(shards[j]) == []
    ensures var g := DeserializeGradient(shards[k]);
            GetRealArray(Compute(shards)) == Some(Total(Gradients(shards[k..]), |g|))
  {
    var g := DeserializeGradient(shards[k]);
    SkipLeading(shards, k);
    AccumulateAddsTotal(g, shards[k + 1..]);
    TotalFirst(shards[k..], |g|);
    assert shards[k..][1..] == shards[k + 1..];
  }

  lemma {:induction false} SkipLeading(shards: seq<Wire>, k: nat)
    requires k < |shards| && DeserializeGradient(shards[k]) != []
    requires forall j :: 0 <= j < k ==> DeserializeGradient(shards[j]) == []
    ensures Accumulate([], shards) == Accumulate(DeserializeGradient(shards[k]), shards[k + 1..])
  {
    if k > 0 {
      assert Step([], shards[0]) == [];
      assert shards[1..][k - 1..] == shards[k..] && shards[1..][k..] == shards[k + 1..];
      SkipLeading(shards[1..], k - 1);
    } else {
      assert Step([], shards[0]) == DeserializeGradient(shards[0]);
    }
  }

  /** When no shard yields a gradient the sum is empty. */
  lemma {:induction false} ComputeOfNothing(shards: seq<Wire>)
    requires forall j :: 0 <= j < |shards| ==> DeserializeGradient(shards[j]) == []
    ensures Accumulate([], shards) == []
  {
    if shards != [] {
      assert Step([], shards[0]) == [];
      ComputeOfNothing(shards[1..]);
    }
  }

  // ------------------------------------------------------------- weights

  /** applyGradientToWeights: missing weights start as zeros of the
      gradient's length; a length mismatch throws before anything is
      stored; otherwise `w - rate * g` is stored and returned. */
  function ApplyGradient(f: Federated, g: Vector): (r: Result<(Vector, Federated)>)
    ensures r.Failure? <==> f.weights != [] && |f.weights| != |g|
    ensures r.Failure? ==> r.error == WeightMismatch
    ensures r.Success? ==>
              && |r.value.0| == |g|
              && r.value.1 == f.(weights := r.value.0)
              && forall i :: 0 <= i < |g| ==>
                   r.value.0[i] == (if f.weights == [] then 0.0 else f.weights[i]) - f.learningRate * g[i]
  {
    var w := if f.weights == [] then Zeros(|g|) else f.weights;
    if |w| != |g| then Failure(WeightMismatch)
    else
      var updated := seq(|w|, i requires 0 <= i < |w| => w[i] - f.learningRate * g[i]);
      Success((updated, f.(weights := updated)))
  }

  function Negate(g: Vector): (r: Vector)
    ensures |r| == |g| && forall i :: 0 <= i < |g| ==> r[i] == -g[i]
  {
    seq(|g|, i requires 0 <= i < |g| => -g[i])
  }

  /** A step along the negated gradient undoes a step: the update is the
      gradient-descent rule and nothing else. */
  lemma ApplyGradientUndo(f: Federated, g: Vector)
    requires f.weights != [] && |f.weights| == |g|
    ensures ApplyGradient(f, g).Success?
    ensures ApplyGradient(ApplyGradient(f, g).value.1, Negate(g)) == Success((f.weights, f))
  {
    var f1 := ApplyGradient(f, g).value.1;
    var back := ApplyGradient(f1, Negate(g));
    forall i | 0 <= i < |g| ensures back.value.0[i] == f.weights[i] {
      assert f.learningRate * -g[i] == -(f.learningRate * g[i]);
    }
    assert back.value.0 == f.weights;
  }

  /** setModelWeights then getModelWeights gives back what was set. */
  function SetModelWeights(f: Federated, w: Vector): (r: Federated)
    ensures GetModelWeights(r) == w && r.learningRate == f.learningRate
  {
    f.(weights := w)
  }

  function GetModelWeights(f: Federated): Vector {
    f.weights
  }

  /** serializeModelWeights: the weights beside the learning rate. */
  function SerializeModelWeights(f: Federated, w: Vector): (j: Value)
    ensures Has(j, "model_weights") && Has(j, "learning_rate")
    ensures j.fields["learning_rate"] == JReal(f.learningRate)
  {
    JObject(map["model_weights" := FromReals(w), "learning_rate" := JReal(f.learningRate)])
  }

  /** deserializeModelWeights: empty for text that is not JSON, for a
      missing key and for a value that is not an array of numbers. */
  function DeserializeModelWeights(data: Wire): (r: Vector)
    ensures data.None? ==> r == []
    ensures data.Some? && !Has(data.value, "model_weights") ==> r == []
    ensures data.Some? && Has(data.value, "model_weights") ==>
              r == GetRealArray(data.value.fields["model_weights"]).GetOr([])
  {
    match data
    case None => []
    case Some(j) =>
      if Has(j, "model_weights") then GetRealArray(j.fields["model_weights"]).GetOr([]) else []
  }

  /** Weights survive serialization. */
  lemma WeightsRoundTrip(f: Federated, w: Vector)
    ensures DeserializeModelWeights(Some(SerializeModelWeights(f, w))) == w
  {
    RealsRoundTrip(w);
  }

  /** aggregateResults: nothing to aggregate gives the empty weights and
      no update; otherwise the summed contributions are applied, and the
      exception of a mismatched step escapes. */
  function AggregateResults(f: Federated, results: seq<Wire>): (r: Result<(Value, Federated)>)
    ensures results == [] ==> r == Success((SerializeModelWeights(f, []), f))
    ensures results != [] ==>
              var step := ApplyGradient(f, Accumulate([], results));
              && (r.Failure? <==> step.Failure?)
              && (r.Success? ==> r.value.1 == step.value.1
                                 && DeserializeModelWeights(Some(r.value.0)) == step.value.0)
  {
    if results == [] then Success((SerializeModelWeights(f, []), f))
    else
      match ApplyGradient(f, Accumulate([], results))
      case Failure(e) => Failure(e)
      case Success((w, f')) =>
        WeightsRoundTrip(f', w);
        Success((SerializeModelWeights(f', w), f'))
  }

  /** With weights in place, a non-empty batch of results none of which
      yields a gradient makes the empty gradient mismatch the weights:
      aggregation throws. */
  lemma AggregateOfUnreadableThrows(f: Federated, results: seq<Wire>)
    requires f.weights != [] && results != []
    requires forall j :: 0 <= j < |results| ==> DeserializeGradient(results[j]) == []
    ensures AggregateResults(f, results).Failure?
  {
    ComputeOfNothing(results);
  }
}

=== FILE: harness.dfy ===
/** The validation script of the federated-learning demo: it reads the
    server's and the clients' log lines, files each client's
    LOCAL_GRADIENT line and the server's GLOBAL_GRADIENT line under the
    current training round, and at the end checks round by round that the
    global gradient is the sum of the local ones. The reader threads and
    the server loop are modelled as one interleaved trace of stripped
    lines; the shared round counter is part of the state. */
module Harness {
  import opened Wrappers
  import opened Text
  import Numbers

  const ClientMarker := "training-round-"
  const ServerRoundPrefix := "Round "
  const LocalTag := "LOCAL_GRADIENT:"
  const GlobalTag := "GLOBAL_GRADIENT:"

  /** The comparison tolerance 1e-6, taken as the exact decimal. */
  const Tolerance: real := 0.000001

  /** The number of gradient components compared. */
  const Width := 4

  // ------------------------------------------------------- round markers

  /** `m` occurs at `i` and a digit follows it: where `m(\d+)` matches. */
  predicate MarkerAt(s: string, m: string, i: int) {
    OccursAt(s, m, i) && i + |m| < |s| && IsDigit(s[i + |m|])
  }

  /** int() of the digits after the marker at `i`. */
  function MarkedNumber(s: string, m: string, i: int): nat
    requires MarkerAt(s, m, i)
  {
    var tail := s[i + |m|..];
    DigitsValue(tail[..Numbers.DigitRun(tail)])
  }

  /** The leftmost position from `i` on where `m(\d+)` matches. */
  function FirstMarker(s: string, m: string, i: nat): (r: Option<nat>)
    requires i <= |s|
    ensures r.None? <==> forall j | i <= j <= |s| :: !MarkerAt(s, m, j)
    ensures r.Some? ==> i <= r.value <= |s| && MarkerAt(s, m, r.value)
    ensures r.Some? ==> forall k | i <= k < r.value :: !MarkerAt(s, m, k)
    decreases |s| - i
  {
    if MarkerAt(s, m, i) then Some(i)
    else if i == |s| then None
    else FirstMarker(s, m, i + 1)
  }

  /** re.search(m + r'(\d+)') read as an integer: the number after the
      leftmost occurrence of `m` that a digit follows. */
  function SearchNumber(s: string, m: string): (r: Option<nat>)
    ensures r.None? <==> forall j | 0 <= j <= |s| :: !MarkerAt(s, m, j)
    ensures r.Some? ==> FirstMarker(s, m, 0).Some? && r.value == MarkedNumber(s, m, FirstMarker(s, m, 0).value)
  {
    match FirstMarker(s, m, 0)
    case Some(j) => Some(MarkedNumber(s, m, j))
    case None => None
  }

  /** A line that starts with a marker and its number reads that number. */
  lemma {:induction false} MarkerLineReadsNumber(m: string, n: nat, rest: string)
    requires rest == [] || !IsDigit(rest[0])
    ensures SearchNumber(m + NatToString(n) + rest, m) == Some(n)
  {
    var s := m + NatToString(n) + rest;
    var w := NatToString(n);
    assert s[..|m|] == m;
    assert s[|m|] == w[0];
    assert MarkerAt(s, m, 0);
    assert s[|m|..] == w + rest;
    Numbers.DigitRunOf(w, rest);
    assert (w + rest)[..|w|] == w;
    NatToStringRoundTrip(n);
  }

  // ----------------------------------------------------------- the state

  /** The script's globals: the current round and the captured lines. */
  datatype State = State(current: int, locals: map<int, seq<string>>, globals: map<int, string>)

  /** current_round starts at 1 and nothing is captured. */
  const Initial := State(1, map[], map[])

  /** `CLIENT-<id>`: how a client's entries are told apart. */
  function Key(id: nat): string {
    "CLIENT-" + NatToString(id)
  }

  /** The stored form of a client's local-gradient line. */
  function Entry(id: nat, line: string): (e: string)
    ensures StartsWith(e, Key(id))
  {
    Key(id) + ": " + line
  }

  /** The round after a client line: a `training-round-<n>` marker moves
      the shared counter to n; other lines leave it. */
  function ClientRound(current: int, line: string): (r: int)
    ensures r != current ==> SearchNumber(line, ClientMarker) == Some(r)
    ensures SearchNumber(line, ClientMarker).Some? ==> r == SearchNumber(line, ClientMarker).value
  {
    if Contains(line, ClientMarker) then
      match SearchNumber(line, ClientMarker)
      case Some(n) => n
      case None => current
    else
      assert SearchNumber(line, ClientMarker).None? by {
        forall j | 0 <= j <= |line| ensures !MarkerAt(line, ClientMarker, j) {
        }
      }
      current
  }

  /** A server line marks a round when it holds both `Round` and
      `Current weights:`, or holds `training-round-`. */
  predicate ServerMarks(line: string) {
    (Contains(line, "Round") && Contains(line, "Current weights:")) || Contains(line, ClientMarker)
  }

  /** The round after a server line: on a marking line, the number after
      `Round ` if there is one, else the one after `training-round-`. */
  function ServerRound(current: int, line: string): (r: int)
    ensures !ServerMarks(line) ==> r == current
    ensures ServerMarks(line) && SearchNumber(line, ServerRoundPrefix).Some? ==>
      r == SearchNumber(line, ServerRoundPrefix).value
    ensures ServerMarks(line) && SearchNumber(line, ServerRoundPrefix).None? ==>
      && (SearchNumber(line, ClientMarker).Some? ==> r == SearchNumber(line, ClientMarker).value)
      && (SearchNumber(line, ClientMarker).None? ==> r == current)
  {
    if ServerMarks(line) then
      match SearchNumber(line, ServerRoundPrefix)
      case Some(n) => n
      case None =>
        match SearchNumber(line, ClientMarker)
        case Some(n) => n
        case None => current
    else current
  }

  /** No stored entry of the round mentions the key. */
  predicate Unclaimed(entries: seq<string>, key: string) {
    forall k :: 0 <= k < |entries| ==> !Contains(entries[k], key)
  }

  /** The entries captured so far for a round. */
  function EntriesOf(locals: map<int, seq<string>>, round: int): seq<string> {
    if round in locals then locals[round] else []
  }

  /** A line read from client `id` (numbered from 1). */
  function ClientStep(st: State, id: nat, line: string): (r: State)
    ensures r.current == ClientRound(st.current, line)
    ensures r.globals == st.globals
    ensures !Contains(line, LocalTag) ==> r.locals == st.locals
    ensures Contains(line, LocalTag) && Unclaimed(EntriesOf(st.locals, r.current), Key(id)) ==>
      r.locals == st.locals[r.current := EntriesOf(st.locals, r.current) + [Entry(id, line)]]
    ensures Contains(line, LocalTag) && !Unclaimed(EntriesOf(st.locals, r.current), Key(id)) ==>
      r.locals == st.locals
  {
    var round := ClientRound(st.current, line);
    if Contains(line, LocalTag) then
      var entries := EntriesOf(st.locals, round);
      if Unclaimed(entries, Key(id)) then
        st.(current := round, locals := st.locals[round := entries + [Entry(id, line)]])
      else
        st.(current := round)
    else st.(current := round)
  }

  /** A line read from the server. */
  function ServerStep(st: State, line: string): (r: State)
    ensures r.current == ServerRound(st.current, line)
    ensures r.locals == st.locals
    ensures Contains(line, GlobalTag) ==> r.current in r.globals && r.globals[r.current] == line
    ensures forall k | k != r.current :: (k in r.globals <==> k in st.globals)
    ensures forall k | k != r.current && k in st.globals :: r.globals[k] == st.globals[k]
    ensures !Contains(line, GlobalTag) ==> r.globals == st.globals
  {
    var round := ServerRound(st.current, line);
    if Contains(line, GlobalTag) then st.(current := round, globals := st.globals[round := line])
    else st.(current := round)
  }

  /** Where a line was read. */
  datatype Source = ServerLine | ClientLine(id: nat)

  function Step(st: State, src: Source, line: string): State {
    match src
    case ServerLine => ServerStep(st, line)
    case ClientLine(id) => ClientStep(st, id, line)
  }

  /** The lines in the order the readers saw them. */
  function Run(st: State, trace: seq<(Source, string)>): State
    decreases |trace|
  {
    if trace == [] then st else Run(Step(st, trace[0].0, trace[0].1), trace[1..])
  }

  // ------------------------------------------------- capture properties

  /** A client line without a marker keeps the round. */
  lemma UnmarkedKeepsRound(st: State, id: nat, line: string)
    requires !Contains(line, ClientMarker)
    ensures ClientStep(st, id, line).current == st.current
  {
  }

  /** A client line `training-round-<n>...` moves the round to n. */
  lemma ClientMarkerSetsRound(st: State, id: nat, n: nat, rest: string)
    requires rest == [] || !IsDigit(rest[0])
    ensures ClientStep(st, id, ClientMarker + NatToString(n) + rest).current == n
  {
    MarkerLineReadsNumber(ClientMarker, n, rest);
  }

  /** A second local line from the same client in the same round is
      discarded. */
  lemma {:induction false} SecondLineDiscarded(st: State, id: nat, first: string, second: string)
    requires Contains(first, LocalTag) && Contains(second, LocalTag)
    requires !Contains(second, ClientMarker)
    ensures var s1 := ClientStep(st, id, first);
            ClientStep(s1, id, second) == s1
  {
    var s1 := ClientStep(st, id, first);
    var entries := EntriesOf(s1.locals, s1.current);
    ContainsPrefix(Entry(id, first), Key(id));
    var old_ := EntriesOf(st.locals, s1.current);
    if Unclaimed(old_, Key(id)) {
      assert entries[|entries| - 1] == Entry(id, first);
    } else {
      var k :| 0 <= k < |old_| && Contains(old_[k], Key(id));
      assert entries[k] == old_[k];
    }
  }

  /** Client 10's entry blocks client 1's: the key test is a substring
      test. */
  lemma TenBlocksOne(stored: string, line: string)
    requires Contains(line, LocalTag) && !Contains(line, ClientMarker)
    ensures var st := State(1, map[1 := [Entry(10, stored)]], map[]);
            ClientStep(st, 1, line) == st
  {
    var e := Entry(10, stored);
    assert NatToString(1) == "1";
    assert NatToString(10) == "10";
    assert e[..8] == Key(1);
    assert OccursAt(e, Key(1), 0);
    assert [e][0] == e;
    assert !Unclaimed([e], Key(1));
  }

  /** The server's latest global line for a round wins: the first of two
      lines filed under the same round leaves no trace. */
  lemma GlobalLastWriteWins(st: State, first: string, second: string)
    requires Contains(first, GlobalTag) && Contains(second, GlobalTag)
    requires !ServerMarks(second)
    ensures var s1 := ServerStep(st, first);
            ServerStep(s1, second).globals == st.globals[s1.current := second]
  {
  }

  /** The later entry starts with a client key that the earlier one does
      not contain. */
  ghost predicate Fresh(later: string, earlier: string) {
    exists id: nat :: StartsWith(later, Key(id)) && !Contains(earlier, Key(id))
  }

  /** Within a round, no entry's client key appears in an earlier entry. */
  ghost predicate Deduplicated(entries: seq<string>) {
    forall a, b | 0 <= a < b < |entries| :: Fresh(entries[b], entries[a])
  }

  /** What capturing keeps true: every round that has a list has at least
      one entry, and no client is filed twice in a round. */
  ghost predicate Captured(st: State) {
    forall r | r in st.locals :: |st.locals[r]| > 0 && Deduplicated(st.locals[r])
  }

  lemma {:induction false} ClientStepKeeps(st: State, id: nat, line: string)
    requires Captured(st)
    ensures Captured(ClientStep(st, id, line))
  {
    var r := ClientStep(st, id, line);
    var round := r.current;
    var entries := EntriesOf(st.locals, round);
    if Contains(line, LocalTag) && Unclaimed(entries, Key(id)) {
      var e := entries + [Entry(id, line)];
      assert r.locals[round] == e;
      forall a, b | 0 <= a < b < |e|
        ensures Fresh(e[b], e[a])
      {
        if b == |entries| {
          assert e[a] == entries[a];
          assert StartsWith(e[b], Key(id)) && !Contains(e[a], Key(id));
        } else {
          assert e[a] == entries[a] && e[b] == entries[b];
          assert Fresh(entries[b], entries[a]);
          var i: nat :| StartsWith(entries[b], Key(i)) && !Contains(entries[a], Key(i));
          assert StartsWith(e[b], Key(i)) && !Contains(e[a], Key(i));
        }
      }
      assert Deduplicated(e);
    }
  }

  lemma {:induction false} RunKeeps(st: State, trace: seq<(Source, string)>)
    requires Captured(st)
    ensures Captured(Run(st, trace))
    decreases |trace|
  {
    if trace != [] {
      match trace[0].0 {
        case ServerLine =>
        case ClientLine(id) => ClientStepKeeps(st, id, trace[0].1);
      }
      RunKeeps(Step(st, trace[0].0, trace[0].1), trace[1..]);
    }
  }

  /** From the start, capture keeps its invariant over any trace. */
  lemma CaptureInvariant(trace: seq<(Source, string)>)
    ensures Captured(Run(Initial, trace))
  {
    RunKeeps(Initial, trace);
  }

  // --------------------------------------------------------- validation

  /** Componentwise addition of the first `Width` values. */
  function AddFirst(sums: seq<real>, g: seq<real>): (r: seq<real>)
    requires |sums| == Width && |g| >= Width
    ensures |r| == Width && forall i :: 0 <= i < Width ==> r[i] == sums[i] + g[i]
  {
    [sums[0] + g[0], sums[1] + g[1], sums[2] + g[2], sums[3] + g[3]]
  }

  /** The expected global gradient: the first four numbers of every entry
      that has at least four, added in entry order. */
  function LocalSum(entries: seq<string>): (r: seq<real>)
    ensures |r| == Width
  {
    if entries == [] then [0.0, 0.0, 0.0, 0.0]
    else
      var sums := LocalSum(entries[..|entries| - 1]);
      var g := Numbers.ParseGradient(entries[|entries| - 1]);
      if |g| >= Width then AddFirst(sums, g) else sums
  }

  /** An entry with fewer than four numbers adds nothing; one with more
      adds its first four. */
  lemma LocalSumAppend(entries: seq<string>, e: string)
    ensures var g := Numbers.ParseGradient(e);
            |g| < Width ==> LocalSum(entries + [e]) == LocalSum(entries)
    ensures var g := Numbers.ParseGradient(e);
            |g| >= Width ==> forall i :: 0 <= i < Width ==>
              LocalSum(entries + [e])[i] == LocalSum(entries)[i] + g[i]
  {
    assert (entries + [e])[..|entries|] == entries;
  }

  /** A stored entry reads as the line it stores: the `CLIENT-<id>: `
      prefix holds no bracket and contributes nothing. */
  lemma EntryParsesAsLine(id: nat, line: string)
    ensures Numbers.ParseGradient(Entry(id, line)) == Numbers.ParseGradient(line)
  {
    var head := Key(id) + ": ";
    BracketFree("CLIENT-", NatToString(id));
    BracketFree(Key(id), ": ");
    Numbers.SkipPlainText(head, line);
  }

  predicate NoOpenBracket(s: string) {
    forall k :: 0 <= k < |s| ==> s[k] != '['
  }

  lemma BracketFree(a: string, b: string)
    requires NoOpenBracket(a) && NoOpenBracket(b)
    ensures NoOpenBracket(a + b)
  {
    forall k | 0 <= k < |a + b| ensures (a + b)[k] != '[' {
      if k >= |a| {
        assert (a + b)[k] == b[k - |a|];
      }
    }
  }

  function Abs(x: real): real {
    if x < 0.0 then -x else x
  }

  /** A round passes when it has local entries, its global line parses to
      at least four numbers and each of the first four is within the
      tolerance of the local sum. */
  predicate RoundPasses(locals: map<int, seq<string>>, globals: map<int, string>, round: int)
    requires round in globals
  {
    round in locals &&
    var g := Numbers.ParseGradient(globals[round]);
    var s := LocalSum(locals[round]);
    |g| >= Width && forall i :: 0 <= i < Width ==> Abs(g[i] - s[i]) <= Tolerance
  }

  /** A set with no members is empty. */
  lemma EmptyWhenNothingIn(s: set<int>)
    ensures (forall x :: x !in s) ==> s == {}
  {
    if forall x :: x !in s {
      assert s == {};
    }
  }

  /** The least element of a non-empty set of rounds. */
  method Least(s: set<int>) returns (m: int)
    requires s != {}
    ensures m in s && forall x | x in s :: m <= x
  {
    EmptyWhenNothingIn(s);
    m :| m in s;
    var rest := s - {m};
    while rest != {}
      invariant rest <= s && m in s
      invariant forall x | x in s && x !in rest :: m <= x
      decreases |rest|
    {
      EmptyWhenNothingIn(rest);
      var x :| x in rest;
      if x < m {
        m := x;
      }
      rest := rest - {x};
    }
  }

  /** sorted(keys): the rounds in ascending order. */
  method Ascending(s: set<int>) returns (r: seq<int>)
    ensures |r| == |s|
    ensures forall x :: x in r <==> x in s
    ensures forall i, j :: 0 <= i < j < |r| ==> r[i] < r[j]
  {
    r := [];
    var rest := s;
    while rest != {}
      invariant rest <= s && |r| + |rest| == |s|
      invariant forall x :: x in s <==> x in r || x in rest
      invariant forall x | x in r :: x !in rest
      invariant forall i, j :: 0 <= i < j < |r| ==> r[i] < r[j]
      invariant forall i, x :: 0 <= i < |r| && x in rest ==> r[i] < x
      decreases |rest|
    {
      var m := Least(rest);
      r := r + [m];
      rest := rest - {m};
    }
  }

  /** The outcome of validation. */
  datatype Report =
    | NoLocalGradients
    | NoGlobalGradients
    | Validated(rounds: seq<int>, passed: seq<bool>, successes: nat, total: nat)

  /** "ALL ROUNDS PASSED" is printed. */
  predicate AllPassed(rep: Report) {
    rep.Validated? && rep.successes == rep.total && rep.total > 0
  }

  function CountTrue(bs: seq<bool>): (n: nat)
    ensures n <= |bs|
    ensures n == |bs| <==> forall i :: 0 <= i < |bs| ==> bs[i]
  {
    if bs == [] then 0 else (if bs[|bs| - 1] then 1 else 0) + CountTrue(bs[..|bs| - 1])
  }

  lemma CountTrueAppend(bs: seq<bool>, b: bool)
    ensures CountTrue(bs + [b]) == CountTrue(bs) + (if b then 1 else 0)
  {
    assert (bs + [b])[..|bs|] == bs;
  }

  /** validate_gradient_aggregation over the captured lines. */
  method Validate(locals: map<int, seq<string>>, globals: map<int, string>) returns (rep: Report)
    ensures |locals| == 0 ==> rep == NoLocalGradients
    ensures |locals| > 0 && |globals| == 0 ==> rep == NoGlobalGradients
    ensures |locals| > 0 && |globals| > 0 ==> rep.Validated?
    ensures rep.Validated? ==>
      && rep.total == |globals| == |rep.rounds| == |rep.passed|
      && (forall r :: r in rep.rounds <==> r in globals)
      && (forall i, j :: 0 <= i < j < |rep.rounds| ==> rep.rounds[i] < rep.rounds[j])
      && (forall i :: 0 <= i < |rep.rounds| ==>
            rep.rounds[i] in globals && rep.passed[i] == RoundPasses(locals, globals, rep.rounds[i]))
      && rep.successes == CountTrue(rep.passed) <= rep.total
  {
    if |locals| == 0 {
      return NoLocalGradients;
    }
    if |globals| == 0 {
      return NoGlobalGradients;
    }
    var rounds := Ascending(globals.Keys);
    assert |globals.Keys| == |globals|;
    assert forall i :: 0 <= i < |rounds| ==> rounds[i] in globals by {
      forall i | 0 <= i < |rounds| ensures rounds[i] in globals {
        assert rounds[i] in rounds;
      }
    }
    var passed, successes := Tally(locals, globals, rounds);
    rep := Validated(rounds, passed, successes, |rounds|);
  }

  /** The per-round verdicts, in the order given, and how many passed. */
  method Tally(locals: map<int, seq<string>>, globals: map<int, string>, rounds: seq<int>)
    returns (passed: seq<bool>, successes: nat)
    requires forall i :: 0 <= i < |rounds| ==> rounds[i] in globals
    ensures |passed| == |rounds|
    ensures forall k :: 0 <= k < |rounds| ==> passed[k] == RoundPasses(locals, globals, rounds[k])
    ensures successes == CountTrue(passed)
  {
    passed := seq(|rounds|, k requires 0 <= k < |rounds| => RoundPasses(locals, globals, rounds[k]));
    successes := 0;
    var i := 0;
    while i < |passed|
      invariant 0 <= i <= |passed|
      invariant successes == CountTrue(passed[..i])
    {
      assert passed[..i + 1] == passed[..i] + [passed[i]];
      CountTrueAppend(passed[..i], passed[i]);
      if passed[i] {
        successes := successes + 1;
      }
      i := i + 1;
    }
    assert passed[..i] == passed;
  }

  /** Every round passing is exactly what "ALL ROUNDS PASSED" reports. */
  lemma AllPassedMeansEveryRound(rep: Report)
    requires rep.Validated? && rep.successes == CountTrue(rep.passed) && rep.total == |rep.passed|
    ensures AllPassed(rep) <==> rep.total > 0 && forall i :: 0 <= i < |rep.passed| ==> rep.passed[i]
  {
  }
}

=== FILE: json.dfy ===
/** The JSON values the nlohmann library hands to the program, and the
    conversions (`get<T>`, `at`, `contains`) the program applies to them.
    Turning text into a value and back is the library's business: a text is
    represented by the outcome of parsing it, `Wire`, where `None` stands for
    text that is not JSON. */
module Json {
  import opened Wrappers

  datatype Value =
    | JNull
    | JBool(b: bool)
    | JInt(i: int)
    | JReal(r: real)
    | JString(s: string)
    | JArray(items: seq<Value>)
    | JObject(fields: map<string, Value>)

  /** The parse of a text: `None` when the text is not JSON. */
  type Wire = Option<Value>

  /** `j.contains(key)`: false for anything that is not an object. */
  predicate Has(j: Value, key: string) {
    j.JObject? && key in j.fields
  }

  /** `j.at(key)`: fails (the library throws) unless `j` is an object
      holding `key`. */
  function At(j: Value, key: string): (r: Option<Value>)
    ensures r.Some? <==> Has(j, key)
    ensures r.Some? ==> r.value == j.fields[key]
  {
    if Has(j, key) then Some(j.fields[key]) else None
  }

  /** `get<std::string>()`: only a JSON string converts. */
  function GetString(j: Value): (r: Option<string>)
    ensures r.Some? <==> j.JString?
  {
    if j.JString? then Some(j.s) else None
  }

  /** static_cast of a double to an integer: truncation toward zero. */
  function TruncReal(r: real): (t: int)
    ensures r >= 0.0 ==> t as real <= r < t as real + 1.0
    ensures r < 0.0 ==> t as real - 1.0 < r <= t as real
  {
    if r >= 0.0 then r.Floor else -((-r).Floor)
  }

  /** `get<int64_t>()`, the library's own integer type: integers as stored,
      doubles truncated; a boolean, like anything else, throws. */
  function GetInteger(j: Value): (r: Option<int>)
    ensures r.Some? <==> (j.JInt? || j.JReal?)
    ensures j.JInt? ==> r == Some(j.i)
  {
    match j
    case JInt(i) => Some(i)
    case JReal(x) => Some(TruncReal(x))
    case _ => None
  }

  /** Two's-complement wrap of an integer into the 32 bits of a C++ int. */
  function Wrap32(i: int): (w: int)
    ensures -0x8000_0000 <= w < 0x8000_0000
    ensures -0x8000_0000 <= i < 0x8000_0000 ==> w == i
  {
    (i + 0x8000_0000) % 0x1_0000_0000 - 0x8000_0000
  }

  /** `get<int>()`, a plain arithmetic target: numbers as `GetInteger`
      reads them, narrowed to 32 bits, and booleans as 0/1. */
  function GetInt32(j: Value): (r: Option<int>)
    ensures r.Some? <==> (GetInteger(j).Some? || j.JBool?)
    ensures GetInteger(j).Some? ==> r == Some(Wrap32(GetInteger(j).value))
    ensures j.JBool? ==> r == Some(if j.b then 1 else 0)
  {
    match j
    case JBool(b) => Some(if b then 1 else 0)
    case _ =>
      match GetInteger(j)
      case Some(i) => Some(Wrap32(i))
      case None => None
  }

  /** The conversion to an enumeration: numbers only, booleans throw. */
  function GetEnum(j: Value): (r: Option<int>)
    ensures r.Some? <==> (j.JInt? || j.JReal?)
  {
    match j
    case JInt(i) => Some(i)
    case JReal(x) => Some(TruncReal(x))
    case _ => None
  }

  /** `get<double>()`, the library's own floating type: only numbers
      convert; a boolean throws. */
  function GetReal(j: Value): (r: Option<real>)
    ensures r.Some? <==> (j.JInt? || j.JReal?)
    ensures j.JReal? ==> r == Some(j.r)
  {
    match j
    case JInt(i) => Some(i as real)
    case JReal(x) => Some(x)
    case _ => None
  }

  /** `get<std::vector<double>>()`: an array whose every item converts. */
  function GetRealArray(j: Value): (r: Option<seq<real>>)
    ensures r.Some? ==> j.JArray? && |r.value| == |j.items|
    ensures r.Some? ==> forall i :: 0 <= i < |r.value| ==> GetReal(j.items[i]) == Some(r.value[i])
    ensures j.JArray? && (forall i :: 0 <= i < |j.items| ==> GetReal(j.items[i]).Some?) ==> r.Some?
  {
    if !j.JArray? then None else RealItems(j.items)
  }

  function RealItems(items: seq<Value>): (r: Option<seq<real>>)
    ensures r.Some? ==> |r.value| == |items|
    ensures r.Some? ==> forall i :: 0 <= i < |r.value| ==> GetReal(items[i]) == Some(r.value[i])
    ensures (forall i :: 0 <= i < |items| ==> GetReal(items[i]).Some?) ==> r.Some?
  {
    if items == [] then Some([])
    else
      match (GetReal(items[0]), RealItems(items[1..]))
      case (Some(x), Some(rest)) => Some([x] + rest)
      case _ => None
  }

  /** `nlohmann::json j = std::vector<double>`: an array of doubles. */
  function FromReals(v: seq<real>): (j: Value)
    ensures j.JArray? && |j.items| == |v|
    ensures forall i :: 0 <= i < |v| ==> j.items[i] == JReal(v[i])
  {
    JArray(seq(|v|, i requires 0 <= i < |v| => JReal(v[i])))
  }

  /** One boolean item makes the whole array fail to convert. */
  lemma BooleanItemRefused(items: seq<Value>, k: nat)
    requires k < |items| && items[k].JBool?
    ensures GetRealArray(JArray(items)).None?
  {
    assert GetReal(items[k]).None?;
  }

  /** A vector of doubles converts back to itself. */
  lemma RealsRoundTrip(v: seq<real>)
    ensures GetRealArray(FromReals(v)) == Some(v)
  {
    var r := GetRealArray(FromReals(v));
    assert r.Some?;
    assert r.value == v;
  }
}

=== FILE: listing.dfy ===
/** Duplicate-free listings of a set of keys: how the model stands for
    the unspecified iteration order of an unordered_map, for the result of
    a shuffle, and for the insertion-ordered queue kept beside a map. */
module Listing {

  predicate NoDups(order: seq<string>) {
    forall i, k :: 0 <= i < k < |order| ==> order[i] != order[k]
  }

  /** `order` lists every key of the set exactly once. */
  predicate Enumerates(order: seq<string>, keys: set<string>) {
    NoDups(order) && (forall k | k in order :: k in keys) && (forall k | k in keys :: k in order)
  }

  /** Taking the head off a listing lists the other keys. */
  lemma DropFirst(order: seq<string>, keys: set<string>)
    requires Enumerates(order, keys) && order != []
    ensures Enumerates(order[1..], keys - {order[0]})
  {
    forall k | k in keys - {order[0]} ensures k in order[1..] {
      var i :| 0 <= i < |order| && order[i] == k;
      assert order[1..][i - 1] == k;
    }
    forall i, k | 0 <= i < k < |order[1..]| ensures order[1..][i] != order[1..][k] {
      assert order[1..][i] == order[i + 1] && order[1..][k] == order[k + 1];
    }
  }

  /** Appending a new key lists the enlarged set. */
  lemma AppendNew(order: seq<string>, keys: set<string>, k: string)
    requires Enumerates(order, keys) && k !in keys
    ensures Enumerates(order + [k], keys + {k})
  {
    var o := order + [k];
    forall i, j | 0 <= i < j < |o| ensures o[i] != o[j] {
      if j == |order| {
        assert o[i] == order[i];
      }
    }
  }

  /** A listing is as long as the set it lists. */
  lemma {:induction false} EnumerationLength(order: seq<string>, keys: set<string>)
    requires Enumerates(order, keys)
    ensures |order| == |keys|
  {
    if order == [] {
      assert forall k :: k !in keys;
      assert keys == {};
    } else {
      DropFirst(order, keys);
      EnumerationLength(order[1..], keys - {order[0]});
    }
  }
}

=== FILE: logout.dfy ===
/** The logout-prediction data module of the federated-learning app: it
    computes a logistic-regression gradient from the local clock, hides
    it under pairwise masks, and splits it into additive shares. The
    masks are meant to cancel across all participants; as written, the
    two ends of a pair derive different secrets, so they do not (see
    WrittenTextsDiffer and WrittenMasksDoNotCancel; PairMask is the
    derivation under which they do). Clock readings, std::hash, the
    sigmoid, the mt19937 draws and the random share draws are
    parameters. */
module Logout {
  import opened Wrappers
  import opened Json
  import opened Events
  import Text
  import Signature
  import Federated

  type Vector = seq<real>

  const NeedsEventContext: string := "Federated learning requires event context - use extended shardData method"
  const BadWeights: string := "model_weights is not an array of numbers"

  /** `mask(peer, i)`: entry `i` of the mask a client derives for its
      pair with the participant `peer`. */
  type PeerMask = (ClientInfo, nat) -> real

  /** std::hash<std::string>. */
  type HashFn = string -> nat

  /** `gen(seed, i)`: the `i`-th normal(0, 0.1) draw of an mt19937 engine
      seeded with `seed`. */
  type GenFn = (nat, nat) -> real

  /** `draw(p, s)`: the random value of parameter `p` in share `s`. */
  type DrawFn = (nat, nat) -> real

  /** The two-argument shardData refuses to work without the event. */
  function ShardDataWithoutEvent(data: Wire, numShards: int): (r: Result<seq<Wire>>)
    ensures r.Failure? && r.error == NeedsEventContext
  {
    Failure(NeedsEventContext)
  }

  // ------------------------------------------------------------- masking

  /** What `self`'s mask for the participant `peer` adds to entry `i`:
      nothing for itself, the mask when its id is the smaller, the negated
      mask otherwise. */
  function Term(self: string, peer: ClientInfo, mask: PeerMask, i: nat): real {
    if self == peer.clientId then 0.0
    else if Text.LexLess(self, peer.clientId) then mask(peer, i)
    else -mask(peer, i)
  }

  /** The masks `self` applies for every participant of `ps`, at entry `i`. */
  function Row(self: string, ps: seq<ClientInfo>, mask: PeerMask, i: nat): real {
    if ps == [] then 0.0 else Row(self, ps[..|ps| - 1], mask, i) + Term(self, ps[|ps| - 1], mask, i)
  }

  /** The mask for one peer applied to the whole vector. */
  function MaskWith(g: Vector, self: string, peer: ClientInfo, mask: PeerMask): (r: Vector)
    ensures |r| == |g| && forall i :: 0 <= i < |g| ==> r[i] == g[i] + Term(self, peer, mask, i)
  {
    if self == peer.clientId then g
    else if Text.LexLess(self, peer.clientId) then seq(|g|, i requires 0 <= i < |g| => g[i] + mask(peer, i))
    else seq(|g|, i requires 0 <= i < |g| => g[i] - mask(peer, i))
  }

  /** applySecureAggregationMasks: the participants' masks applied in
      event order, the client itself skipped; the length is kept. */
  function ApplyMasks(g: Vector, self: string, ps: seq<ClientInfo>, mask: PeerMask): (r: Vector)
    ensures |r| == |g|
    ensures forall i :: 0 <= i < |g| ==> r[i] == g[i] + Row(self, ps, mask, i)
    decreases |ps|
  {
    if ps == [] then g
    else MaskWith(ApplyMasks(g, self, ps[..|ps| - 1], mask), self, ps[|ps| - 1], mask)
  }

  /** Entry `p` of a vector, zero past its end. */
  function Entry(v: Vector, p: nat): real {
    if p < |v| then v[p] else 0.0
  }

  /** The sum over the vectors of their entries `p`. */
  function ColumnSum(vs: seq<Vector>, p: nat): real {
    if vs == [] then 0.0 else ColumnSum(vs[..|vs| - 1], p) + Entry(vs[|vs| - 1], p)
  }

  /** Every participant's gradient, masked by that participant with its
      own derivation `masks[k]`. */
  function MaskAll(gs: seq<Vector>, ps: seq<ClientInfo>, masks: seq<PeerMask>): (ms: seq<Vector>)
    requires |gs| == |ps| == |masks|
    ensures |ms| == |gs|
    ensures forall k :: 0 <= k < |gs| ==> ms[k] == ApplyMasks(gs[k], ps[k].clientId, ps, masks[k])
  {
    seq(|gs|, k requires 0 <= k < |gs| => ApplyMasks(gs[k], ps[k].clientId, ps, masks[k]))
  }

  /** Both ends of every pair of participants derive the same mask. */
  ghost predicate PairsAgree(ps: seq<ClientInfo>, masks: seq<PeerMask>) {
    && |masks| == |ps|
    && forall k, j, i: nat | 0 <= k < |ps| && 0 <= j < |ps| :: masks[k](ps[j], i) == masks[j](ps[k], i)
  }

  lemma TermsCancel(ps: seq<ClientInfo>, masks: seq<PeerMask>, k: nat, j: nat, i: nat)
    requires PairsAgree(ps, masks) && k < |ps| && j < |ps|
    ensures Term(ps[k].clientId, ps[j], masks[k], i) + Term(ps[j].clientId, ps[k], masks[j], i) == 0.0
  {
    if ps[k].clientId != ps[j].clientId {
      Text.LexLessTrichotomy(ps[k].clientId, ps[j].clientId);
      assert masks[k](ps[j], i) == masks[j](ps[k], i);
    }
  }

  /** What the participants `ps[..m]` apply for the participant `ps[x]`. */
  function Col(ps: seq<ClientInfo>, masks: seq<PeerMask>, x: nat, m: nat, i: nat): real
    requires |masks| == |ps| && x < |ps| && m <= |ps|
  {
    if m == 0 then 0.0 else Col(ps, masks, x, m - 1, i) + Term(ps[m - 1].clientId, ps[x], masks[m - 1], i)
  }

  /** Everything the participants `ps[..m]` apply for those of `ps[..n]`. */
  function Grid(ps: seq<ClientInfo>, masks: seq<PeerMask>, m: nat, n: nat, i: nat): real
    requires |masks| == |ps| && m <= |ps| && n <= |ps|
  {
    if m == 0 then 0.0 else Grid(ps, masks, m - 1, n, i) + Row(ps[m - 1].clientId, ps[..n], masks[m - 1], i)
  }

  lemma {:induction false} RowColCancel(ps: seq<ClientInfo>, masks: seq<PeerMask>, x: nat, n: nat, i: nat)
    requires PairsAgree(ps, masks) && x < |ps| && n <= |ps|
    ensures Row(ps[x].clientId, ps[..n], masks[x], i) + Col(ps, masks, x, n, i) == 0.0
  {
    if n > 0 {
      assert ps[..n][..n - 1] == ps[..n - 1];
      RowColCancel(ps, masks, x, n - 1, i);
      TermsCancel(ps, masks, x, n - 1, i);
    }
  }

  lemma {:induction false} GridExtend(ps: seq<ClientInfo>, masks: seq<PeerMask>, m: nat, n: nat, i: nat)
    requires |masks| == |ps| && m <= |ps| && n < |ps|
    ensures Grid(ps, masks, m, n + 1, i) == Grid(ps, masks, m, n, i) + Col(ps, masks, n, m, i)
  {
    if m > 0 {
      assert ps[..n + 1][..n] == ps[..n];
      GridExtend(ps, masks, m - 1, n, i);
    }
  }

  /** With agreeing masks, everything every participant applies for every
      other participant adds up to zero. */
  lemma {:induction false} MasksVanish(ps: seq<ClientInfo>, masks: seq<PeerMask>, n: nat, i: nat)
    requires PairsAgree(ps, masks) && n <= |ps|
    ensures Grid(ps, masks, n, n, i) == 0.0
  {
    if n > 0 {
      GridExtend(ps, masks, n - 1, n - 1, i);
      assert ps[..n][..n - 1] == ps[..n - 1];
      RowColCancel(ps, masks, n - 1, n - 1, i);
      MasksVanish(ps, masks, n - 1, i);
    }
  }

  lemma {:induction false} MaskedColumns(gs: seq<Vector>, ps: seq<ClientInfo>, masks: seq<PeerMask>, m: nat, i: nat)
    requires |gs| == |ps| == |masks| && m <= |gs| && forall k :: 0 <= k < |gs| ==> i < |gs[k]|
    ensures ColumnSum(MaskAll(gs, ps, masks)[..m], i) == ColumnSum(gs[..m], i) + Grid(ps, masks, m, |ps|, i)
  {
    if m > 0 {
      var ms := MaskAll(gs, ps, masks);
      assert ms[..m][..m - 1] == ms[..m - 1];
      assert gs[..m][..m - 1] == gs[..m - 1];
      assert ps[..|ps|] == ps;
      MaskedColumns(gs, ps, masks, m - 1, i);
    }
  }

  /** Pairwise masking hides nothing from the sum: when both ends of every
      pair derive the same mask, the participants' masked gradients add up
      to their true sum. */
  lemma MasksCancel(gs: seq<Vector>, ps: seq<ClientInfo>, masks: seq<PeerMask>, i: nat)
    requires |gs| == |ps| && forall k :: 0 <= k < |gs| ==> i < |gs[k]|
    requires PairsAgree(ps, masks)
    ensures ColumnSum(MaskAll(gs, ps, masks), i) == ColumnSum(gs, i)
  {
    MaskedColumns(gs, ps, masks, |gs|, i);
    assert MaskAll(gs, ps, masks)[..|gs|] == MaskAll(gs, ps, masks);
    assert gs[..|gs|] == gs;
    MasksVanish(ps, masks, |ps|, i);
  }

  // ------------------------------------------------------------- secrets

  /** The mt19937 engine keeps the low 32 bits of the seed it is given. */
  const SeedRange: nat := 0x1_0000_0000

  /** generateMask at entry `i`: the `i`-th draw of an engine seeded with
      the hash of the secret. */
  function MaskEntry(secret: string, hash: HashFn, gen: GenFn, i: nat): real {
    gen(hash(secret) % SeedRange, i)
  }

  /** The text computeSharedSecret hashes: the client's own private key
      and the peer's public key, joined by ':' with the one of smaller
      hash first (the peer's key first on a tie). */
  function WrittenPairText(ownPrivate: string, peerPublic: string, hash: HashFn): string {
    if hash(ownPrivate) < hash(peerPublic) then ownPrivate + ":" + peerPublic else peerPublic + ":" + ownPrivate
  }

  /** computeSharedSecret as written: the decimal text of the hash of the
      pair text. */
  function WrittenSecret(ownPrivate: string, peerPublic: string, hash: HashFn): (s: string)
    ensures Text.AllDigits(s) && Text.DigitsValue(s) == hash(WrittenPairText(ownPrivate, peerPublic, hash))
  {
    Text.NatToStringRoundTrip(hash(WrittenPairText(ownPrivate, peerPublic, hash)));
    Text.NatToString(hash(WrittenPairText(ownPrivate, peerPublic, hash)))
  }

  /** The masks a client derives as written, from its own private key and
      each participant's listed public key. */
  function WrittenMask(ownPrivate: string, hash: HashFn, gen: GenFn): PeerMask {
    (p: ClientInfo, i: nat) => MaskEntry(WrittenSecret(ownPrivate, p.ed25519Pub, hash), hash, gen, i)
  }

  /** Every participant's masks as written, `privateKeys[k]` being the
      private key of the participant `k`. */
  function WrittenMasks(privateKeys: seq<string>, hash: HashFn, gen: GenFn): (masks: seq<PeerMask>)
    ensures |masks| == |privateKeys|
    ensures forall k :: 0 <= k < |privateKeys| ==> masks[k] == WrittenMask(privateKeys[k], hash, gen)
  {
    seq(|privateKeys|, k requires 0 <= k < |privateKeys| => WrittenMask(privateKeys[k], hash, gen))
  }

  /** The two ends of a pair hash different texts whenever their private
      keys differ: each end puts its own private key in the text, and
      where one text has its colon the other has a private-key character.
      Generated keys (128 and 64 hexadecimal digits) and the empty public
      keys of an event read from the wire both meet the length condition. */
  lemma WrittenTextsDiffer(skA: string, pkA: string, skB: string, pkB: string, hash: HashFn)
    requires skA != skB && |skA| == |skB| && |pkA| == |pkB| < |skA|
    requires ':' !in skA && ':' !in skB
    ensures WrittenPairText(skA, pkB, hash) != WrittenPairText(skB, pkA, hash)
  {
    var ta := WrittenPairText(skA, pkB, hash);
    var tb := WrittenPairText(skB, pkA, hash);
    var n := |pkA|;
    if ta == skA + ":" + pkB && tb == skB + ":" + pkA {
      assert ta[..|skA|] == skA && tb[..|skB|] == skB;
    } else if ta == skA + ":" + pkB {
      assert ta[n] == skA[n] && tb[n] == ':';
    } else if tb == skB + ":" + pkA {
      assert ta[n] == ':' && tb[n] == skB[n];
    } else {
      assert ta[n + 1..] == skA && tb[n + 1..] == skB;
    }
  }

  /** Keys from generateKeyPair meet the conditions above: two clients
      with different private keys always hash different texts. */
  lemma GeneratedKeysDisagree(pkA: seq<Signature.Byte>, skA: seq<Signature.Byte>,
                              pkB: seq<Signature.Byte>, skB: seq<Signature.Byte>, hash: HashFn)
    requires |pkA| == |pkB| == Signature.PublicKeyBytes && |skA| == |skB| == Signature.SecretKeyBytes
    requires skA != skB
    ensures var a := Signature.GenerateKeyPair(pkA, skA);
            var b := Signature.GenerateKeyPair(pkB, skB);
            WrittenPairText(a.1, b.0, hash) != WrittenPairText(b.1, a.0, hash)
  {
    var a := Signature.GenerateKeyPair(pkA, skA);
    var b := Signature.GenerateKeyPair(pkB, skB);
    assert forall c | c in a.1 :: Signature.IsLowerHex(c);
    assert forall c | c in b.1 :: Signature.IsLowerHex(c);
    WrittenTextsDiffer(a.1, a.0, b.1, b.0, hash);
  }

  // Two participants with their own keys, a hash that reads the last
  // character and a generator that returns its seed.
  const ExampleKeys: seq<string> := [seq(128, _ => 'a'), seq(128, _ => 'b')]
  const ExampleParticipants: seq<ClientInfo> :=
    [ClientInfo("a", "localhost", "8081", seq(64, _ => 'c')), ClientInfo("b", "localhost", "8082", seq(64, _ => 'd'))]
  const ExampleHash: HashFn := s => if s == [] then 0 else s[|s| - 1] as nat
  const ExampleGen: GenFn := (seed, i) => seed as real

  lemma ExampleMaskValues()
    ensures WrittenMask(ExampleKeys[0], ExampleHash, ExampleGen)(ExampleParticipants[1], 0) == 48.0
    ensures WrittenMask(ExampleKeys[1], ExampleHash, ExampleGen)(ExampleParticipants[0], 0) == 57.0
  {
    var hash := ExampleHash;
    var skA, skB := ExampleKeys[0], ExampleKeys[1];
    var pkA, pkB := ExampleParticipants[0].ed25519Pub, ExampleParticipants[1].ed25519Pub;
    assert WrittenPairText(skA, pkB, hash) == skA + ":" + pkB;
    assert hash(skA + ":" + pkB) == 100;
    var secretA := WrittenSecret(skA, pkB, hash);
    assert secretA == Text.NatToString(10) + ['0'];
    assert hash(secretA) == 48;
    assert WrittenPairText(skB, pkA, hash) == skB + ":" + pkA;
    assert hash(skB + ":" + pkA) == 99;
    var secretB := WrittenSecret(skB, pkA, hash);
    assert secretB == Text.NatToString(9) + ['9'];
    assert hash(secretB) == 57;
  }

  lemma ExampleMaskedEntries()
    ensures var ms := MaskAll([[0.0], [0.0]], ExampleParticipants, WrittenMasks(ExampleKeys, ExampleHash, ExampleGen));
            ms[0][0] == 48.0 && ms[1][0] == -57.0
  {
    var ps := ExampleParticipants;
    var masks := WrittenMasks(ExampleKeys, ExampleHash, ExampleGen);
    ExampleMaskValues();
    assert !Text.LexLess("b", "a") by {
      Text.LexLessTrichotomy("a", "b");
    }
    assert ps[..1] == [ps[0]] && ps[..1][..0] == [];
    assert Row("a", ps[..1], masks[0], 0) == 0.0;
    assert Row("a", ps, masks[0], 0) == 48.0;
    assert Row("b", ps[..1], masks[1], 0) == -57.0;
    assert Row("b", ps, masks[1], 0) == -57.0;
  }

  /** As written, the masks do not cancel: in the example above the masked
      gradients of two zero gradients add up to -9, not 0. */
  lemma WrittenMasksDoNotCancel()
    ensures var gs: seq<Vector> := [[0.0], [0.0]];
            var ms := MaskAll(gs, ExampleParticipants, WrittenMasks(ExampleKeys, ExampleHash, ExampleGen));
            ColumnSum(ms, 0) == -9.0 && ColumnSum(gs, 0) == 0.0
  {
    var gs: seq<Vector> := [[0.0], [0.0]];
    var ms := MaskAll(gs, ExampleParticipants, WrittenMasks(ExampleKeys, ExampleHash, ExampleGen));
    ExampleMaskedEntries();
    assert |ms| == 2 && |ms[0]| == 1 && |ms[1]| == 1;
    assert ms[..1] == [ms[0]] && ms[..1][..0] == [];
    assert ColumnSum(ms[..1], 0) == 48.0;
    assert ms[..2] == ms;
    assert gs[..1] == [gs[0]] && gs[..1][..0] == [];
  }

  /** The text both ends of a pair can agree on: the pair's two public
      keys joined by ':' in string order. */
  function PairText(a: string, b: string): string {
    if Text.LexLess(a, b) then a + ":" + b else b + ":" + a
  }

  /** The pair text does not depend on which end computes it. */
  lemma PairTextSymmetric(a: string, b: string)
    ensures PairText(a, b) == PairText(b, a)
  {
    Text.LexLessTrichotomy(a, b);
  }

  /** The masks a client derives under the corrected secret, from its own
      public key and each participant's listed public key. */
  function PairMask(ownPublic: string, hash: HashFn, gen: GenFn): PeerMask {
    (p: ClientInfo, i: nat) => MaskEntry(Text.NatToString(hash(PairText(ownPublic, p.ed25519Pub))), hash, gen, i)
  }

  /** Every participant's corrected masks, each keyed by the public key
      the event lists for it. */
  function PairMasks(ps: seq<ClientInfo>, hash: HashFn, gen: GenFn): (masks: seq<PeerMask>)
    ensures |masks| == |ps|
    ensures forall k :: 0 <= k < |ps| ==> masks[k] == PairMask(ps[k].ed25519Pub, hash, gen)
  {
    seq(|ps|, k requires 0 <= k < |ps| => PairMask(ps[k].ed25519Pub, hash, gen))
  }

  /** Under the corrected secret both ends of every pair derive the same
      mask, whatever the hash and the generator. */
  lemma PairMasksAgree(ps: seq<ClientInfo>, hash: HashFn, gen: GenFn)
    ensures PairsAgree(ps, PairMasks(ps, hash, gen))
  {
    var masks := PairMasks(ps, hash, gen);
    forall k, j, i: nat | 0 <= k < |ps| && 0 <= j < |ps| ensures masks[k](ps[j], i) == masks[j](ps[k], i) {
      PairTextSymmetric(ps[k].ed25519Pub, ps[j].ed25519Pub);
    }
  }

  /** With the corrected secret the masked gradients add up to the true
      sum, entry by entry. */
  lemma PairMasksCancel(gs: seq<Vector>, ps: seq<ClientInfo>, hash: HashFn, gen: GenFn, i: nat)
    requires |gs| == |ps| && forall k :: 0 <= k < |gs| ==> i < |gs[k]|
    ensures ColumnSum(MaskAll(gs, ps, PairMasks(ps, hash, gen)), i) == ColumnSum(gs, i)
  {
    PairMasksAgree(ps, hash, gen);
    MasksCancel(gs, ps, PairMasks(ps, hash, gen), i);
  }

  // -------------------------------------------------------------- shares

  /** The running sum of the first `k` random values of parameter `p`. */
  function RandomSum(draw: DrawFn, p: nat, k: nat): real {
    if k == 0 then 0.0 else RandomSum(draw, p, k - 1) + draw(p, k - 1)
  }

  /** Additive sharing: random values in all shares but the last, which
      holds the value minus their sum. */
  function ShareVectors(masked: Vector, n: nat, draw: DrawFn): (vs: seq<Vector>)
    requires n >= 2
    ensures |vs| == n && forall s :: 0 <= s < n ==> |vs[s]| == |masked|
    ensures forall s, p :: 0 <= s < n - 1 && 0 <= p < |masked| ==> vs[s][p] == draw(p, s)
  {
    seq(n, s requires 0 <= s < n =>
      seq(|masked|, p requires 0 <= p < |masked| =>
        if s < n - 1 then draw(p, s) else masked[p] - RandomSum(draw, p, n - 1)))
  }

  lemma {:induction false} RandomPrefix(vs: seq<Vector>, len: nat, draw: DrawFn, p: nat, k: nat)
    requires k <= |vs| && p < len
    requires forall s :: 0 <= s < k ==> |vs[s]| == len && vs[s][p] == draw(p, s)
    ensures ColumnSum(vs[..k], p) == RandomSum(draw, p, k)
  {
    if k > 0 {
      assert vs[..k][..k - 1] == vs[..k - 1];
      RandomPrefix(vs, len, draw, p, k - 1);
    }
  }

  /** The shares add up to the masked value, parameter by parameter. */
  lemma SharesSum(masked: Vector, n: nat, draw: DrawFn, p: nat)
    requires n >= 2 && p < |masked|
    ensures ColumnSum(ShareVectors(masked, n, draw), p) == masked[p]
  {
    var vs := ShareVectors(masked, n, draw);
    RandomPrefix(vs, |masked|, draw, p, n - 1);
    assert vs[..n][..n - 1] == vs[..n - 1];
    assert vs[..n] == vs;
  }

  /** The decoded gradient of every shard. */
  function Decoded(shards: seq<Wire>): (vs: seq<Vector>)
    ensures |vs| == |shards| && forall s :: 0 <= s < |shards| ==> vs[s] == Federated.DeserializeGradient(shards[s])
  {
    seq(|shards|, s requires 0 <= s < |shards| => Federated.DeserializeGradient(shards[s]))
  }

  /** shardData with the event: data that does not decode to a gradient
      is passed on alone; otherwise the masked gradient is sent whole for
      at most one shard, and split into `numShards` additive shares of
      its length otherwise. `mask` is the client's mask derivation:
      WrittenMask of its private key as the module is written, PairMask
      of its public key under the corrected secret. */
  function ShardData(data: Wire, numShards: int, self: string, e: Event, mask: PeerMask, draw: DrawFn)
    : (r: seq<Wire>)
    ensures Federated.DeserializeGradient(data) == [] ==> r == [data]
    ensures var g := Federated.DeserializeGradient(data);
            var masked := ApplyMasks(g, self, e.participants, mask);
            && (g != [] && numShards <= 1 ==> |r| == 1 && Federated.DeserializeGradient(r[0]) == masked)
            && (g != [] && numShards >= 2 ==>
                  && |r| == numShards
                  && (forall s :: 0 <= s < |r| ==> |Federated.DeserializeGradient(r[s])| == |g|)
                  && forall p :: 0 <= p < |g| ==> ColumnSum(Decoded(r), p) == masked[p])
  {
    var g := Federated.DeserializeGradient(data);
    if g == [] then [data]
    else
      var masked := ApplyMasks(g, self, e.participants, mask);
      if numShards <= 1 then
        [Some(Federated.SerializeGradient(masked))]
      else
        var vs := ShareVectors(masked, numShards, draw);
        var r := seq(numShards, s requires 0 <= s < numShards => Some(Federated.SerializeGradient(vs[s])));
        assert Decoded(r) == vs;
        assert forall p :: 0 <= p < |g| ==> ColumnSum(vs, p) == masked[p] by {
          forall p | 0 <= p < |g| ensures ColumnSum(vs, p) == masked[p] {
            SharesSum(masked, numShards, draw, p);
          }
        }
        r
  }

  // ----------------------------------------------------------- features

  /** getHoursOnlineToday: online since nine o'clock. */
  function HoursOnline(hour: int): (h: real)
    ensures h >= 0.0 && (hour > 9 ==> h == (hour - 9) as real) && (hour <= 9 ==> h == 0.0)
  {
    if hour - 9 > 0 then (hour - 9) as real else 0.0
  }

  /** The feature vector: bias, hour, day of week, hours online. */
  function Features(hour: int, day: int): (f: Vector)
    ensures |f| == 4 && f[0] == 1.0 && f[1] == hour as real && f[2] == day as real
    ensures f[3] == HoursOnline(hour)
  {
    [1.0, hour as real, day as real, HoursOnline(hour)]
  }

  /** The unclamped mock probability; `hash` is std::hash of the client id. */
  function RawProbability(hour: int, day: int, hoursOnline: real, hash: nat): real {
    0.1 + (if hour >= 17 then 0.4 else 0.0) + (if hour >= 20 then 0.3 else 0.0)
    + (if day == 5 then 0.2 else 0.0)
    + (if hoursOnline > 8.0 then 0.3 else 0.0) + (if hoursOnline > 10.0 then 0.2 else 0.0)
    + (hash % 100) as real / 1000.0
  }

  /** estimateLogoutProbability: the mock probability clamped to
      [0.05, 0.9]; values already in range are kept. */
  function EstimateLogoutProbability(hour: int, day: int, hoursOnline: real, hash: nat): (p: real)
    ensures 0.05 <= p <= 0.9
    ensures var raw := RawProbability(hour, day, hoursOnline, hash);
            (raw <= 0.9 ==> p == raw) && (raw > 0.9 ==> p == 0.9)
  {
    var raw := RawProbability(hour, day, hoursOnline, hash);
    var low := if raw > 0.05 then raw else 0.05;
    if low < 0.9 then low else 0.9
  }

  /** Late in the evening the estimate is at least 0.8; it is never
      below the base probability 0.1. */
  lemma ProbabilityShape(hour: int, day: int, hoursOnline: real, hash: nat)
    ensures EstimateLogoutProbability(hour, day, hoursOnline, hash) >= 0.1
    ensures hour >= 20 ==> EstimateLogoutProbability(hour, day, hoursOnline, hash) >= 0.8
  {
  }

  /** w·x over the entries both vectors have. */
  function Dot(features: Vector, weights: Vector): real {
    if features == [] || weights == [] then 0.0
    else features[0] * weights[0] + Dot(features[1..], weights[1..])
  }

  /** computeLogisticGradient: the prediction error times each feature. */
  function ComputeLogisticGradient(features: Vector, actual: real, weights: Vector, sigmoid: real -> real)
    : (g: Vector)
    ensures |g| == |features|
    ensures forall i :: 0 <= i < |features| ==>
              g[i] == (sigmoid(Dot(features, weights)) - actual) * features[i]
  {
    var error := sigmoid(Dot(features, weights)) - actual;
    seq(|features|, i requires 0 <= i < |features| => error * features[i])
  }

  /** The gradient points along the features, and a perfect prediction
      gives the zero gradient. */
  lemma GradientAlongFeatures(features: Vector, actual: real, weights: Vector, sigmoid: real -> real)
    ensures var g := ComputeLogisticGradient(features, actual, weights, sigmoid);
            && (forall i, j :: 0 <= i < |g| && 0 <= j < |g| ==> g[i] * features[j] == g[j] * features[i])
            && (sigmoid(Dot(features, weights)) == actual ==> forall i :: 0 <= i < |g| ==> g[i] == 0.0)
  {
    var g := ComputeLogisticGradient(features, actual, weights, sigmoid);
    var error := sigmoid(Dot(features, weights)) - actual;
    forall i, j | 0 <= i < |g| && 0 <= j < |g| ensures g[i] * features[j] == g[j] * features[i] {
      assert g[i] * features[j] == error * (features[i] * features[j]);
      assert g[j] * features[i] == error * (features[j] * features[i]);
    }
  }

  /** collectData: the gradient for the current clock readings under the
      weights from the metadata (zeros when absent); weights that do not
      convert make the conversion throw out of collectData. */
  function CollectData(metadata: Value, hour: int, day: int, hash: nat, sigmoid: real -> real)
    : (r: Result<Value>)
    ensures r.Failure? <==> Has(metadata, "model_weights") && GetRealArray(metadata.fields["model_weights"]).None?
    ensures r.Success? ==>
              var weights := if Has(metadata, "model_weights")
                             then GetRealArray(metadata.fields["model_weights"]).value
                             else Federated.Zeros(4);
              var p := EstimateLogoutProbability(hour, day, HoursOnline(hour), hash);
              var g := Federated.DeserializeGradient(Some(r.value));
              && g == ComputeLogisticGradient(Features(hour, day), p, weights, sigmoid)
              && |g| == 4 && g[0] == sigmoid(Dot(Features(hour, day), weights)) - p
              && (hour <= 9 ==> g[3] == 0.0)
  {
    var weights :=
      if Has(metadata, "model_weights") then GetRealArray(metadata.fields["model_weights"])
      else Some(Federated.Zeros(4));
    match weights
    case None => Failure(BadWeights)
    case Some(w) =>
      var p := EstimateLogoutProbability(hour, day, HoursOnline(hour), hash);
      Success(Federated.SerializeGradient(ComputeLogisticGradient(Features(hour, day), p, w, sigmoid)))
  }

  /** Weights holding a boolean make collectData fail. */
  lemma BooleanWeightsFail(metadata: Value, hour: int, day: int, hash: nat, sigmoid: real -> real, k: nat)
    requires Has(metadata, "model_weights") && metadata.fields["model_weights"].JArray?
    requires k < |metadata.fields["model_weights"].items| && metadata.fields["model_weights"].items[k].JBool?
    ensures CollectData(metadata, hour, day, hash, sigmoid).Failure?
  {
    BooleanItemRefused(metadata.fields["model_weights"].items, k);
  }
}

=== FILE: numbers.dfy ===
/** How the validation script reads numbers out of a log line: the first
    bracketed group (`\[([^\]]+)\]`), then every match of the number
    pattern `[-+]?\d*\.?\d+(?:[eE][-+]?\d+)?` inside it, left to right,
    each converted with float(). Matching follows the backtracking
    semantics of Python's re module; values are exact reals. */
module Numbers {
  import opened Wrappers
  import opened Text

  predicate IsSign(c: char) {
    c == '+' || c == '-'
  }

  /** The length of the run of digits the text starts with. */
  function DigitRun(s: string): (n: nat)
    ensures n <= |s| && AllDigits(s[..n]) && (n < |s| ==> !IsDigit(s[n]))
  {
    if s != [] && IsDigit(s[0]) then
      var n := 1 + DigitRun(s[1..]);
      assert s[..n] == [s[0]] + s[1..][..n - 1];
      n
    else 0
  }

  /** The length of an exponent part `[eE][-+]?\d+` at the start of the
      text; 0 when there is none (the group is optional). */
  function ExponentLength(s: string): (n: nat)
    ensures n <= |s|
  {
    if s != [] && (s[0] == 'e' || s[0] == 'E') then
      var f := if |s| > 1 && IsSign(s[1]) then 2 else 1;
      if f < |s| && IsDigit(s[f]) then f + DigitRun(s[f..]) else 0
    else 0
  }

  /** The length of the unsigned part `\d*\.?\d+(?:[eE][-+]?\d+)?` of a
      match at the start of the text, 0 when there is none. The greedy
      digit run backs off one digit when no fraction follows, so a dot is
      only taken when a digit follows it. */
  function MantissaLength(u: string): (n: nat)
    ensures n <= |u|
  {
    var a := DigitRun(u);
    if a + 1 < |u| && u[a] == '.' && IsDigit(u[a + 1]) then
      var m := a + 1 + DigitRun(u[a + 1..]);
      m + ExponentLength(u[m..])
    else if a > 0 then a + ExponentLength(u[a..])
    else 0
  }

  /** The length of the number pattern's match at the start of the text,
      0 when it does not match there; a sign is taken when present. */
  function MatchLength(s: string): (n: nat)
    ensures n <= |s|
  {
    if s != [] && IsSign(s[0]) then
      var m := MantissaLength(s[1..]);
      if m > 0 then 1 + m else 0
    else MantissaLength(s)
  }

  /** re.findall of the number pattern: a match is taken and scanning
      resumes after it; where nothing matches, scanning moves one
      character on. */
  function FindNumbers(s: string): (ts: seq<string>)
    ensures forall t | t in ts :: |t| > 0
    decreases |s|
  {
    if s == [] then []
    else
      var n := MatchLength(s);
      if n > 0 then [s[..n]] + FindNumbers(s[n..]) else FindNumbers(s[1..])
  }

  /** 10 to an integer power. */
  function Pow10(e: int): (r: real)
    ensures r > 0.0
    decreases if e < 0 then -e else e
  {
    if e == 0 then 1.0
    else if e > 0 then 10.0 * Pow10(e - 1)
    else Pow10(e + 1) / 10.0
  }

  /** The value of a run of digits after a decimal point. */
  function FractionValue(digits: string): real
    requires AllDigits(digits)
  {
    DigitsValue(digits) as real / Pow10(|digits|)
  }

  /** The signed value of the exponent text after `e`/`E`. */
  function ExponentValue(s: string): int {
    var neg := s != [] && s[0] == '-';
    var q := if s != [] && IsSign(s[0]) then 1 else 0;
    var d := s[q..][..DigitRun(s[q..])];
    if neg then -(DigitsValue(d) as int) else DigitsValue(d)
  }

  /** float() of the unsigned part of a token: whole digits, fraction
      digits and exponent, read exactly. */
  function UnsignedValue(u: string): real {
    var w := DigitRun(u);
    AfterWhole(DigitsValue(u[..w]) as real, u[w..])
  }

  /** The value once the whole digits are read: an optional fraction. */
  function AfterWhole(whole: real, rest: string): real {
    if rest != [] && rest[0] == '.' then
      var v := rest[1..];
      var f := DigitRun(v);
      Scaled(whole + FractionValue(v[..f]), v[f..])
    else Scaled(whole, rest)
  }

  /** The value once the mantissa is read: an optional exponent. */
  function Scaled(mantissa: real, tail: string): real {
    if tail == [] then mantissa else mantissa * Pow10(ExponentValue(tail[1..]))
  }

  /** float() of a matched token. */
  function TokenValue(t: string): real {
    if t != [] && t[0] == '-' then -UnsignedValue(t[1..])
    else if t != [] && t[0] == '+' then UnsignedValue(t[1..])
    else UnsignedValue(t)
  }

  function Values(ts: seq<string>): (vs: seq<real>)
    ensures |vs| == |ts| && forall k :: 0 <= k < |ts| ==> vs[k] == TokenValue(ts[k])
  {
    seq(|ts|, k requires 0 <= k < |ts| => TokenValue(ts[k]))
  }

  // ------------------------------------------------------------ brackets

  /** The index of the first `]`, if any. */
  function CloseIndex(s: string): (r: Option<nat>)
    ensures r.Some? ==> r.value < |s| && s[r.value] == ']' && forall k :: 0 <= k < r.value ==> s[k] != ']'
    ensures r.None? ==> forall k :: 0 <= k < |s| ==> s[k] != ']'
  {
    if s == [] then None
    else if s[0] == ']' then Some(0)
    else match CloseIndex(s[1..])
      case Some(k) => Some(k + 1)
      case None => None
  }

  /** re.search(r'\[([^\]]+)\]'): the leftmost `[` whose first following
      `]` is not right next to it; the group is the text between them. */
  function FirstBracket(s: string): (r: Option<string>)
    ensures r.Some? ==> |r.value| > 0 && forall k :: 0 <= k < |r.value| ==> r.value[k] != ']'
    decreases |s|
  {
    if s == [] then None
    else if s[0] == '[' then
      match CloseIndex(s[1..])
      case Some(k) => if k > 0 then Some(s[1..][..k]) else FirstBracket(s[1..])
      case None => FirstBracket(s[1..])
    else FirstBracket(s[1..])
  }

  /** parse_gradient: the numbers of the first bracket group, or nothing
      when there is no group. */
  function ParseGradient(s: string): (g: seq<real>)
    ensures FirstBracket(s).None? ==> g == []
    ensures FirstBracket(s).Some? ==> g == Values(FindNumbers(FirstBracket(s).value))
  {
    match FirstBracket(s)
    case None => []
    case Some(content) => Values(FindNumbers(content))
  }

  /** Text without `[` before the group is skipped, and whatever follows
      the group is never read. */
  lemma {:induction false} BracketAfterPlainText(p: string, c: string, q: string)
    requires forall k :: 0 <= k < |p| ==> p[k] != '['
    requires |c| > 0 && forall k :: 0 <= k < |c| ==> c[k] != ']'
    ensures FirstBracket(p + "[" + c + "]" + q) == Some(c)
  {
    var s := p + "[" + c + "]" + q;
    if p == [] {
      assert s == "[" + c + "]" + q;
      assert s[1..] == c + "]" + q;
      CloseAfter(c, q);
      assert s[1..][..|c|] == c;
    } else {
      assert s[1..] == p[1..] + "[" + c + "]" + q;
      BracketAfterPlainText(p[1..], c, q);
    }
  }

  /** Text without `[` in front of a line changes nothing the bracket
      search finds. */
  lemma {:induction false} SkipPlainText(a: string, s: string)
    requires forall k :: 0 <= k < |a| ==> a[k] != '['
    ensures FirstBracket(a + s) == FirstBracket(s)
  {
    if a != [] {
      assert (a + s)[1..] == a[1..] + s;
      SkipPlainText(a[1..], s);
    } else {
      assert a + s == s;
    }
  }

  lemma {:induction false} CloseAfter(c: string, q: string)
    requires forall k :: 0 <= k < |c| ==> c[k] != ']'
    ensures CloseIndex(c + "]" + q) == Some(|c|)
  {
    if c != [] {
      assert (c + "]" + q)[1..] == c[1..] + "]" + q;
      CloseAfter(c[1..], q);
    }
  }

  // ------------------------------------------------- printed decimals

  /** A number as a plain decimal: sign, whole part, fraction digits. */
  datatype Decimal = Decimal(negative: bool, whole: nat, fraction: string)

  predicate WellFormedDecimal(d: Decimal) {
    AllDigits(d.fraction)
  }

  /** The unsigned text of a printed decimal. */
  function Digits(d: Decimal): string {
    NatToString(d.whole) + (if d.fraction == [] then "" else "." + d.fraction)
  }

  function Render(d: Decimal): string {
    if d.negative then "-" + Digits(d) else Digits(d)
  }

  function DecimalValue(d: Decimal): real
    requires WellFormedDecimal(d)
  {
    var magnitude := d.whole as real + FractionValue(d.fraction);
    if d.negative then -magnitude else magnitude
  }

  /** Decimals separated by ", ", the way a vector is printed. */
  function Join(ds: seq<Decimal>): string {
    if ds == [] then [] else if |ds| == 1 then Render(ds[0]) else Render(ds[0]) + ", " + Join(ds[1..])
  }

  lemma {:induction false} DigitRunOf(x: string, y: string)
    requires AllDigits(x) && (y == [] || !IsDigit(y[0]))
    ensures DigitRun(x + y) == |x|
  {
    if x != [] {
      assert (x + y)[1..] == x[1..] + y;
      DigitRunOf(x[1..], y);
    } else {
      assert x + y == y;
    }
  }

  /** The text after a printed number: nothing, or the separator. */
  predicate Follows(y: string) {
    y == [] || y[0] == ','
  }

  lemma MantissaWhole(w: string, y: string)
    requires |w| > 0 && AllDigits(w) && Follows(y)
    ensures MantissaLength(w + y) == |w|
  {
    DigitRunOf(w, y);
    assert (w + y)[|w|..] == y;
  }

  lemma MantissaFraction(w: string, f: string, y: string)
    requires |w| > 0 && AllDigits(w) && |f| > 0 && AllDigits(f) && Follows(y)
    ensures MantissaLength(w + ("." + f) + y) == |w| + 1 + |f|
  {
    var u := w + ("." + f) + y;
    DigitRunOf(w, "." + f + y);
    assert u == w + ("." + f + y);
    assert u[|w|] == '.' && u[|w| + 1] == f[0];
    assert u[|w| + 1..] == f + y;
    DigitRunOf(f, y);
    assert u[|w| + 1 + |f|..] == y;
  }

  lemma {:induction false} MantissaOfDigits(d: Decimal, y: string)
    requires WellFormedDecimal(d) && Follows(y)
    ensures MantissaLength(Digits(d) + y) == |Digits(d)|
  {
    if d.fraction == [] {
      assert Digits(d) == NatToString(d.whole);
      MantissaWhole(NatToString(d.whole), y);
    } else {
      MantissaFraction(NatToString(d.whole), d.fraction, y);
    }
  }

  lemma MatchUnsigned(u: string)
    requires u != [] && IsDigit(u[0])
    ensures MatchLength(u) == MantissaLength(u)
  {
  }

  lemma MatchSigned(u: string)
    requires MantissaLength(u) > 0
    ensures MatchLength("-" + u) == 1 + MantissaLength(u)
  {
    assert ("-" + u)[1..] == u;
  }

  /** A printed decimal followed by nothing or a comma is matched whole. */
  lemma {:induction false} MatchRendered(d: Decimal, y: string)
    requires WellFormedDecimal(d) && Follows(y)
    ensures MatchLength(Render(d) + y) == |Render(d)|
  {
    MantissaOfDigits(d, y);
    if d.negative {
      NegativeRendered(d, y);
    } else {
      PositiveRendered(d, y);
    }
  }

  lemma NegativeRendered(d: Decimal, y: string)
    requires d.negative && MantissaLength(Digits(d) + y) == |Digits(d)| > 0
    ensures MatchLength(Render(d) + y) == |Render(d)|
  {
    var u := Digits(d) + y;
    assert Render(d) + y == "-" + u;
    MatchSigned(u);
  }

  lemma PositiveRendered(d: Decimal, y: string)
    requires !d.negative && MantissaLength(Digits(d) + y) == |Digits(d)|
    ensures MatchLength(Render(d) + y) == |Render(d)|
  {
    var u := Digits(d) + y;
    assert u[0] == NatToString(d.whole)[0];
    MatchUnsigned(u);
  }

  lemma NoMatchAtSeparator(z: string)
    ensures MatchLength(", " + z) == 0 && MatchLength(" " + z) == 0
  {
    assert DigitRun(", " + z) == 0;
    assert DigitRun(" " + z) == 0;
  }

  lemma UnsignedWhole(w: string)
    requires AllDigits(w) && |w| > 0
    ensures UnsignedValue(w) == DigitsValue(w) as real
  {
    DigitRunOf(w, "");
    assert w + "" == w;
    assert w[..|w|] == w && w[|w|..] == [];
  }

  lemma FractionAfterWhole(whole: real, f: string)
    requires AllDigits(f) && |f| > 0
    ensures AfterWhole(whole, "." + f) == whole + FractionValue(f)
  {
    assert ("." + f)[1..] == f;
    DigitRunOf(f, "");
    assert f + "" == f;
    assert f[..|f|] == f && f[|f|..] == [];
  }

  /** Reading the whole digits off the front and going on with the rest. */
  lemma UnsignedSplit(u: string, w: string)
    requires AllDigits(w) && |w| <= |u| && u[..|w|] == w && DigitRun(u) == |w|
    ensures UnsignedValue(u) == AfterWhole(DigitsValue(w) as real, u[|w|..])
  {
  }

  lemma UnsignedFraction(w: string, f: string)
    requires AllDigits(w) && |w| > 0 && AllDigits(f) && |f| > 0
    ensures UnsignedValue(w + ("." + f)) == DigitsValue(w) as real + FractionValue(f)
  {
    var t := "." + f;
    var u := w + t;
    DigitRunOf(w, t);
    assert u[..|w|] == w && u[|w|..] == t;
    UnsignedSplit(u, w);
    FractionAfterWhole(DigitsValue(w) as real, f);
  }

  /** Reading back a printed decimal gives its value. */
  lemma {:induction false} TokenOfRendered(d: Decimal)
    requires WellFormedDecimal(d)
    ensures TokenValue(Render(d)) == DecimalValue(d)
  {
    UnsignedOfDigits(d);
    if d.negative {
      UnsignedAfterMinus(Digits(d));
    } else {
      assert Digits(d)[0] == NatToString(d.whole)[0];
    }
  }

  /** The unsigned text of a printed decimal reads as its magnitude. */
  lemma UnsignedOfDigits(d: Decimal)
    requires WellFormedDecimal(d)
    ensures UnsignedValue(Digits(d)) == d.whole as real + FractionValue(d.fraction)
  {
    NatToStringRoundTrip(d.whole);
    if d.fraction == [] {
      WholeDigits(d);
    } else {
      FractionDigits(d);
    }
  }

  lemma WholeDigits(d: Decimal)
    requires d.fraction == []
    ensures UnsignedValue(Digits(d)) == DigitsValue(NatToString(d.whole)) as real
  {
    var w := NatToString(d.whole);
    assert Digits(d) == w;
    UnsignedWhole(w);
  }

  lemma FractionDigits(d: Decimal)
    requires d.fraction != [] && WellFormedDecimal(d)
    ensures UnsignedValue(Digits(d)) == DigitsValue(NatToString(d.whole)) as real + FractionValue(d.fraction)
  {
    var w := NatToString(d.whole);
    assert Digits(d) == w + "." + d.fraction;
    UnsignedFraction(w, d.fraction);
  }

  lemma UnsignedAfterMinus(u: string)
    ensures TokenValue("-" + u) == -UnsignedValue(u)
  {
    assert ("-" + u)[1..] == u;
  }

  /** A matched token is taken and scanning resumes after it. */
  lemma FindAfterToken(t: string, rest: string)
    requires |t| > 0 && MatchLength(t + rest) == |t|
    ensures FindNumbers(t + rest) == [t] + FindNumbers(rest)
  {
    var s := t + rest;
    assert s[..|t|] == t && s[|t|..] == rest;
  }

  lemma SkipSeparator(rest: string)
    ensures FindNumbers(", " + rest) == FindNumbers(rest)
  {
    NoMatchAtSeparator(rest);
    assert (", " + rest)[1..] == " " + rest;
    assert (" " + rest)[1..] == rest;
  }

  /** The printed form of each decimal, in order. */
  function Renders(ds: seq<Decimal>): (ts: seq<string>)
    ensures |ts| == |ds| && forall k :: 0 <= k < |ds| ==> ts[k] == Render(ds[k])
  {
    if ds == [] then [] else [Render(ds[0])] + Renders(ds[1..])
  }

  lemma LastRendered(d: Decimal)
    requires WellFormedDecimal(d)
    ensures FindNumbers(Render(d)) == [Render(d)]
  {
    var t := Render(d);
    MatchRendered(d, "");
    assert t + "" == t;
    FindAfterToken(t, "");
    assert FindNumbers("") == [];
  }

  lemma NextRendered(d: Decimal, rest: string)
    requires WellFormedDecimal(d)
    ensures FindNumbers(Render(d) + ", " + rest) == [Render(d)] + FindNumbers(rest)
  {
    var t := Render(d);
    MatchRendered(d, ", " + rest);
    assert t + ", " + rest == t + (", " + rest);
    FindAfterToken(t, ", " + rest);
    SkipSeparator(rest);
  }

  /** Printed decimals are found one by one, in order: the printing and
      the reading agree. */
  lemma {:induction false} FindJoined(ds: seq<Decimal>)
    requires forall k :: 0 <= k < |ds| ==> WellFormedDecimal(ds[k])
    ensures FindNumbers(Join(ds)) == Renders(ds)
  {
    if |ds| == 1 {
      LastRendered(ds[0]);
    } else if |ds| > 1 {
      NextRendered(ds[0], Join(ds[1..]));
      FindJoined(ds[1..]);
    }
  }

  /** A vector printed as `[a, b, ...]` after bracket-free text parses
      back to its values, whatever follows the closing bracket. */
  lemma ParsePrinted(p: string, ds: seq<Decimal>, q: string)
    requires forall k :: 0 <= k < |p| ==> p[k] != '['
    requires |ds| > 0 && forall k :: 0 <= k < |ds| ==> WellFormedDecimal(ds[k])
    ensures ParseGradient(p + "[" + Join(ds) + "]" + q) == DecimalValues(ds)
  {
    JoinShape(ds);
    BracketAfterPlainText(p, Join(ds), q);
    FindJoined(ds);
    ValuesOfRenders(ds);
  }

  /** The values of a list of decimals. */
  function DecimalValues(ds: seq<Decimal>): (vs: seq<real>)
    requires forall k :: 0 <= k < |ds| ==> WellFormedDecimal(ds[k])
    ensures |vs| == |ds| && forall k :: 0 <= k < |ds| ==> vs[k] == DecimalValue(ds[k])
  {
    seq(|ds|, k requires 0 <= k < |ds| => DecimalValue(ds[k]))
  }

  lemma ValuesOfRenders(ds: seq<Decimal>)
    requires forall k :: 0 <= k < |ds| ==> WellFormedDecimal(ds[k])
    ensures Values(Renders(ds)) == DecimalValues(ds)
  {
    forall k | 0 <= k < |ds| ensures TokenValue(Render(ds[k])) == DecimalValue(ds[k]) {
      TokenOfRendered(ds[k]);
    }
  }

  /** The printed vector is non-empty and holds no `]`. */
  lemma {:induction false} JoinShape(ds: seq<Decimal>)
    requires |ds| > 0 && forall k :: 0 <= k < |ds| ==> WellFormedDecimal(ds[k])
    ensures |Join(ds)| > 0 && forall k :: 0 <= k < |Join(ds)| ==> Join(ds)[k] != ']'
  {
    RenderShape(ds[0]);
    if |ds| > 1 {
      JoinShape(ds[1..]);
      assert Join(ds) == Render(ds[0]) + ", " + Join(ds[1..]);
    }
  }

  lemma DigitsShape(d: Decimal)
    requires WellFormedDecimal(d)
    ensures |Digits(d)| > 0 && forall k :: 0 <= k < |Digits(d)| ==> Digits(d)[k] != ']'
  {
    var w := NatToString(d.whole);
    if d.fraction != [] {
      var t := "." + d.fraction;
      assert forall k :: 0 <= k < |t| ==> t[k] != ']' by {
        forall k | 0 <= k < |t| ensures t[k] != ']' {
          if k > 0 {
            assert t[k] == d.fraction[k - 1];
          }
        }
      }
      assert Digits(d) == w + t;
    }
  }

  lemma RenderShape(d: Decimal)
    requires WellFormedDecimal(d)
    ensures |Render(d)| > 0 && forall k :: 0 <= k < |Render(d)| ==> Render(d)[k] != ']'
  {
    DigitsShape(d);
    if d.negative {
      forall k | 0 <= k < |Render(d)| ensures Render(d)[k] != ']' {
        if k > 0 {
          assert Render(d)[k] == Digits(d)[k - 1];
        }
      }
    }
  }
}

=== FILE: parser.dfy ===
/** Validation of the request bodies the server receives: the body must be
    JSON, must hold the required keys, gets a default `type` when it has
    none, and is then converted with the message's `from_json`; every JSON
    failure on the way yields no message. */
module Parser {
  import opened Wrappers
  import opened Json
  import opened Events
  import Clock

  /** A body that is an object with a `type` key added when it lacks one. */
  function WithDefaultType(j: Value, kind: int): (d: Value)
    requires j.JObject?
    ensures d.JObject? && d.fields.Keys == j.fields.Keys + {"type"}
    ensures forall k | k in j.fields && k != "type" :: d.fields[k] == j.fields[k]
    ensures d.fields["type"] == if "type" in j.fields then j.fields["type"] else JInt(kind)
  {
    if "type" in j.fields then j else JObject(j.fields["type" := JInt(kind)])
  }

  /** The keys a submit body must hold before conversion is tried. */
  predicate HasSubmitKeys(j: Value) {
    Has(j, "event_id") && Has(j, "data") && Has(j, "timestamp") && Has(j, "client_id")
  }

  /** The keys a connect body must hold before conversion is tried. */
  predicate HasConnectKeys(j: Value) {
    Has(j, "client_host") && Has(j, "client_port") && Has(j, "client_id") && Has(j, "ed25519_pub")
  }

  /** parseSubmitResponse */
  function ParseSubmitResponse(body: Wire): (r: Option<EventResponse>)
    ensures body.None? ==> r.None?
    ensures body.Some? && !HasSubmitKeys(body.value) ==> r.None?
    ensures r.Some? ==> var j := body.value;
              && j.fields["event_id"] == JString(r.value.eventId)
              && j.fields["client_id"] == JString(r.value.clientId)
              && j.fields["data"] == JString(r.value.data)
              && GetInteger(j.fields["timestamp"]).Some?
              && r.value.timestamp == GetInteger(j.fields["timestamp"]).value * Clock.NanosPerMilli
              && (if Has(j, "type") then GetEnum(j.fields["type"]) == Some(r.value.kind)
                  else r.value.kind == DataPart)
  {
    match body
    case None => None
    case Some(j) =>
      if !HasSubmitKeys(j) then None
      else EventResponseFromJson(WithDefaultType(j, DataPart))
  }

  /** A submit body whose timestamp is a boolean is refused, even when
      every required key is present. */
  lemma SubmitBooleanTimestampRefused(body: Wire)
    requires body.Some? && Has(body.value, "timestamp") && body.value.fields["timestamp"].JBool?
    ensures ParseSubmitResponse(body).None?
  {
  }

  /** parseConnectResponse; `x25519_pub` is not checked up front but the
      conversion still needs it. */
  function ParseConnectResponse(body: Wire): (r: Option<ConnectResponse>)
    ensures body.None? ==> r.None?
    ensures body.Some? && !HasConnectKeys(body.value) ==> r.None?
    ensures body.Some? && !Has(body.value, "x25519_pub") ==> r.None?
    ensures r.Some? ==> var j := body.value;
              && j.fields["client_host"] == JString(r.value.clientHost)
              && j.fields["client_port"] == JString(r.value.clientPort)
              && j.fields["client_id"] == JString(r.value.clientId)
              && j.fields["x25519_pub"] == JString(r.value.x25519Pub)
              && j.fields["ed25519_pub"] == JString(r.value.ed25519Pub)
              && (if Has(j, "type") then GetEnum(j.fields["type"]) == Some(r.value.kind)
                  else r.value.kind == ConnectionRequest)
  {
    match body
    case None => None
    case Some(j) =>
      if !HasConnectKeys(j) then None
      else ConnectResponseFromJson(WithDefaultType(j, ConnectionRequest))
  }

  /** A serialized response parses back, up to the millisecond truncation
      of its timestamp; without its `type` key it parses as a data part. */
  lemma SubmitAcceptsSerialized(resp: EventResponse)
    ensures ParseSubmitResponse(Some(EventResponseToJson(resp))) == Some(OnWireResponse(resp))
    ensures var j := EventResponseToJson(resp);
            ParseSubmitResponse(Some(JObject(j.fields - {"type"}))) == Some(OnWireResponse(resp).(kind := DataPart))
  {
    EventResponseRoundTrip(resp);
    var j := EventResponseToJson(resp);
    var stripped := JObject(j.fields - {"type"});
    var d := WithDefaultType(stripped, DataPart);
    assert d.fields == j.fields["type" := JInt(DataPart)];
  }

  /** A serialized connect request parses back unchanged. */
  lemma ConnectAcceptsSerialized(c: ConnectResponse)
    ensures ParseConnectResponse(Some(ConnectResponseToJson(c))) == Some(c)
  {
    ConnectResponseRoundTrip(c);
  }
}

=== FILE: pool.dfy ===
/** The server's pool of outgoing HTTP connections, one per "host:port"
    key, each dropped once it has been idle for a minute. The HTTP client
    object itself is not modelled: a connection is its target and two
    clock readings. */
module Pool {
  import opened Text
  import Clock

  const ConnectionTimeoutSeconds: int := 60

  /** A pooled connection: its target, when its client object was created
      and when it was last handed out. */
  datatype Conn = Conn(host: string, port: int, created: int, lastUsed: int)

  type Connections = map<string, Conn>

  function MakeKey(host: string, port: int): (key: string)
    ensures |key| > |host| && key[..|host|] == host && key[|host|] == ':'
  {
    host + ":" + IntToString(port)
  }

  /** A rendered port never holds a colon, so the last colon of a key
      separates host and port even when the host has colons of its own. */
  lemma MakeKeyInjective(h1: string, p1: int, h2: string, p2: int)
    requires MakeKey(h1, p1) == MakeKey(h2, p2)
    ensures h1 == h2 && p1 == p2
  {
    var k := MakeKey(h1, p1);
    var t1, t2 := IntToString(p1), IntToString(p2);
    assert forall i :: 0 <= i < |t1| ==> t1[i] != ':' by {
      assert forall i :: 1 <= i < |t1| ==> t1[1..][i - 1] == t1[i];
    }
    assert forall i :: 0 <= i < |t2| ==> t2[i] != ':' by {
      assert forall i :: 1 <= i < |t2| ==> t2[1..][i - 1] == t2[i];
    }
    if |h1| < |h2| {
      assert false;
    } else if |h2| < |h1| {
      assert false;
    }
    assert h1 == k[..|h1|] == h2;
    assert t1 == k[|h1| + 1..] == t2;
    IntToStringInjective(p1, p2);
  }

  /** PooledConnection::isExpired: whole seconds idle reach the timeout. */
  predicate IsExpired(c: Conn, now: int) {
    Clock.WholeSeconds(now - c.lastUsed) >= ConnectionTimeoutSeconds
  }

  /** Every connection sits under the key of its own target. */
  predicate WellKeyed(pool: Connections) {
    forall k | k in pool :: k == MakeKey(pool[k].host, pool[k].port)
  }

  /** getConnection: a live pooled connection is reused and its idle clock
      restarted; a missing or expired one is replaced by a fresh one. */
  function GetConnection(pool: Connections, host: string, port: int, now: int): (r: (Connections, Conn))
    requires WellKeyed(pool)
    ensures var key := MakeKey(host, port);
            && WellKeyed(r.0)
            && r.0 == pool[key := r.1]
            && r.1.host == host && r.1.port == port && r.1.lastUsed == now
            && !IsExpired(r.1, now)
            && (r.1.created == if key in pool && !IsExpired(pool[key], now) then pool[key].created else now)
  {
    var key := MakeKey(host, port);
    if key in pool && !IsExpired(pool[key], now) then
      var c := pool[key];
      MakeKeyInjective(c.host, c.port, host, port);
      var used := c.(lastUsed := now);
      (pool[key := used], used)
    else
      var made := Conn(host, port, now, now);
      (pool[key := made], made)
  }

  /** removeConnection */
  function Remove(pool: Connections, host: string, port: int): (r: Connections)
    ensures MakeKey(host, port) !in r
    ensures forall k | k in pool && k != MakeKey(host, port) :: k in r && r[k] == pool[k]
    ensures r.Keys <= pool.Keys
  {
    pool - {MakeKey(host, port)}
  }

  /** cleanupExpiredConnections: drops every expired connection. */
  function Cleanup(pool: Connections, now: int): (r: Connections)
    ensures forall k :: k in r <==> k in pool && !IsExpired(pool[k], now)
    ensures forall k | k in r :: r[k] == pool[k]
  {
    map k | k in pool && !IsExpired(pool[k], now) :: pool[k]
  }

  /** getActiveConnections: the keys of the connections not yet expired
      (returned by the source in the map's unspecified order). */
  function Active(pool: Connections, now: int): (keys: set<string>)
    ensures forall k :: k in keys <==> k in pool && !IsExpired(pool[k], now)
  {
    set k | k in pool && !IsExpired(pool[k], now)
  }

  /** After a cleanup every remaining connection is active, cleanup changes
      nothing that getActiveConnections reports, and a second cleanup at
      the same time removes nothing more. */
  lemma CleanupKeepsActive(pool: Connections, now: int)
    ensures Active(Cleanup(pool, now), now) == Cleanup(pool, now).Keys == Active(pool, now)
    ensures Cleanup(Cleanup(pool, now), now) == Cleanup(pool, now)
  {
  }

  /** A connection handed out at `now` survives a cleanup for as long as
      fewer than sixty whole seconds have passed. */
  lemma FreshConnectionSurvives(pool: Connections, host: string, port: int, now: int, later: int)
    requires WellKeyed(pool)
    requires Clock.WholeSeconds(later - now) < ConnectionTimeoutSeconds
    ensures MakeKey(host, port) in Cleanup(GetConnection(pool, host, port, now).0, later)
  {
  }
}

=== FILE: server.dfy ===
/** The aggregation server's bookkeeping: the roster of connected clients,
    the active events with the number of responses each expects, the
    responses received so far, and the final results handed back to
    whoever announced an event. Each HTTP handler and each pass of the
    periodic checker and pinger is a function from state to state. */
module Server {
  import opened Wrappers
  import opened Json
  import opened Text
  import opened Events
  import opened ClientStates
  import Parser
  import Signature
  import Clock
  import opened Listing

  /** The configuration values the server reads; the timeouts are in
      seconds. */
  datatype ServerConfig = ServerConfig(minParticipants: int, maxParticipants: int,
                                       eventTimeoutBoundary: int, clientTimeoutSeconds: int)

  /** `createdTime` is a steady-clock reading; `wantsResult` says whether
      the announcer passed a place for the final result. */
  datatype ActiveEvent = ActiveEvent(eventId: string, computationType: string, expected: int,
                                     createdTime: int, wantsResult: bool, event: Event)

  type Roster = map<string, ClientState>

  /** event id -> client id -> that client's latest response */
  type Responses = map<string, map<string, EventResponse>>

  datatype State = State(roster: Roster, active: map<string, ActiveEvent>,
                         responses: Responses, results: map<string, string>)

  const Initial: State := State(map[], map[], map[], map[])

  /** A registered MPC module's aggregation: from the data each client
      submitted, and the event, to the text of the final result. Parsing
      the data, the order the module sees it in and the module's
      arithmetic are its own business. */
  type Aggregate = (map<string, string>, Event) -> string

  type Modules = map<string, Aggregate>

  /** Every roster entry is filed under its client's own id. */
  predicate RosterKeyed(roster: Roster) {
    forall k | k in roster :: roster[k].id == k
  }

  // ------------------------------------------------------------------ /peers

  function PeerEntry(c: ClientState): string {
    "\"" + c.host + ":" + c.port + "\""
  }

  function JoinComma(items: seq<string>): string {
    if items == [] then "" else if |items| == 1 then items[0] else items[0] + "," + JoinComma(items[1..])
  }

  lemma {:induction false} JoinCommaContains(items: seq<string>, i: nat)
    requires i < |items|
    ensures Contains(JoinComma(items), items[i])
  {
    if |items| == 1 {
      ContainsPrefix(items[0], items[0]);
    } else if i == 0 {
      ContainsPrefix(items[0] + "," + JoinComma(items[1..]), items[0]);
    } else {
      JoinCommaContains(items[1..], i - 1);
      ContainsInLonger(items[0] + ",", JoinComma(items[1..]), "", items[i]);
      assert items[0] + "," + JoinComma(items[1..]) + "" == JoinComma(items);
    }
  }

  const PeersHead: string := "{\"peers\":["
  const PeersTail: string := "]}"

  /** The roster's entries in iteration order: one per key. */
  function Entries(roster: Roster, order: seq<string>): (es: seq<string>)
    requires Enumerates(order, roster.Keys)
    ensures |es| == |order| == |roster|
    ensures forall i | 0 <= i < |order| :: es[i] == PeerEntry(roster[order[i]])
  {
    EnumerationLength(order, roster.Keys);
    seq(|order|, i requires 0 <= i < |order| => PeerEntry(roster[order[i]]))
  }

  /** handleEndpointPeers: a JSON object listing "host:port" for every
      roster client, in iteration order, separated by commas. */
  function Peers(roster: Roster, order: seq<string>): (body: string)
    requires Enumerates(order, roster.Keys)
    ensures StartsWith(body, PeersHead)
    ensures |body| >= |PeersHead| + |PeersTail| && body[|body| - |PeersTail|..] == PeersTail
    ensures body[|PeersHead|..|body| - |PeersTail|] == JoinComma(Entries(roster, order))
    ensures roster == map[] ==> body == PeersHead + PeersTail
    ensures forall k | k in roster :: Contains(body, PeerEntry(roster[k]))
  {
    var entries := Entries(roster, order);
    var body := PeersHead + JoinComma(entries) + PeersTail;
    forall k | k in roster ensures Contains(body, PeerEntry(roster[k])) {
      var i :| 0 <= i < |order| && order[i] == k;
      JoinCommaContains(entries, i);
      ContainsInLonger(PeersHead, JoinComma(entries), PeersTail, entries[i]);
    }
    assert body[..|PeersHead|] == PeersHead;
    assert body[|PeersHead|..|body| - |PeersTail|] == JoinComma(entries);
    body
  }

  /** The pieces between the commas of a text, in order. */
  function SplitComma(s: string): (parts: seq<string>)
    ensures |parts| >= 1
  {
    if s == [] then [""]
    else
      var rest := SplitComma(s[1..]);
      if s[0] == ',' then [""] + rest else [[s[0]] + rest[0]] + rest[1..]
  }

  lemma {:induction false} SplitCommaJoined(a: string, b: string)
    requires ',' !in a
    ensures SplitComma(a + "," + b) == [a] + SplitComma(b)
    ensures SplitComma(a) == [a]
  {
    if a == [] {
      assert a + "," + b == [','] + b && ([','] + b)[1..] == b;
    } else {
      assert (a + "," + b)[0] == a[0] && (a + "," + b)[1..] == a[1..] + "," + b;
      SplitCommaJoined(a[1..], b);
      assert [a[0]] + a[1..] == a;
    }
  }

  /** Splitting at the commas undoes the joining when no item has a comma. */
  lemma {:induction false} SplitJoinComma(items: seq<string>)
    requires |items| >= 1 && forall i | 0 <= i < |items| :: ',' !in items[i]
    ensures SplitComma(JoinComma(items)) == items
  {
    SplitCommaJoined(items[0], "");
    if |items| > 1 {
      SplitCommaJoined(items[0], JoinComma(items[1..]));
      SplitJoinComma(items[1..]);
    }
  }

  /** When no host or port holds a comma, the list in the reply splits
      back into exactly one entry per roster client, in iteration order. */
  lemma PeersListsRoster(roster: Roster, order: seq<string>)
    requires Enumerates(order, roster.Keys) && roster != map[]
    requires forall k | k in roster :: ',' !in roster[k].host && ',' !in roster[k].port
    ensures var body := Peers(roster, order);
            var parts := SplitComma(body[|PeersHead|..|body| - |PeersTail|]);
            && |parts| == |roster|
            && forall i | 0 <= i < |order| :: parts[i] == PeerEntry(roster[order[i]])
  {
    var es := Entries(roster, order);
    forall i | 0 <= i < |es| ensures ',' !in es[i] {
      assert order[i] in roster;
    }
    SplitJoinComma(es);
  }

  // ---------------------------------------------------------------- /connect

  /** handleEndpointConnect: a valid body files a fresh client state, just
      pinged, under the client's id, replacing any earlier one; an invalid
      body changes nothing. */
  function Connect(s: State, body: Wire, now: int): (r: (State, int))
    ensures Parser.ParseConnectResponse(body).None? ==> r == (s, 400)
    ensures Parser.ParseConnectResponse(body).Some? ==>
              var c := Parser.ParseConnectResponse(body).value;
              && r.1 == 200
              && r.0 == s.(roster := r.0.roster)
              && r.0.roster.Keys == s.roster.Keys + {c.clientId}
              && r.0.roster[c.clientId] == ClientState(c.clientHost, c.clientPort, c.clientId, c.ed25519Pub, now)
              && (forall k | k in s.roster && k != c.clientId :: r.0.roster[k] == s.roster[k])
    ensures RosterKeyed(s.roster) ==> RosterKeyed(r.0.roster)
  {
    match Parser.ParseConnectResponse(body)
    case None => (s, 400)
    case Some(c) =>
      var state := UpdatePingTime(ClientState(c.clientHost, c.clientPort, c.clientId, c.ed25519Pub, 0), now);
      (s.(roster := s.roster[c.clientId := state]), 200)
  }

  // ------------------------------------------------------ completion checking

  /** How many clients have answered an event so far. */
  function Received(s: State, eventId: string): nat {
    if eventId in s.responses then |s.responses[eventId]| else 0
  }

  predicate Complete(s: State, eventId: string) {
    eventId in s.active && Received(s, eventId) >= s.active[eventId].expected
  }

  /** A completed event whose module exists and whose announcer asked for
      the result. */
  predicate Delivers(s: State, modules: Modules, eventId: string) {
    Complete(s, eventId) && s.active[eventId].wantsResult
    && s.active[eventId].computationType in modules
  }

  function DataOf(m: map<string, EventResponse>): (d: map<string, string>)
    ensures d.Keys == m.Keys && forall k | k in m :: d[k] == m[k].data
  {
    map k | k in m :: m[k].data
  }

  function FinalResult(s: State, modules: Modules, eventId: string): string
    requires Delivers(s, modules, eventId)
  {
    var a := s.active[eventId];
    var data := if eventId in s.responses then DataOf(s.responses[eventId]) else map[];
    modules[a.computationType](data, a.event)
  }

  /** checkForCompleteResults: every active event with at least as many
      responses as it expects is aggregated (when its module exists) and
      then dropped together with its responses; nothing else changes. */
  function CheckComplete(s: State, modules: Modules): (r: State)
    ensures r.roster == s.roster
    ensures forall e :: e in r.active <==> e in s.active && !Complete(s, e)
    ensures forall e | e in r.active :: r.active[e] == s.active[e]
    ensures forall e :: e in r.responses <==> e in s.responses && !Complete(s, e)
    ensures forall e | e in r.responses :: r.responses[e] == s.responses[e]
    ensures forall e :: e in r.results <==> e in s.results || Delivers(s, modules, e)
    ensures forall e | e in r.results ::
              r.results[e] == if Delivers(s, modules, e) then FinalResult(s, modules, e) else s.results[e]
  {
    var delivered := set e | e in s.active && Delivers(s, modules, e);
    State(s.roster,
          map e | e in s.active && !Complete(s, e) :: s.active[e],
          map e | e in s.responses && !Complete(s, e) :: s.responses[e],
          map e | e in s.results.Keys + delivered ::
            if e in delivered then FinalResult(s, modules, e) else s.results[e])
  }

  /** After a check no active event is complete. */
  lemma CheckCompleteLeavesNoneComplete(s: State, modules: Modules)
    ensures forall e :: !Complete(CheckComplete(s, modules), e)
  {
    var r := CheckComplete(s, modules);
    forall e | e in r.active ensures !Complete(r, e) {
      assert Received(r, e) == Received(s, e);
    }
  }

  /** So a second check right away changes nothing. */
  lemma CheckCompleteSettles(s: State, modules: Modules)
    ensures CheckComplete(CheckComplete(s, modules), modules) == CheckComplete(s, modules)
  {
    var r := CheckComplete(s, modules);
    CheckCompleteLeavesNoneComplete(s, modules);
    var r2 := CheckComplete(r, modules);
    assert forall e :: !Delivers(r, modules, e);
    assert r2.active == r.active;
    assert r2.responses == r.responses;
    assert r2.results == r.results;
  }

  // ----------------------------------------------------------------- /submit

  /** The body parses as a submit response from a client on the roster. */
  predicate FromRosterClient(body: Wire, roster: Roster) {
    Parser.ParseSubmitResponse(body).Some? && Parser.ParseSubmitResponse(body).value.clientId in roster
  }

  /** Files a response under its event and client, replacing that client's
      earlier response to the same event. */
  function Store(s: State, resp: EventResponse): (r: State)
    ensures resp.eventId in r.responses && resp.clientId in r.responses[resp.eventId]
    ensures r.responses[resp.eventId][resp.clientId] == resp
    ensures forall e | e in s.responses && e != resp.eventId :: e in r.responses && r.responses[e] == s.responses[e]
    ensures r.responses.Keys == s.responses.Keys + {resp.eventId}
    ensures r == s.(responses := r.responses)
  {
    var forEvent := if resp.eventId in s.responses then s.responses[resp.eventId] else map[];
    s.(responses := s.responses[resp.eventId := forEvent[resp.clientId := resp]])
  }

  /** handleEndpointSubmit: a response that parses and comes from a roster
      client is stored and completion is checked; anything else is
      refused with 400 and changes nothing. */
  function Submit(s: State, body: Wire, modules: Modules): (r: (State, int))
    ensures r.0.roster == s.roster
    ensures r.1 == 200 || r.1 == 400
    ensures r.1 == 200 <==> FromRosterClient(body, s.roster)
    ensures r.1 == 400 ==> r.0 == s
    ensures r.1 == 200 ==> r.0 == CheckComplete(Store(s, Parser.ParseSubmitResponse(body).value), modules)
  {
    match Parser.ParseSubmitResponse(body)
    case None => (s, 400)
    case Some(resp) =>
      if resp.clientId in s.roster then (CheckComplete(Store(s, resp), modules), 200)
      else (s, 400)
  }

  /** An accepted response to an active event is still on file afterwards
      unless it completed its event. */
  lemma SubmitKeepsIncomplete(s: State, body: Wire, modules: Modules)
    requires Submit(s, body, modules).1 == 200
    ensures var resp := Parser.ParseSubmitResponse(body).value;
            var stored := Store(s, resp);
            var r := Submit(s, body, modules).0;
            resp.eventId in s.active && !Complete(stored, resp.eventId) ==>
              resp.eventId in r.active && r.responses[resp.eventId][resp.clientId] == resp
  {
  }

  // ---------------------------------------------------------- announceEvent

  /** The active_events_ part of announceEvent: an event id not yet active
      is registered, expecting one response per participant; an id already
      active keeps its record (emplace does not overwrite). */
  function AnnounceEvent(s: State, e: Event, now: int, wantsResult: bool): (r: State)
    ensures e.eventId in r.active
    ensures e.eventId in s.active ==> r == s
    ensures e.eventId !in s.active ==>
              && r == s.(active := r.active)
              && r.active.Keys == s.active.Keys + {e.eventId}
              && r.active[e.eventId].expected == |e.participants|
              && r.active[e.eventId].event == e
              && r.active[e.eventId].computationType == e.computationType
              && r.active[e.eventId].createdTime == now
              && r.active[e.eventId].wantsResult == wantsResult
              && r.active[e.eventId].eventId == e.eventId
              && forall k | k in s.active :: r.active[k] == s.active[k]
  {
    if e.eventId in s.active then s
    else
      s.(active := s.active[e.eventId := ActiveEvent(e.eventId, e.computationType, |e.participants|,
                                                     now, wantsResult, e)])
  }

  // ------------------------------------------------ participants and events

  function InfoOf(c: ClientState): ClientInfo {
    ClientInfo(c.id, c.host, c.port, c.ed25519Pub)
  }

  function Min(a: int, b: int): int {
    if a <= b then a else b
  }

  /** selectParticipants: `shuffled` is the roster after std::shuffle. Too
      small a roster gives nobody; otherwise the first
      min(roster size, max_participants) clients are taken. */
  function SelectParticipants(roster: Roster, shuffled: seq<string>, cfg: ServerConfig): (sel: seq<ClientInfo>)
    requires Enumerates(shuffled, roster.Keys)
    requires cfg.maxParticipants >= 0
    ensures |roster| < cfg.minParticipants ==> sel == []
    ensures |roster| >= cfg.minParticipants ==> |sel| == Min(|roster|, cfg.maxParticipants)
    ensures |sel| <= |shuffled|
    ensures forall i :: 0 <= i < |sel| ==> shuffled[i] in roster && sel[i] == InfoOf(roster[shuffled[i]])
  {
    EnumerationLength(shuffled, roster.Keys);
    if |shuffled| < cfg.minParticipants then []
    else
      var n := Min(|shuffled|, cfg.maxParticipants);
      seq(n, i requires 0 <= i < n => InfoOf(roster[shuffled[i]]))
  }

  /** The selected clients are distinct roster members. */
  lemma SelectionDistinct(roster: Roster, shuffled: seq<string>, cfg: ServerConfig)
    requires Enumerates(shuffled, roster.Keys) && cfg.maxParticipants >= 0
    requires RosterKeyed(roster)
    ensures var sel := SelectParticipants(roster, shuffled, cfg);
            && (forall i :: 0 <= i < |sel| ==> sel[i].clientId in roster)
            && (forall i, k :: 0 <= i < k < |sel| ==> sel[i].clientId != sel[k].clientId)
  {
    var sel := SelectParticipants(roster, shuffled, cfg);
    forall i, k | 0 <= i < k < |sel| ensures sel[i].clientId != sel[k].clientId {
      assert sel[i].clientId == shuffled[i] && sel[k].clientId == shuffled[k];
    }
  }

  /** The string the server signs for an event. */
  function EventHash(eventId: string, computationType: string, count: nat): string {
    eventId + "|" + computationType + "|" + NatToString(count)
  }

  /** createEvent: no participants means no event; otherwise the event
      carries the selection and the server's signature over its id, type
      and size. A private key createSignature refuses makes it throw. */
  function CreateEvent(roster: Roster, shuffled: seq<string>, cfg: ServerConfig, kind: int,
                       eventId: string, computationType: string, now: int,
                       serverKey: string, sign: Signature.SignFn): (r: Result<Option<Event>>)
    requires Enumerates(shuffled, roster.Keys) && cfg.maxParticipants >= 0
    ensures var sel := SelectParticipants(roster, shuffled, cfg);
            && (sel == [] ==> r == Success(None))
            && (sel != [] ==>
                  var sig := Signature.CreateSignature(EventHash(eventId, computationType, |sel|), serverKey, sign);
                  && (r.Failure? <==> sig.Failure?)
                  && (r.Success? ==>
                        r == Success(Some(Event(kind, eventId, computationType, sel, sig.value, now)))))
  {
    var sel := SelectParticipants(roster, shuffled, cfg);
    if sel == [] then Success(None)
    else
      var sig :- Signature.CreateSignature(EventHash(eventId, computationType, |sel|), serverKey, sign);
      Success(Some(Event(kind, eventId, computationType, sel, sig, now)))
  }

  /** With the key pair the server generates at start-up, createEvent
      never throws, makes an event exactly when the roster reaches the
      minimum and the maximum allows someone, and the event's signature
      checks out against the server's public key whenever Ed25519 accepts
      the raw signature. */
  lemma CreateEventWithServerKeys(roster: Roster, shuffled: seq<string>, cfg: ServerConfig, kind: int,
                                  eventId: string, computationType: string, now: int,
                                  pk: seq<Signature.Byte>, sk: seq<Signature.Byte>,
                                  sign: Signature.SignFn, verify: Signature.VerifyFn)
    requires Enumerates(shuffled, roster.Keys) && cfg.maxParticipants >= 0
    requires |pk| == Signature.PublicKeyBytes && |sk| == Signature.SecretKeyBytes
    ensures var keys := Signature.GenerateKeyPair(pk, sk);
            var r := CreateEvent(roster, shuffled, cfg, kind, eventId, computationType, now, keys.1, sign);
            && r.Success?
            && (r.value.None? <==> |roster| < cfg.minParticipants || cfg.maxParticipants == 0 || |roster| == 0)
            && (r.value.Some? ==>
                  var e := r.value.value;
                  var hash := EventHash(e.eventId, e.computationType, |e.participants|);
                  Signature.VerifySignature(hash, e.serverSignature, keys.0, verify)
                  <==> verify(sign(hash, sk), hash, pk))
  {
    var keys := Signature.GenerateKeyPair(pk, sk);
    var sel := SelectParticipants(roster, shuffled, cfg);
    EnumerationLength(shuffled, roster.Keys);
    var hash := EventHash(eventId, computationType, |sel|);
    Signature.SignThenVerify(hash, pk, sk, sign, verify);
  }

  // ------------------------------------------------------------------ /ping

  /** handleEndpointPing: a well-formed ping from a roster client restarts
      its liveness clock (200); an unknown client gets 404 and a malformed
      body 400, both without change. */
  function Ping(s: State, body: Wire, now: int): (r: (State, int))
    ensures r.1 in {200, 400, 404}
    ensures Parser.ParseSubmitResponse(body).None? ==> r == (s, 400)
    ensures r.1 != 200 ==> r.0 == s
    ensures r.0 == s.(roster := r.0.roster) && r.0.roster.Keys == s.roster.Keys
    ensures r.1 == 200 <==> FromRosterClient(body, s.roster)
    ensures r.1 == 200 ==>
              var id := Parser.ParseSubmitResponse(body).value.clientId;
              && r.0.roster[id] == s.roster[id].(lastPing := now)
              && (forall t :: t >= 1 ==> IsAlive(r.0.roster[id], now, t))
              && forall k | k in s.roster && k != id :: r.0.roster[k] == s.roster[k]
    ensures RosterKeyed(s.roster) ==> RosterKeyed(r.0.roster)
  {
    match Parser.ParseSubmitResponse(body)
    case None => (s, 400)
    case Some(p) =>
      if p.clientId in s.roster then
        (s.(roster := s.roster[p.clientId := UpdatePingTime(s.roster[p.clientId], now)]), 200)
      else (s, 404)
  }

  // ----------------------------------------------------------------- sweeps

  predicate TimedOut(a: ActiveEvent, now: int, boundary: int) {
    Clock.WholeSeconds(now - a.createdTime) > boundary
  }

  /** The timeout pass of periodicEventChecker: events older than the
      boundary (in whole seconds, strictly) leave both maps. */
  function TimeoutSweep(s: State, now: int, boundary: int): (r: State)
    ensures r.roster == s.roster && r.results == s.results
    ensures forall e :: e in r.active <==> e in s.active && !TimedOut(s.active[e], now, boundary)
    ensures forall e | e in r.active :: r.active[e] == s.active[e]
    ensures forall e :: e in r.responses <==>
              e in s.responses && !(e in s.active && TimedOut(s.active[e], now, boundary))
    ensures forall e | e in r.responses :: r.responses[e] == s.responses[e]
  {
    var expired := set e | e in s.active && TimedOut(s.active[e], now, boundary);
    s.(active := s.active - expired, responses := s.responses - expired)
  }

  /** One round of periodicEventChecker: the timeout pass, then a
      completion check. */
  function EventCheckerTick(s: State, now: int, boundary: int, modules: Modules): (r: State)
    ensures r.roster == s.roster
    ensures forall e | e in r.active :: e in s.active && !TimedOut(s.active[e], now, boundary)
    ensures forall e :: !Complete(r, e)
  {
    var t := TimeoutSweep(s, now, boundary);
    CheckCompleteLeavesNoneComplete(t, modules);
    CheckComplete(t, modules)
  }

  /** The client is listed among the participants of an event. */
  predicate Participates(a: ActiveEvent, clientId: string) {
    exists i | 0 <= i < |a.event.participants| :: a.event.participants[i].clientId == clientId
  }

  predicate InActiveEvent(s: State, clientId: string) {
    exists e | e in s.active :: Participates(s.active[e], clientId)
  }

  /** The eviction pass of periodicPinger: a client leaves the roster
      exactly when it is not alive and takes part in no active event. */
  function PingSweep(s: State, now: int, timeoutSeconds: int): (r: State)
    ensures r == s.(roster := r.roster)
    ensures forall id :: id in r.roster <==>
              id in s.roster && (IsAlive(s.roster[id], now, timeoutSeconds) || InActiveEvent(s, id))
    ensures forall id | id in r.roster :: r.roster[id] == s.roster[id]
    ensures RosterKeyed(s.roster) ==> RosterKeyed(r.roster)
  {
    s.(roster := map id | id in s.roster && (IsAlive(s.roster[id], now, timeoutSeconds) || InActiveEvent(s, id))
                   :: s.roster[id])
  }

  /** A client just pinged survives the next eviction pass whatever the
      events, as long as the timeout is at least a second. */
  lemma PingedClientSurvives(s: State, body: Wire, now: int, timeoutSeconds: int)
    requires Ping(s, body, now).1 == 200 && timeoutSeconds >= 1
    ensures Parser.ParseSubmitResponse(body).value.clientId in PingSweep(Ping(s, body, now).0, now, timeoutSeconds).roster
  {
  }
}

=== FILE: signature.dfy ===
/** Signature helpers: the signed-message layout, the lowercase base16
    text form of keys and signatures (section 8 of RFC 4648, two digits per
    byte), and the length and decoding checks wrapped around the Ed25519
    primitives of RFC 8032, which stay foreign and are passed in as
    functions. */
module Signature {
  import opened Wrappers
  import Text

  type Byte = x: int | 0 <= x < 256

  /** crypto_sign_SECRETKEYBYTES, crypto_sign_PUBLICKEYBYTES, crypto_sign_BYTES */
  const SecretKeyBytes: nat := 64
  const PublicKeyBytes: nat := 32
  const SignatureBytes: nat := 64

  /** The fixed 64-byte buffer the detached signature is written into. */
  type RawSignature = s: seq<Byte> | |s| == SignatureBytes witness seq(64, _ => 0)

  /** crypto_sign_detached over a message and a raw secret key. */
  type SignFn = (string, seq<Byte>) -> RawSignature

  /** crypto_sign_verify_detached(signature, message, public key) == 0 */
  type VerifyFn = (seq<Byte>, string, seq<Byte>) -> bool

  /** createMessage: the text a peer shard's signature covers. */
  function CreateMessage(eventId: string, fromClient: string, data: string): (m: string)
    ensures |m| == |eventId| + |fromClient| + |data| + 2
    ensures m[..|eventId|] == eventId && m[|eventId|] == '|'
    ensures m[|eventId| + 1..|eventId| + 1 + |fromClient|] == fromClient
    ensures m[|eventId| + 1 + |fromClient|] == '|'
    ensures m[|eventId| + |fromClient| + 2..] == data
  {
    eventId + "|" + fromClient + "|" + data
  }

  // ---------------------------------------------------------------- encoding

  predicate IsLowerHex(c: char) {
    '0' <= c <= '9' || 'a' <= c <= 'f'
  }

  function LowerHexDigit(d: nat): (c: char)
    requires d < 16
    ensures IsLowerHex(c)
  {
    if d < 10 then ('0' as int + d) as char else ('a' as int + d - 10) as char
  }

  /** snprintf("%02x") of one byte. */
  function EncodeByte(b: Byte): (s: string)
    ensures |s| == 2 && IsLowerHex(s[0]) && IsLowerHex(s[1])
  {
    [LowerHexDigit(b / 16), LowerHexDigit(b % 16)]
  }

  /** The encoding loops of createSignature and generateKeyPair. */
  function Encode(bytes: seq<Byte>): (s: string)
    ensures |s| == 2 * |bytes|
    ensures forall i :: 0 <= i < |s| ==> IsLowerHex(s[i])
  {
    if bytes == [] then [] else EncodeByte(bytes[0]) + Encode(bytes[1..])
  }

  // ---------------------------------------------------------------- decoding

  function HexValue(c: char): (r: Option<nat>)
    ensures r.Some? ==> r.value < 16
  {
    if '0' <= c <= '9' then Some(c as int - '0' as int)
    else if 'a' <= c <= 'f' then Some(c as int - 'a' as int + 10)
    else if 'A' <= c <= 'F' then Some(c as int - 'A' as int + 10)
    else None
  }

  /** std::stoi(two-character text, nullptr, 16), which is strtol: leading
      white space is skipped, a sign and a "0x" prefix are accepted, digits
      are read as far as they go, and only a text with no digit at all
      throws. */
  function StoiHexPair(c0: char, c1: char): (r: Option<int>)
    ensures r.Some? ==> -15 <= r.value < 256
    ensures HexValue(c0).Some? && HexValue(c1).Some? ==>
              r == Some(HexValue(c0).value * 16 + HexValue(c1).value)
  {
    if Text.IsCSpace(c0) then
      (match HexValue(c1) case Some(v) => Some(v) case None => None)
    else if c0 == '+' || c0 == '-' then
      (match HexValue(c1)
       case Some(v) => var signed: int := if c0 == '-' then -(v as int) else v; Some(signed)
       case None => None)
    else if c0 == '0' && (c1 == 'x' || c1 == 'X') then Some(0)
    else
      match HexValue(c0)
      case None => None
      case Some(v0) =>
        match HexValue(c1)
        case Some(v1) => Some(v0 * 16 + v1)
        case None => Some(v0)
  }

  /** The decoding loops of createSignature and verifySignature: each
      two-character group goes through stoi and static_cast<unsigned char>;
      a group stoi rejects makes the whole decoding throw. */
  function Decode(s: string): (r: Option<seq<Byte>>)
    requires |s| % 2 == 0
    ensures r.Some? ==> |r.value| == |s| / 2
  {
    if s == [] then Some([])
    else
      match (StoiHexPair(s[0], s[1]), Decode(s[2..]))
      case (Some(v), Some(rest)) => Some([(v % 256) as Byte] + rest)
      case _ => None
  }

  lemma HexValueOfDigit(d: nat)
    requires d < 16
    ensures HexValue(LowerHexDigit(d)) == Some(d)
  {
  }

  lemma StoiEncodedByte(b: Byte)
    ensures var e := EncodeByte(b); StoiHexPair(e[0], e[1]) == Some(b)
  {
    HexValueOfDigit(b / 16);
    HexValueOfDigit(b % 16);
  }

  lemma {:induction false} DecodeEncode(bytes: seq<Byte>)
    ensures Decode(Encode(bytes)) == Some(bytes)
  {
    if bytes != [] {
      var s := Encode(bytes);
      EncodeSplits(bytes);
      DecodeEncode(bytes[1..]);
      StoiEncodedByte(bytes[0]);
      DecodeFront(s, bytes[0], bytes[1..]);
      assert [bytes[0]] + bytes[1..] == bytes;
    }
  }

  lemma EncodeSplits(bytes: seq<Byte>)
    requires bytes != []
    ensures var s := Encode(bytes);
            |s| >= 2 && s[..2] == EncodeByte(bytes[0]) && s[2..] == Encode(bytes[1..])
  {
  }

  /** A readable first pair in front of a decodable rest decodes to the
      pair's byte in front of the rest's bytes. */
  lemma DecodeFront(s: string, b: Byte, rest: seq<Byte>)
    requires |s| >= 2 && |s| % 2 == 0
    requires StoiHexPair(s[0], s[1]) == Some(b as int) && Decode(s[2..]) == Some(rest)
    ensures Decode(s) == Some([b] + rest)
  {
  }


  // ------------------------------------------------------------ the wrappers

  /** createSignature: the private key must be 128 hex characters that
      decode; the signature comes back as 128 lowercase hex characters. */
  function CreateSignature(message: string, privateKey: string, sign: SignFn): (r: Result<string>)
    ensures |privateKey| != 2 * SecretKeyBytes ==> r.Failure?
    ensures r.Success? <==> |privateKey| == 2 * SecretKeyBytes && Decode(privateKey).Some?
    ensures r.Success? ==>
              |r.value| == 2 * SignatureBytes
              && r.value == Encode(sign(message, Decode(privateKey).value))
  {
    if |privateKey| != 2 * SecretKeyBytes then Failure("Invalid private key length")
    else
      match Decode(privateKey)
      case None => Failure("stoi")
      case Some(sk) => Success(Encode(sign(message, sk)))
  }

  /** verifySignature: wrong lengths and undecodable text are rejected
      without reaching the primitive, and without throwing. */
  function VerifySignature(message: string, signature: string, publicKey: string,
                           verify: VerifyFn): (ok: bool)
    ensures |publicKey| != 2 * PublicKeyBytes ==> !ok
    ensures |signature| != 2 * SignatureBytes ==> !ok
    ensures |publicKey| == 2 * PublicKeyBytes && |signature| == 2 * SignatureBytes ==>
              (ok <==> Decode(publicKey).Some? && Decode(signature).Some?
                       && verify(Decode(signature).value, message, Decode(publicKey).value))
  {
    if |publicKey| != 2 * PublicKeyBytes then false
    else if |signature| != 2 * SignatureBytes then false
    else
      match (Decode(publicKey), Decode(signature))
      case (Some(pk), Some(sig)) => verify(sig, message, pk)
      case _ => false
  }

  /** generateKeyPair, with the raw key bytes coming from libsodium. */
  function GenerateKeyPair(pk: seq<Byte>, sk: seq<Byte>): (keys: (string, string))
    requires |pk| == PublicKeyBytes && |sk| == SecretKeyBytes
    ensures |keys.0| == 2 * PublicKeyBytes && |keys.1| == 2 * SecretKeyBytes
    ensures Decode(keys.0) == Some(pk) && Decode(keys.1) == Some(sk)
  {
    DecodeEncode(pk);
    DecodeEncode(sk);
    (Encode(pk), Encode(sk))
  }

  /** Signing with a generated private key and verifying with the matching
      public key asks Ed25519 exactly the question it would be asked on the
      raw bytes: the text layer adds and loses nothing. */
  lemma SignThenVerify(message: string, pk: seq<Byte>, sk: seq<Byte>, sign: SignFn, verify: VerifyFn)
    requires |pk| == PublicKeyBytes && |sk| == SecretKeyBytes
    ensures var keys := GenerateKeyPair(pk, sk);
            var sig := CreateSignature(message, keys.1, sign);
            sig.Success?
            && (VerifySignature(message, sig.value, keys.0, verify) <==> verify(sign(message, sk), message, pk))
  {
    var keys := GenerateKeyPair(pk, sk);
    var raw := sign(message, sk);
    DecodeEncode(raw);
  }
}

=== FILE: sum.dfy ===
/** The secure-sum computation: each client adds up the numeric shards it
    holds and rounds the total; the server adds up the clients' integer
    results. Floating-point text parsing (std::stod) is a parameter;
    std::stoi on the server side is modelled exactly. */
module Sum {
  import opened Wrappers
  import opened Text

  const ComputationType: string := "secure_sum"

  /** std::stod: the value of a text, or nothing when it throws. */
  type Stod = string -> Option<real>

  // -------------------------------------------------------------- stoi

  /** The text after the leading white space strtol skips. */
  function SkipSpace(s: string): (r: string)
    ensures |r| <= |s| && r == s[|s| - |r|..]
    ensures r != [] ==> !IsCSpace(r[0])
    ensures s != [] && !IsCSpace(s[0]) ==> r == s
  {
    if s != [] && IsCSpace(s[0]) then SkipSpace(s[1..]) else s
  }

  /** The longest run of decimal digits the text starts with. */
  function DigitPrefix(s: string): (r: string)
    ensures AllDigits(r) && |r| <= |s| && r == s[..|r|]
    ensures |r| < |s| ==> !IsDigit(s[|r|])
    ensures AllDigits(s) ==> r == s
  {
    if s != [] && IsDigit(s[0]) then [s[0]] + DigitPrefix(s[1..]) else []
  }

  /** The range of a C++ int. */
  predicate InIntRange(v: int) {
    -0x8000_0000 <= v < 0x8000_0000
  }

  /** std::stoi(text): white space, an optional sign and as many decimal
      digits as follow; no digit throws invalid_argument and a value
      outside the int range throws out_of_range. */
  function Stoi(s: string): (r: Option<int>)
    ensures r.Some? ==> InIntRange(r.value)
  {
    ReadSigned(SkipSpace(s))
  }

  /** The part of stoi after the white space: an optional sign, then the
      digits. */
  function ReadSigned(t: string): (r: Option<int>)
    ensures r.Some? ==> InIntRange(r.value)
  {
    var signed := |t| > 0 && (t[0] == '-' || t[0] == '+');
    var negative := signed && t[0] == '-';
    var digits := DigitPrefix(if signed then t[1..] else t);
    if digits == [] then None
    else
      var v: int := if negative then -(DigitsValue(digits) as int) else DigitsValue(digits);
      if InIntRange(v) then Some(v) else None
  }

  /** A plain run of digits reads as its value. */
  lemma StoiReadsDigits(t: string)
    requires t != [] && AllDigits(t) && InIntRange(DigitsValue(t))
    ensures Stoi(t) == Some(DigitsValue(t))
  {
    assert !IsCSpace(t[0]) && !(t[0] == '-' || t[0] == '+');
    assert SkipSpace(t) == t;
    assert DigitPrefix(t) == t;
  }

  /** A minus sign followed by digits reads as the negated value. */
  lemma StoiReadsNegated(t: string, v: nat)
    requires t != [] && AllDigits(t) && DigitsValue(t) == v && v <= 0x8000_0000
    ensures Stoi("-" + t) == Some(-(v as int))
  {
    NegatedDigits(t);
  }

  /** A minus sign is not white space, and the digits after it are all
      read. */
  lemma NegatedDigits(t: string)
    requires AllDigits(t)
    ensures ("-" + t)[0] == '-' && SkipSpace("-" + t) == "-" + t
    ensures DigitPrefix(("-" + t)[1..]) == t
  {
    assert ("-" + t)[0] == '-';
    assert ("-" + t)[1..] == t;
  }

  /** Reading back a rendered int gives the int. */
  lemma StoiReadsRendered(n: int)
    requires InIntRange(n)
    ensures Stoi(IntToString(n)) == Some(n)
  {
    if n >= 0 {
      NatToStringRoundTrip(n);
      assert IntToString(n) == NatToString(n);
      StoiReadsDigits(NatToString(n));
    } else {
      NatToStringRoundTrip(-n);
      assert IntToString(n) == "-" + NatToString(-n);
      StoiReadsNegated(NatToString(-n), -n);
    }
  }

  // ----------------------------------------------------------- compute

  /** std::round: to the nearest integer, halves away from zero. */
  function RoundHalfAway(x: real): (r: int)
    ensures x >= 0.0 ==> r as real - 0.5 <= x < r as real + 0.5
    ensures x < 0.0 ==> r as real - 0.5 < x <= r as real + 0.5
  {
    if x >= 0.0 then (x + 0.5).Floor else -((-x + 0.5).Floor)
  }

  /** The value a shard contributes: what stod reads, or nothing. */
  function ShardValue(shard: string, stod: Stod): real {
    match stod(shard)
    case Some(v) => v
    case None => 0.0
  }

  /** compute's running total: the shards stod can read, added in order. */
  function ParsedTotal(shards: seq<string>, stod: Stod): real {
    if shards == [] then 0.0
    else ParsedTotal(shards[..|shards| - 1], stod) + ShardValue(shards[|shards| - 1], stod)
  }

  lemma {:induction false} ParsedTotalAppend(a: seq<string>, b: seq<string>, stod: Stod)
    ensures ParsedTotal(a + b, stod) == ParsedTotal(a, stod) + ParsedTotal(b, stod)
  {
    if b != [] {
      assert (a + b)[..|a + b| - 1] == a + b[..|b| - 1];
      ParsedTotalAppend(a, b[..|b| - 1], stod);
    } else {
      assert a + b == a;
    }
  }

  /** compute: the rounded total of the shards, as decimal text; no
      shards gives "0". */
  function Compute(shards: seq<string>, stod: Stod): (r: string)
    ensures shards == [] ==> r == "0"
    ensures r == IntToString(RoundHalfAway(ParsedTotal(shards, stod)))
  {
    IntToString(RoundHalfAway(ParsedTotal(shards, stod)))
  }

  /** A shard stod cannot read changes nothing, wherever it stands. */
  lemma ComputeSkipsUnreadable(a: seq<string>, bad: string, b: seq<string>, stod: Stod)
    requires stod(bad).None?
    ensures Compute(a + [bad] + b, stod) == Compute(a + b, stod)
  {
    ParsedTotalAppend(a + [bad], b, stod);
    ParsedTotalAppend(a, [bad], stod);
    ParsedTotalAppend(a, b, stod);
    assert ParsedTotal([bad], stod) == ParsedTotal([], stod) + ShardValue(bad, stod);
  }

  // ---------------------------------------------------------- aggregate

  /** The value a client result contributes: what stoi reads, or nothing. */
  function ResultValue(result: string): int {
    match Stoi(result)
    case Some(v) => v
    case None => 0
  }

  /** aggregateResults' running total over the results stoi can read. */
  function ReadTotal(results: seq<string>): int {
    if results == [] then 0 else ReadTotal(results[..|results| - 1]) + ResultValue(results[|results| - 1])
  }

  /** aggregateResults: "0" for no results, otherwise the decimal total of
      the results that read as ints. */
  function Aggregate(results: seq<string>): (r: string)
    ensures results == [] ==> r == "0"
    ensures r == IntToString(ReadTotal(results))
  {
    if results == [] then "0" else IntToString(ReadTotal(results))
  }

  lemma {:induction false} ReadTotalAppend(a: seq<string>, b: seq<string>)
    ensures ReadTotal(a + b) == ReadTotal(a) + ReadTotal(b)
  {
    if b != [] {
      assert (a + b)[..|a + b| - 1] == a + b[..|b| - 1];
      assert ReadTotal(a + b) == ReadTotal(a + b[..|b| - 1]) + ResultValue(b[|b| - 1]);
      assert ReadTotal(b) == ReadTotal(b[..|b| - 1]) + ResultValue(b[|b| - 1]);
      ReadTotalAppend(a, b[..|b| - 1]);
    } else {
      assert a + b == a;
    }
  }

  lemma {:induction false} ReadTotalPermutation(a: seq<string>, b: seq<string>)
    requires multiset(a) == multiset(b)
    ensures ReadTotal(a) == ReadTotal(b)
    decreases |a|
  {
    if a != [] {
      var x := a[|a| - 1];
      assert x in multiset(b);
      var j :| 0 <= j < |b| && b[j] == x;
      var a' := a[..|a| - 1];
      var b' := b[..j] + b[j + 1..];
      assert a == a' + [x];
      assert b == b[..j] + [x] + b[j + 1..];
      assert multiset(a) == multiset(a') + multiset{x};
      assert multiset(b) == multiset(b[..j]) + multiset{x} + multiset(b[j + 1..]);
      assert multiset(b') == multiset(b[..j]) + multiset(b[j + 1..]);
      assert multiset(a') == multiset(a) - multiset{x};
      assert multiset(b') == multiset(b) - multiset{x};
      ReadTotalPermutation(a', b');
      ReadTotalAppend(a', [x]);
      ReadTotalAppend(b[..j] + [x], b[j + 1..]);
      ReadTotalAppend(b[..j], [x]);
      ReadTotalAppend(b[..j], b[j + 1..]);
      assert ReadTotal([x]) == ReadTotal([]) + ResultValue(x);
    } else {
      assert b == [];
    }
  }

  /** The aggregate does not depend on the order of the results. */
  lemma AggregateOrderFree(a: seq<string>, b: seq<string>)
    requires multiset(a) == multiset(b)
    ensures Aggregate(a) == Aggregate(b)
  {
    ReadTotalPermutation(a, b);
  }

  /** The clients' rendered results read back exactly: the aggregate of
      results rendered from ints is the decimal text of their sum. */
  lemma {:induction false} AggregateOfRendered(values: seq<int>)
    requires forall k :: 0 <= k < |values| ==> InIntRange(values[k])
    ensures var results := seq(|values|, k requires 0 <= k < |values| => IntToString(values[k]));
            ReadTotal(results) == IntSum(values)
  {
    var results := seq(|values|, k requires 0 <= k < |values| => IntToString(values[k]));
    if values != [] {
      var n := |values| - 1;
      var init := seq(n, k requires 0 <= k < n => IntToString(values[..n][k]));
      assert results[..n] == init;
      AggregateOfRendered(values[..n]);
      StoiReadsRendered(values[n]);
    }
  }

  function IntSum(values: seq<int>): int {
    if values == [] then 0 else IntSum(values[..|values| - 1]) + values[|values| - 1]
  }
}

=== FILE: text.dfy ===
/** Character and string helpers: decimal rendering of integers (the
    model's std::to_string / str), substring search and the lexicographic
    order of std::string. */
module Text {

  predicate IsDigit(c: char) {
    '0' <= c <= '9'
  }

  /** isspace in the C locale. */
  predicate IsCSpace(c: char) {
    c == ' ' || c == '\t' || c == '\n' || c == '\r' || c as int == 11 || c as int == 12
  }

  predicate AllDigits(s: string) {
    forall i :: 0 <= i < |s| ==> IsDigit(s[i])
  }

  function DigitValue(c: char): nat
    requires IsDigit(c)
  {
    c as int - '0' as int
  }

  function DigitChar(d: nat): (c: char)
    requires d < 10
    ensures IsDigit(c) && DigitValue(c) == d
  {
    ('0' as int + d) as char
  }

  /** The value of a run of decimal digits, most significant first. */
  function DigitsValue(s: string): nat
    requires AllDigits(s)
  {
    if s == [] then 0 else DigitsValue(s[..|s| - 1]) * 10 + DigitValue(s[|s| - 1])
  }

  /** Shortest decimal rendering of a natural number, as std::to_string and
      Python's str print it. */
  function NatToString(n: nat): (r: string)
    ensures |r| > 0 && AllDigits(r)
    ensures r[0] == '0' ==> n == 0
  {
    if n < 10 then [DigitChar(n)] else NatToString(n / 10) + [DigitChar(n % 10)]
  }

  /** Decimal rendering of a signed integer: a minus sign for negatives. */
  function IntToString(i: int): (r: string)
    ensures |r| > 0
    ensures i >= 0 <==> AllDigits(r)
    ensures (r[0] == '-' || IsDigit(r[0])) && AllDigits(r[1..])
  {
    if i < 0 then
      var r := "-" + NatToString(-i);
      assert !IsDigit(r[0]);
      r
    else NatToString(i)
  }

  /** Reading back a rendered natural number gives the number. */
  lemma {:induction false} NatToStringRoundTrip(n: nat)
    ensures DigitsValue(NatToString(n)) == n
  {
    if n >= 10 {
      var s := NatToString(n);
      assert s[..|s| - 1] == NatToString(n / 10);
      NatToStringRoundTrip(n / 10);
    }
  }

  /** Distinct numbers render differently. */
  lemma NatToStringInjective(m: nat, n: nat)
    requires NatToString(m) == NatToString(n)
    ensures m == n
  {
    NatToStringRoundTrip(m);
    NatToStringRoundTrip(n);
  }

  /** Distinct integers render differently. */
  lemma IntToStringInjective(a: int, b: int)
    requires IntToString(a) == IntToString(b)
    ensures a == b
  {
    if a >= 0 && b >= 0 {
      NatToStringInjective(a, b);
    } else if a < 0 && b < 0 {
      assert IntToString(a)[1..] == NatToString(-a);
      assert IntToString(b)[1..] == NatToString(-b);
      NatToStringInjective(-a, -b);
    }
  }

  predicate StartsWith(s: string, p: string) {
    |p| <= |s| && s[..|p|] == p
  }

  /** Python's `t in s` and a successful std::string::find. */
  predicate Contains(s: string, t: string) {
    exists i | 0 <= i <= |s| :: OccursAt(s, t, i)
  }

  /** `t` occurs in `s` starting at index `i`. */
  predicate OccursAt(s: string, t: string, i: int) {
    0 <= i && i + |t| <= |s| && s[i..i + |t|] == t
  }

  lemma ContainsPrefix(s: string, t: string)
    requires StartsWith(s, t)
    ensures Contains(s, t)
  {
    assert OccursAt(s, t, 0);
  }

  lemma ContainsInLonger(p: string, s: string, q: string, t: string)
    requires Contains(s, t)
    ensures Contains(p + s + q, t)
  {
    var i :| 0 <= i <= |s| && OccursAt(s, t, i);
    assert 0 <= i && i + |t| <= |s| && s[i..i + |t|] == t;
    var j := |p| + i;
    assert (p + s + q)[j..j + |t|] == s[i..i + |t|];
    assert OccursAt(p + s + q, t, j);
  }

  /** std::string operator<: lexicographic comparison, a proper prefix
      ordering first. */
  predicate LexLess(a: string, b: string)
    decreases |a|
  {
    if |a| == 0 then |b| > 0
    else if |b| == 0 then false
    else if a[0] != b[0] then a[0] < b[0]
    else LexLess(a[1..], b[1..])
  }

  /** For two different identifiers exactly one is the smaller; an
      identifier is never smaller than itself. */
  lemma {:induction false} LexLessTrichotomy(a: string, b: string)
    ensures !LexLess(a, a)
    ensures a != b ==> (LexLess(a, b) <==> !LexLess(b, a))
    decreases |a|
  {
    if |a| > 0 {
      LexLessTrichotomy(a[1..], a[1..]);
      if |b| > 0 && a[0] == b[0] {
        LexLessTrichotomy(a[1..], b[1..]);
        if a != b {
          assert a == [a[0]] + a[1..] && b == [b[0]] + b[1..];
        }
      }
    }
  }
}

=== FILE: uuid.dfy ===
/** The client identifier both clients generate: "client-" and 32 random
    hexadecimal digits grouped 8-4-4-4-12 by dashes. The digits are drawn
    by the caller; no version or variant digit is fixed. */
module Uuid {
  import opened Wrappers
  import Signature

  const Prefix: string := "client-"
  const Length: nat := 43

  /** A dash is written before digits 8, 12, 16 and 20. */
  predicate DashBefore(i: int) {
    i == 8 || i == 12 || i == 16 || i == 20
  }

  /** How many dashes precede digit `i`'s own dash slot. */
  function DashesBelow(i: int): nat {
    (if i > 8 then 1 else 0) + (if i > 12 then 1 else 0)
    + (if i > 16 then 1 else 0) + (if i > 20 then 1 else 0)
  }

  /** Where digit `i` lands in the identifier. */
  function Position(i: nat): nat {
    |Prefix| + i + DashesBelow(i + 1)
  }

  predicate ValidNibbles(ns: seq<int>) {
    |ns| == 32 && forall i :: 0 <= i < |ns| ==> 0 <= ns[i] < 16
  }

  /** An identifier in the generated layout: the prefix, dashes at 15, 20,
      25 and 30, and a lowercase hexadecimal digit everywhere else. */
  predicate WellFormed(id: string) {
    && |id| == Length && id[..|Prefix|] == Prefix
    && id[15] == '-' && id[20] == '-' && id[25] == '-' && id[30] == '-'
    && forall i :: 0 <= i < 32 ==> Signature.IsLowerHex(id[Position(i)])
  }

  /** Reads the 32 digits back out of an identifier. */
  function Digits(id: string): (r: Option<seq<int>>)
    ensures r.Some? ==> ValidNibbles(r.value)
  {
    if !WellFormed(id) then None
    else
      var ds := seq(32, i requires 0 <= i < 32 => Signature.HexValue(id[Position(i)]).value);
      Some(ds)
  }

  /** generateUUID: writes each digit `ss << std::hex << d`, one lowercase
      character, with a dash first at the group boundaries. */
  method GenerateUuid(ns: seq<int>) returns (id: string)
    requires ValidNibbles(ns)
    ensures WellFormed(id)
    ensures forall i :: 0 <= i < 32 ==> id[Position(i)] == Signature.LowerHexDigit(ns[i])
    ensures Digits(id) == Some(ns)
  {
    var s := "";
    var i := 0;
    while i < 32
      invariant 0 <= i <= 32
      invariant |s| == i + DashesBelow(i)
      invariant forall k :: 0 <= k < i ==> s[Position(k) - |Prefix|] == Signature.LowerHexDigit(ns[k])
      invariant forall d :: 0 <= d < i && DashBefore(d) ==> s[Position(d) - |Prefix| - 1] == '-'
    {
      if DashBefore(i) {
        s := s + "-";
      }
      s := s + [Signature.LowerHexDigit(ns[i])];
      i := i + 1;
    }
    id := Prefix + s;
    assert s[Position(8) - |Prefix| - 1] == '-' && s[Position(12) - |Prefix| - 1] == '-';
    assert s[Position(16) - |Prefix| - 1] == '-' && s[Position(20) - |Prefix| - 1] == '-';
    PrefixedDigits(s, ns);
  }

  /** The written digits and dashes, once prefixed, form a well-formed
      identifier that reads back as the digits. */
  lemma PrefixedDigits(s: string, ns: seq<int>)
    requires ValidNibbles(ns) && |s| == 36
    requires forall k :: 0 <= k < 32 ==> s[Position(k) - |Prefix|] == Signature.LowerHexDigit(ns[k])
    requires s[8] == '-' && s[13] == '-' && s[18] == '-' && s[23] == '-'
    ensures WellFormed(Prefix + s)
    ensures forall i :: 0 <= i < 32 ==> (Prefix + s)[Position(i)] == Signature.LowerHexDigit(ns[i])
    ensures Digits(Prefix + s) == Some(ns)
  {
    var id := Prefix + s;
    assert forall k :: 0 <= k < 32 ==> id[Position(k)] == s[Position(k) - |Prefix|];
    forall k | 0 <= k < 32 ensures Signature.HexValue(id[Position(k)]).value == ns[k] {
      Signature.HexValueOfDigit(ns[k]);
    }
    var ds := seq(32, k requires 0 <= k < 32 => Signature.HexValue(id[Position(k)]).value);
    assert ds == ns;
  }
}

=== FILE: wrappers.dfy ===
/** Failure-carrying wrappers shared by every component of the model. */
module Wrappers {

  /** An optional value: the model's rendering of std::optional and of
      "parse returned nothing". */
  datatype Option<+T> = None | Some(value: T) {
    predicate IsFailure() {
      None?
    }

    function PropagateFailure<U>(): Option<U>
      requires None?
    {
      None
    }

    function Extract(): T
      requires Some?
    {
      value
    }

    function GetOr(default: T): T {
      match this
      case Some(v) => v
      case None => default
    }
  }

  /** A value or the message of the exception the source would throw. */
  datatype Result<+R> = Success(value: R) | Failure(error: string) {
    predicate IsFailure() {
      Failure?
    }

    function PropagateFailure<U>(): Result<U>
      requires Failure?
    {
      Failure(error)
    }

    function Extract(): R
      requires Success?
    {
      value
    }
  }
}
